=== FILE: README.md ===
# content-miner: the text-processing core, modelled in Dafny

content-miner is a React front end. It shows an AI-written analysis of a
YouTube video or channel. Its logic lives in a few components:

- **`parseSummary`** (frontend/src/components/ResultDisplay.jsx) cleans the
  summary text of its sentinel markers and cuts it into `## ` sections with
  slug ids. The video view then picks the TL;DR section out of them.
- **`processContent`** (both versions of `ContentCard.jsx`) wraps every
  `m:ss` timestamp in a markdown link. In the design-system version it also
  reflows dense clause-laden sentences into bullet lists.
  `getSectionConfig` picks a card style from the section type or its title.
  The link renderer of src/components/ContentCard.jsx turns a timestamp
  link back into its timestamp. The frontend copy of that renderer fails on
  every timestamp link (see "## Findings").
- **`extractKPIs` / `extractFromText` / `formatNumber`**
  (frontend/src/components/ChannelKPIs.jsx) pull six channel figures out of
  metadata or regex matches on the analysis text, and format them for the
  KPI grid.
- **`validateURL` and `handleSubmit`** (src/components/URLInputModal.jsx)
  accept or reject a YouTube URL.
- **`getVideoId` and the thumbnail address**
  (src/components/VideoMetadata.jsx) pick the video id out of a URL.

The model is a set of pure functions over `string = seq<char>`.

Every regular expression is modelled as the backtracking engine runs it: a
left-to-right scan for the leftmost match, taking the alternatives in order.
A declarative reading of the same language sits next to each scan. Lemmas
prove that the two agree, in both directions: what the scan matches fits
the reading, and what fits the reading at a position is what the scan
matches there. `String.prototype.replace`
with a global regex is one generic scan (`Scan.Tokenize` / `Scan.Render`),
which the cleaning step, timestamp wrapping and the reflow all use.

Modules, one per concern:

| module | file | models |
|---|---|---|
| `Text` | text.dfy | `trim`, ASCII `toLowerCase`, `includes`, `split`, `join` |
| `Seqs` | seqs.dfy | `filter`, `find`, `map` |
| `Scan` | scan.dfy | global `replace` |
| `Sentinel` | sentinel.dfy | the marker stripping of `parseSummary` |
| `Sections` | sections.dfy | `parseSummary` and the TL;DR pick |
| `Timestamps` | timestamps.dfy | timestamp wrapping, and the link renderer's recovery |
| `Reflow` | reflow.dfy | the bullet reflow |
| `ContentCard` | content_card.dfy | both `processContent`s, and `getSectionConfig` |
| `Numbers` | numbers.dfy | `parseInt`, en-US `toLocaleString`, `toFixed(1)` |
| `KpiPatterns` | kpi_patterns.dfy | the six KPI regexes and `String.prototype.match` |
| `Kpis` | kpis.dfy | `extractKPIs`, `extractFromText`, `formatNumber`, the grid |
| `UrlInput` | url_input.dfy | `validateURL`, `handleSubmit` |
| `VideoMetadata` | video_metadata.dfy | `getVideoId`, the thumbnail |

## Behaviour of the code worth knowing

- **Section ids.** Ids are neither collapsed nor edge-trimmed. The
  replacement maps each UTF-16 code unit of the lower-cased title to one
  character, so runs of punctuation give runs of '-' (`Sections.Slug`).
- **Duplicate ids.** Headings with equal ids stay separate sections
  (`Sections.DuplicateIdsKept`).
- **MARKDOWN markers.** Only the two MARKDOWN marker strings are deleted;
  the text they wrap is kept when it holds no "---" of its own
  (`Sentinel.MarkdownWrapperKept`). The JSON and SOCIAL blocks are deleted
  with their contents (`Sentinel.BlockRemovalSpec`).
- **Idempotence.** Cleaning is not idempotent: deleting a marker can join
  the text around it into a new marker (`Sentinel.CleanNotIdempotent`).

## Model

| member | source | states |
|---|---|---|
| Sentinel.CleanSummary | frontend/src/components/ResultDisplay.jsx:28-33 | the cleaned summary is never longer than the raw one |
| Sentinel.RemoveNotLonger | frontend/src/components/ResultDisplay.jsx:29-32 | deleting every match of any regex never lengthens the text |
| Sentinel.MarkerRemovalSpec | frontend/src/components/ResultDisplay.jsx:29-30 | deleting a literal marker removes exactly its leftmost non-overlapping occurrences, keeps every other character in order, and shortens the text by one marker length per occurrence |
| Sentinel.BlockAtSpec | frontend/src/components/ResultDisplay.jsx:31-32 | the lazy `start[\s\S]*?end` match at a position is a shortest block (opens with the start marker, closes with the end marker, no end marker earlier after the start), and any shortest block starting there is that match |
| Sentinel.BlockRemovalSpec | frontend/src/components/ResultDisplay.jsx:31-32 | the JSON or SOCIAL removal cuts the text into kept characters and blocks that give it back; every block cut out is a shortest block, and no kept character starts one, so each shortest block the scan reaches is deleted |
| Sentinel.JsonBlockCut | frontend/src/components/ResultDisplay.jsx:28-33 | example: "a" + JSON start + "x" + JSON end + "b" cleans to "ab" |
| Sentinel.UnmatchedStartSurvives | frontend/src/components/ResultDisplay.jsx:31-32 | with no end marker anywhere, an opening marker is not removed and the text is unchanged |
| Sentinel.MarkerAbsentUnchanged | frontend/src/components/ResultDisplay.jsx:29-30 | a marker that does not occur leaves the text unchanged |
| Sentinel.MarkdownWrapperKept | frontend/src/components/ResultDisplay.jsx:28-33 | the MARKDOWN start and end markers are deleted, while the text between them is kept and trimmed, for any wrapped text holding no "---" (the lead of every marker), hyphens and "- " list items included |
| Sentinel.CleanNotIdempotent | frontend/src/components/ResultDisplay.jsx:28-33 | cleaning twice can differ from cleaning once: one text cleans to a closing MARKDOWN marker, which then cleans to "" |
| Scan.TokenizeConforms | frontend/src/components/ResultDisplay.jsx:29-32 | the global-replace scan cuts the text into pieces that give it back, each hit being the regex's match where it stands and each kept character a place with no match |
| Scan.ConformsUnique | frontend/src/components/ResultDisplay.jsx:29-32 | any cut that gives the text back and agrees with the regex everywhere is the scan's, so the leftmost non-overlapping cut is unique |
| Scan.NoMatchUnchanged | src/components/ContentCard.jsx:21 | a replace whose regex matches nowhere returns the text unchanged |
| Scan.RenderLength | src/components/ContentCard.jsx:21-23 | a replacement adding a fixed number of characters per match adds that many per hit to the text |
| Scan.RenderAppend | src/components/ContentCard.jsx:21-23 | rendering distributes over concatenation of pieces, so characters outside matches keep their place and order |
| Scan.RenderNoMatchPrefix | src/components/ContentCard.jsx:21-23 | a stretch with no match in it passes through unchanged ahead of the rest |
| Text.Trim | frontend/src/components/ResultDisplay.jsx:33 | `trim` returns the infix left after removing edge whitespace; it is empty exactly when the text is all whitespace, and otherwise starts and ends with a non-space |
| Text.JoinSplit | frontend/src/components/ContentCard.jsx:88-90 | splitting on one separator character and joining with it gives the text back |
| Text.SplitJoin | frontend/src/components/ContentCard.jsx:88-90 | joining separator-free pieces and splitting again gives the pieces back |
| Sections.Slug | frontend/src/components/ResultDisplay.jsx:46 | the id has the title's length and only `[a-z0-9-]`; position i is '-' exactly when title character i is not an ASCII letter or digit, and is that character lower-cased otherwise |
| Sections.EmptySummary | frontend/src/components/ResultDisplay.jsx:25 | a missing or empty summary yields no sections |
| Sections.SectionCount | frontend/src/components/ResultDisplay.jsx:36-57 | the number of sections is the number of lines whose trimmed form starts with "## ", so indented headings count |
| Sections.SectionOfHeading | frontend/src/components/ResultDisplay.jsx:41-51 | the heading at line h opens the section at position "headings before h"; its title is the heading's title, its id is the slug, and its content is the non-blank lines up to the next heading, untrimmed and in order |
| Sections.CollectIsOutline | frontend/src/components/ResultDisplay.jsx:39-57 | the `forEach` fold with its open section equals the declarative outline (one section per heading, holding the body below it); lines before the first heading are dropped |
| Sections.OutlineLength | frontend/src/components/ResultDisplay.jsx:39-57 | the outline holds one section per heading line |
| Sections.OutlineAt | frontend/src/components/ResultDisplay.jsx:41-51 | the outline's section for heading h holds exactly the body that follows h |
| Sections.ClassifyShape | frontend/src/components/ResultDisplay.jsx:40-51 | a heading's title is non-empty, ends in a non-space, and is the trimmed line minus "## "; a text line is kept untrimmed and is never blank |
| Sections.DuplicateIdsKept | frontend/src/components/ResultDisplay.jsx:42-49 | example: two headings with the same id give two separate sections, each with its own content |
| Sections.PaddingIgnored | frontend/src/components/ResultDisplay.jsx:40 | `trim` drops leading whitespace: a padded line trims at the start to the same text as the unpadded one |
| Sections.PaddedLine | frontend/src/components/ResultDisplay.jsx:40-51 | leading whitespace changes neither whether a line is a heading, nor its title, nor whether it is blank; a text line is stored with its padding |
| Sections.IndentedHeading | frontend/src/components/ResultDisplay.jsx:40-47 | an indented "## " line is a heading, and its title is the text after the prefix |
| Sections.TldrPartition | frontend/src/components/ResultDisplay.jsx:64-65 | the TL;DR pick is the first section whose lower-cased title contains "tl;dr"; the other sections are the non-TL;DR ones and keep their order (splitting the list at any index splits the result there); with the TL;DR ones they are a permutation of all sections |
| Sections.OthersInOrder | frontend/src/components/ResultDisplay.jsx:65 | the non-TL;DR sections of a concatenation are those of each part in turn, and one section is kept exactly when it is not TL;DR, which fixes the result and its order |
| Seqs.FindIsFilterHead | frontend/src/components/ResultDisplay.jsx:64-65 | `find` finds something exactly when the filter is non-empty, and returns its head; when it finds nothing, the negated filter keeps everything |
| Seqs.FilterAppend | frontend/src/components/ResultDisplay.jsx:65 | `filter` of a concatenation is the concatenation of the filters, so it keeps source order |
| Seqs.FilterPartition | frontend/src/components/ResultDisplay.jsx:65 | filtering by a predicate and by its negation splits the list as a multiset |
| Timestamps.TimestampAtSpec | src/components/ContentCard.jsx:21 | the engine's match at a position is a `\d{1,2}:\d{2}` word, and no other prefix there is one, so the order of the quantifier's choices does not matter |
| Timestamps.AnchorLength | src/components/ContentCard.jsx:22 | an anchor is the timestamp plus 25 characters |
| Timestamps.WrapSpec | src/components/ContentCard.jsx:21-23 | wrapping cuts the text into kept characters and timestamps, left to right and non-overlapping; the cut gives the text back, every hit is a `\d{1,2}:\d{2}` word, and no timestamp starts at a kept character |
| Timestamps.WrapLength | src/components/ContentCard.jsx:21-23 | the output is the input plus 25 characters per wrapped timestamp |
| Timestamps.NoColonUnchanged | src/components/ContentCard.jsx:21 | text without a colon holds no timestamp and is returned unchanged |
| Timestamps.ThreeLeadingDigits | src/components/ContentCard.jsx:21 | example: in "123:45" only "23:45" is wrapped |
| Timestamps.ThreeTrailingDigits | src/components/ContentCard.jsx:21 | example: in "1:234" only "1:23" is wrapped |
| Timestamps.WrapKeepsCount | frontend/src/components/ContentCard.jsx:81-83 | a class of characters absent from the anchor wrapper keeps its count through wrapping |
| Timestamps.RecoverTimestamp | src/components/ContentCard.jsx:67-84 | the link renderer of this version, given a wrapped timestamp's target and label, draws a timestamp button holding exactly the original timestamp |
| Timestamps.NoStopwatchPlainLink | src/components/ContentCard.jsx:67-84 | a link with another target, or whose text lacks the stopwatch, is drawn as an ordinary link |
| Timestamps.FrontendRenderLink | frontend/src/components/ContentCard.jsx:179-196 | the frontend renderer fails exactly where the src renderer would draw a timestamp button, and otherwise draws the same ordinary link |
| Timestamps.FrontendAnchorFails | frontend/src/components/ContentCard.jsx:179-196 | every anchor made by the wrapping aborts the frontend renderer, while the src renderer recovers its timestamp |
| Reflow.ReflowAtSpec | frontend/src/components/ContentCard.jsx:87 | the engine's match at a position is a run (no '.' or '\n', at least two ',' or ';', then '.'), and no other prefix there is one |
| Reflow.ReflowSpec | frontend/src/components/ContentCard.jsx:87 | the reflow cuts the text into kept characters and runs, left to right; the cut gives the text back, every hit is a run, and whatever precedes a run ends in '.' or '\n', so runs are maximal |
| Reflow.HitIsRun | frontend/src/components/ContentCard.jsx:87 | every replaced piece is a run |
| Reflow.KeptBeforeHit | frontend/src/components/ContentCard.jsx:87 | a kept character right before a run is a '.' or '\n', so each run is maximal to the left |
| Reflow.NoDotUnchanged | frontend/src/components/ContentCard.jsx:87 | text with no '.' passes through the reflow unchanged |
| Reflow.PieceOrigin | frontend/src/components/ContentCard.jsx:88 | every piece is a trimmed part of the run split on ',' and ';' |
| Reflow.NoDotInBullets | frontend/src/components/ContentCard.jsx:88-90 | no bullet body holds a '.' |
| Reflow.PiecesOneLine | frontend/src/components/ContentCard.jsx:88 | no piece holds a line break |
| Reflow.BulletizeFixed | frontend/src/components/ContentCard.jsx:88-92 | a run is returned unchanged exactly when it has at most two non-empty trimmed pieces |
| Reflow.ShortRunsUnchanged | frontend/src/components/ContentCard.jsx:87-93 | when no run of the text has more than two pieces, the reflow returns the text unchanged |
| Reflow.TwoPieceRunKept | frontend/src/components/ContentCard.jsx:87-93 | example: "a,,b." is a run of the two pieces "a" and "b." and is kept as it is |
| Reflow.BulletLines | frontend/src/components/ContentCard.jsx:88-90 | a run with more than two pieces becomes, line by line, an empty line, one "• " line per piece in order, and an empty line, so there are as many bullets as pieces |
| ContentCard.VersionsAgree | frontend/src/components/ContentCard.jsx:79-97 | without the design system, the frontend `processContent` equals the timestamp-only version of src/components/ContentCard.jsx |
| ContentCard.WrapKeepsClauseMarks | frontend/src/components/ContentCard.jsx:81-87 | wrapping timestamps first changes neither the number of '.'/'\n' nor the number of ','/';' the reflow sees |
| ContentCard.NoSentenceNoBullets | frontend/src/components/ContentCard.jsx:79-97 | with the design system, text without '.' gets only the timestamp wrapping |
| ContentCard.KeyRoundTrip | frontend/src/components/ContentCard.jsx:43-76 | every style entry is found again under its own key |
| ContentCard.TitleRulePrecedence | frontend/src/components/ContentCard.jsx:35-41 | title detection picks the first rule, in the source's order, that the lower-cased title satisfies, and default when none does |
| ContentCard.ExplicitTypeWins | frontend/src/components/ContentCard.jsx:35-36 | a non-empty section type decides the entry, whatever the title |
| ContentCard.UnknownTypeIsDefault | frontend/src/components/ContentCard.jsx:76 | a non-empty type that names no entry gives the default entry |
| ContentCard.NoTypeUsesTitle | frontend/src/components/ContentCard.jsx:35-41 | with no type (or an empty one) the title decides, and with no title either the default entry is used |
| Numbers.Decimal | frontend/src/components/ChannelKPIs.jsx:68 | the numeral is non-empty, all digits, has no leading zero, and denotes the number |
| Numbers.DigitRun | frontend/src/components/ChannelKPIs.jsx:59 | `parseInt` reads the longest prefix of digits of the radix |
| Numbers.ParseLeadingInteger | frontend/src/components/ChannelKPIs.jsx:58-59 | `parseInt` of a numeral followed by a non-digit tail gives the numeral's value |
| Numbers.ParseDecimal | frontend/src/components/ChannelKPIs.jsx:59 | `parseInt` of a number's numeral gives the number back |
| Numbers.UngroupGroup | frontend/src/components/ChannelKPIs.jsx:59 | removing commas undoes digit grouping |
| Numbers.LocaleRoundTrip | frontend/src/components/ChannelKPIs.jsx:58-68 | a locale-formatted integer, with its commas removed, parses back to itself |
| Numbers.Tenths | frontend/src/components/ChannelKPIs.jsx:63-66 | the tenths count is the quotient to the nearest tenth: below it by at most half a unit, above it by less than half |
| KpiPatterns.EndAtSpec | frontend/src/components/ChannelKPIs.jsx:21-26 | the end the engine settles on completes a match, and no end is found where none does |
| KpiPatterns.MatchEndUnique | frontend/src/components/ChannelKPIs.jsx:21-26 | at a given start at most one group end completes a match, so the engine's alternative order does not change the capture |
| KpiPatterns.SuffixStart | frontend/src/components/ChannelKPIs.jsx:21-26 | what follows a group starts with whitespace or a letter, never with a character a group can hold |
| KpiPatterns.LeftmostGroup | frontend/src/components/ChannelKPIs.jsx:45-46 | given a match with no match further left, `match(...)[1]` is that match's group |
| KpiPatterns.MatchGroupSpec | frontend/src/components/ChannelKPIs.jsx:45-46 | the group, when there is one, is a match's group with no match further left; there is none exactly when the pattern matches nowhere |
| Kpis.ExtractFromText | frontend/src/components/ChannelKPIs.jsx:43-44 | the result is null or a string, and a non-string text gives null |
| Kpis.ExtractFromTextSpec | frontend/src/components/ChannelKPIs.jsx:43-47 | on a string, the result is the non-empty group of the leftmost match, which is a word of the pattern's group, or null exactly when nothing matches |
| Kpis.MetadataWins | frontend/src/components/ChannelKPIs.jsx:21-23 | a truthy `subscriber_count`, `video_count` or `total_views` is shown whatever the analysis says |
| Kpis.TextFallback | frontend/src/components/ChannelKPIs.jsx:16-23 | without metadata, the first three figures come from the text pattern |
| Kpis.FalsyFieldFallback | frontend/src/components/ChannelKPIs.jsx:16-23 | for any result, a falsy metadata field (missing, null, 0, "" or false) makes its figure the text pattern's capture from `analysis \|\| {}` |
| Kpis.TextOnlyMetrics | frontend/src/components/ChannelKPIs.jsx:24-26 | average views, engagement and upload rate do not depend on the metadata |
| Kpis.NonTextAnalysis | frontend/src/components/ChannelKPIs.jsx:17-26 | a non-string analysis makes every text figure null, so the first three are the metadata field when truthy and null otherwise |
| Kpis.EngagementHasPercent | frontend/src/components/ChannelKPIs.jsx:25 | an engagement figure, when present, ends in '%' |
| Kpis.PercentEngagement | frontend/src/components/ChannelKPIs.jsx:25 | any percentage followed by " engagement" is captured with its sign |
| Kpis.MagnitudeSuffix | frontend/src/components/ChannelKPIs.jsx:63-68 | the display ends in 'M' exactly from a million up and in 'K' exactly from a thousand to below a million; below that it is the locale form, which parses back to the number |
| Kpis.MagnitudeRounds | frontend/src/components/ChannelKPIs.jsx:63-67 | an M or K display is the number rounded to the nearest tenth of a million or a thousand, written with one decimal |
| Kpis.LocaleChars | frontend/src/components/ChannelKPIs.jsx:68 | a locale string is non-empty and holds only digits, commas and a leading minus |
| Kpis.LocaleStringAgrees | frontend/src/components/ChannelKPIs.jsx:50-68 | a nonzero number and its locale string format alike; zero does not (the number is falsy, the string "0" is not) |
| Kpis.FormatIdempotent | frontend/src/components/ChannelKPIs.jsx:49-69 | formatting a formatted value changes nothing |
| Kpis.FormatTruthy | frontend/src/components/ChannelKPIs.jsx:49-69 | the formatted value is never falsy |
| Kpis.NotANumber | frontend/src/components/ChannelKPIs.jsx:61 | a string `parseInt` cannot read is returned as it is |
| Kpis.MagnitudeStable | frontend/src/components/ChannelKPIs.jsx:53-68 | a displayed magnitude formats to itself |
| Kpis.FormatParsed | frontend/src/components/ChannelKPIs.jsx:58-68 | a string with no K, M or B that parses after comma removal shows as the magnitude of the parsed number |
| Kpis.FormatLeading | frontend/src/components/ChannelKPIs.jsx:58-68 | a numeral followed by a tail with no digit first, comma or scale letter shows as the numeral's magnitude |
| Kpis.LeadingIntegerOnly | frontend/src/components/ChannelKPIs.jsx:58-59 | example: "4.5" shows as "4" |
| Kpis.LowerCaseScaleDropped | frontend/src/components/ChannelKPIs.jsx:53-59 | example: "1.2k" fails the upper-case check and shows as "1" |
| Kpis.FalsyIsNA | frontend/src/components/ChannelKPIs.jsx:50 | every falsy value, null and undefined included, shows "N/A" |
| Kpis.ScaledKept | frontend/src/components/ChannelKPIs.jsx:53-55 | every string holding an upper-case K, M or B is shown as it is |
| Kpis.ScaledStringKept | frontend/src/components/ChannelKPIs.jsx:53-55 | example: "1.2M" is shown as it is |
| Kpis.MillionsExample | frontend/src/components/ChannelKPIs.jsx:63-64 | example: 1,500,000 shows as "1.5M" |
| Kpis.ThousandsExample | frontend/src/components/ChannelKPIs.jsx:58-66 | example: "2,340" shows as "2.3K" |
| Kpis.Cards | frontend/src/components/ChannelKPIs.jsx:76-133 | the grid holds between three and six cards |
| Kpis.CardsShape | frontend/src/components/ChannelKPIs.jsx:76-133 | the grid is subscribers, videos and total views in that order, each showing its figure formatted, then one card per truthy optional figure in the order avg views, engagement, upload rate: avg views formatted, the other two as captured; no card shows a falsy value |
| Kpis.ChannelView | frontend/src/components/ChannelKPIs.jsx:5-11 | a missing result draws the loading card and a present one the grid, which starts with subscribers and shows no falsy value |
| UrlInput.ValidateUrlPrefixes | src/components/URLInputModal.jsx:9-10 | validation holds exactly when the string starts with one of the twelve prefixes: no scheme, http:// or https://; with or without www.; then youtube.com/ or youtu.be/ |
| UrlInput.ValidIsListed | src/components/URLInputModal.jsx:9-10 | every accepted string starts with a listed prefix |
| UrlInput.ListedIsValid | src/components/URLInputModal.jsx:9-10 | every string starting with a listed prefix is accepted |
| UrlInput.ValidHasSlash | src/components/URLInputModal.jsx:9 | an accepted string holds a '/' |
| UrlInput.BareHostRejected | src/components/URLInputModal.jsx:9 | a host without its trailing slash is rejected, with any scheme and "www." part |
| UrlInput.ValidStartsWithLetter | src/components/URLInputModal.jsx:9-22 | an accepted string starts with 'h', 'w' or 'y', so validating the untrimmed input rejects leading whitespace |
| UrlInput.SubmitOutcome | src/components/URLInputModal.jsx:13-28 | a submit ends in exactly one way: an error with nothing submitted, or no error and the trimmed URL submitted once; the outcome does not depend on the error shown before |
| UrlInput.BlankInput | src/components/URLInputModal.jsx:17-20 | blank input asks for a URL and submits nothing |
| UrlInput.PaddedUrlRejected | src/components/URLInputModal.jsx:22-25 | a URL with leading whitespace is rejected even when it trims to a valid one |
| UrlInput.ValidSubmitted | src/components/URLInputModal.jsx:13-28 | a URL that validates as typed is submitted trimmed, once, with the error cleared |
| UrlInput.InvalidRejected | src/components/URLInputModal.jsx:17-25 | a non-blank URL that fails validation shows "Please enter a valid YouTube URL" and submits nothing |
| UrlInput.SubmitSucceedsIff | src/components/URLInputModal.jsx:13-28 | a submit clears the error exactly when the URL as typed validates, and exactly then one URL is added |
| UrlInput.SubmittedIsValid | src/components/URLInputModal.jsx:22-27 | a successful submit adds exactly one URL, and that trimmed URL passes validation itself |
| UrlInput.TrimmedValid | src/components/URLInputModal.jsx:27 | trimming keeps an accepted URL accepted |
| VideoMetadata.RunEnd | src/components/VideoMetadata.jsx:6 | the greedy `[^&\n?#]+` run: all id characters, stopped by a non-id character or the end |
| VideoMetadata.RunEndUnique | src/components/VideoMetadata.jsx:6 | any run of id characters stopped by a non-id character or the end is the one the greedy run finds |
| VideoMetadata.FirstMatchFrom | src/components/VideoMetadata.jsx:6 | the unanchored search returns the first start where a marker is followed by an id character, with none before it |
| VideoMetadata.MarkersExclusive | src/components/VideoMetadata.jsx:6 | the two markers never occur at the same place, so the alternation's order does not matter |
| VideoMetadata.MatchesAtIff | src/components/VideoMetadata.jsx:6 | the scanner's match at a start is the greedy match there, and any greedy match there is the scanner's |
| VideoMetadata.GetVideoIdSpec | src/components/VideoMetadata.jsx:6-7 | an id, when found, is the capture of the leftmost greedy match; null exactly when no marker is followed by an id character |
| VideoMetadata.VideoIdShape | src/components/VideoMetadata.jsx:6 | an id is non-empty, holds no '&', newline, '?' or '#', stands right after a marker, and is followed by the end or one of those characters |
| VideoMetadata.FirstMarkerWins | src/components/VideoMetadata.jsx:6-7 | with no 'y' before a marker, the id is the run that follows that marker, so "m.youtube.com/watch?v=X" also gives X |
| VideoMetadata.ThumbnailRoundTrip | src/components/VideoMetadata.jsx:10-11 | a thumbnail exists exactly when an id does, and reading the id back out of the thumbnail address gives that id |

## Findings

| source | as written | input that shows it | evidently intended | confidence | as-written member | corrected member |
|---|---|---|---|---|---|---|
| frontend/src/components/ContentCard.jsx:179-196 | the timestamp button's `title` reads `timestamp`, which is bound only inside the `onClick` closure. Building the element throws a ReferenceError; the same holds for the copy at lines 285-303 | target `javascript:void(0)` with the child "⏱️ 1:23", the anchor the wrapping makes of "1:23" (`Timestamps.FrontendAnchorExample`) | a button for the timestamp "1:23", as the renderer of src/components/ContentCard.jsx:67-84 draws it | high; not executed | Timestamps.FrontendAnchorFails | Timestamps.RecoverTimestamp |

## Left out

- Rendering is not modelled: JSX, ReactMarkdown's parsing of the emitted
  markdown, CSS, icons, clipboard and collapse state. The link renderer
  (`Timestamps.RenderLink`) receives the link target and the text of its
  first child as parameters, in place of ReactMarkdown's node.
- `console.log`, `console.error` and `e.preventDefault()` are side effects
  and are left out. The modal's `setError` and `onSubmit` become the
  `UrlInput.Modal` state.
- Kpis.ExtractKpis: the `catch` branch (frontend/src/components/ChannelKPIs.jsx:30-40)
  is not modelled. In the model, extraction cannot fail on any input.
- Kpis.JsValue: numbers are integers. NaN, Infinity, -0, fractional
  numbers and integers beyond 2^53 are not modelled, and neither is
  `toLocaleString` of a fraction.
- Numbers.Tenths: rounds an exact half up, while `toFixed(1)` rounds the
  nearest binary double. 1150 / 1000 is the double just below 1.15, so the
  source shows "1.1K" where the model shows "1.2K". Kpis.MagnitudeRounds
  states the exact decimal rounding for this reason.
- Kpis.Channel: `result.metadata || {}` is modelled as an optional record
  of the three fields read (`subscriber_count`, `video_count`,
  `total_views`). A truthy metadata value that is not an object reads every
  field as undefined, which is the model's `None`. Other fields of
  `result` are not read.
- Sentinel.MarkdownWrapperKept: wrapped text that itself holds "---" is not
  covered. There a marker can occur inside the text, or be spliced from it
  (`Sentinel.CleanNotIdempotent`). `Sentinel.MarkerRemovalSpec` gives the
  general behaviour.
- ContentCard.UnknownTypeIsDefault: keys inherited from `Object.prototype`
  (`constructor`, `toString`, …) count as unknown types here and give the
  default entry. In the source they look up an inherited function instead.
- Text.Lower: `toLowerCase` is modelled for ASCII letters only. A few
  non-ASCII characters lower-case to ASCII letters, such as U+212A KELVIN
  SIGN to 'k', or to two characters, such as U+0130. So for titles holding
  them, the source's slug, TL;DR check and keyword detection can differ
  from the model's.
- Strings are sequences of Unicode scalar values, not UTF-16 code units.
  A character outside the Basic Multilingual Plane is one element here and
  two code units in the source. This changes lengths, and it changes
  `Sections.Slug` (next line). The stopwatch wrapper uses two BMP code
  points, so its length is the same in both.
- Sections.Slug: a title character outside the Basic Multilingual Plane,
  such as an emoji, becomes two '-' in the source, because the regex has no
  `u` flag and replaces each UTF-16 code unit. In the model it becomes one
  '-'. So "## 🚀 Launch" gets the id "---launch" in the source and
  "--launch" in the model.
- Numbers.Locale: `toLocaleString()` uses the browser's default locale. The
  model assumes en-US grouping: a ',' between groups of three digits, and a
  leading '-'. Under another locale the source prints other separators,
  for example "-5.000" under de-DE.
- The regex `/i` flag is modelled as ASCII case-insensitivity. That is
  exact for the ASCII letters the KPI patterns spell out.
- The channel view's sections, the video view's other panels, navigation,
  and the backend and its HTTP polling lie outside the modelled
  components.

=== FILE: content_card.dfy ===
/** `processContent` and `getSectionConfig` of both `ContentCard` versions
    (src/components/ContentCard.jsx, frontend/src/components/ContentCard.jsx). */
module ContentCard {
  import opened Text
  import Timestamps
  import Reflow

  /** `processContent` of frontend/src/components/ContentCard.jsx:
      timestamps are wrapped first, and only a design-system card reflows
      the wrapped text into bullets. */
  function ProcessContent(text: string, designSystem: bool): string {
    var wrapped := Timestamps.Wrap(text);
    if designSystem then Reflow.Reflow(wrapped) else wrapped
  }

  /** `processContent` of src/components/ContentCard.jsx: timestamps only. */
  function LegacyProcessContent(text: string): string {
    Timestamps.Wrap(text)
  }

  /** Without the design system the two versions render the same text. */
  lemma VersionsAgree(text: string)
    ensures ProcessContent(text, false) == LegacyProcessContent(text)
  {
  }

  /** The anchors hold no '.', '\n', ',' or ';', so wrapping leaves every
      character the reflow looks at where the text had it, counted alike:
      reflow on the wrapped text sees the same clause marks. */
  lemma WrapKeepsClauseMarks(text: string)
    ensures CountWhere(Timestamps.Wrap(text), Reflow.IsStop) == CountWhere(text, Reflow.IsStop)
    ensures CountWhere(Timestamps.Wrap(text), Reflow.IsClauseSep) == CountWhere(text, Reflow.IsClauseSep)
  {
    ShellHoldsNoMarks();
    Timestamps.WrapKeepsCount(text, Reflow.IsStop);
    Timestamps.WrapKeepsCount(text, Reflow.IsClauseSep);
  }

  lemma ShellHoldsNoMarks()
    ensures forall i :: 0 <= i < |Timestamps.Shell| ==> !Reflow.IsStop(Timestamps.Shell[i])
    ensures forall i :: 0 <= i < |Timestamps.Shell| ==> !Reflow.IsClauseSep(Timestamps.Shell[i])
  {
    ShellChars();
    NoneOfMarks(Timestamps.Shell);
  }

  lemma ShellChars()
    ensures '.' !in Timestamps.Shell && '\n' !in Timestamps.Shell
    ensures ',' !in Timestamps.Shell && ';' !in Timestamps.Shell
  {
    var h, w := Timestamps.Href, Timestamps.Stopwatch;
    MarkFree(h);
    MarkFree(w);
    MarkFree("[");
    MarkFree(" ](");
    MarkFree(")");
    assert Timestamps.Shell == "[" + w + " ](" + h + ")";
  }

  lemma MarkFree(s: string)
    requires forall i :: 0 <= i < |s| ==> s[i] != '.' && s[i] != '\n' && s[i] != ',' && s[i] != ';'
    ensures '.' !in s && '\n' !in s && ',' !in s && ';' !in s
  {
  }

  lemma NoneOfMarks(s: string)
    requires '.' !in s && '\n' !in s && ',' !in s && ';' !in s
    ensures forall i :: 0 <= i < |s| ==> !Reflow.IsStop(s[i])
    ensures forall i :: 0 <= i < |s| ==> !Reflow.IsClauseSep(s[i])
  {
  }

  /** A design-system card whose text has no '.' shows only the timestamp
      wrapping: the anchors add no '.', so the reflow finds no run. */
  lemma NoSentenceNoBullets(text: string)
    requires '.' !in text
    ensures ProcessContent(text, true) == LegacyProcessContent(text)
  {
    var wrapped := Timestamps.Wrap(text);
    WrapKeepsDots(text);
    Reflow.NoDotUnchanged(wrapped);
  }

  predicate IsDot(c: char) { c == '.' }

  lemma WrapKeepsDots(text: string)
    requires '.' !in text
    ensures '.' !in Timestamps.Wrap(text)
  {
    ShellHoldsNoMarks();
    assert forall i :: 0 <= i < |Timestamps.Shell| ==> !IsDot(Timestamps.Shell[i]);
    Timestamps.WrapKeepsCount(text, IsDot);
    CountNone(text, IsDot);
    CountZeroAbsent(Timestamps.Wrap(text));
  }

  /** A character counted zero times does not occur. */
  lemma {:induction false} CountZeroAbsent(s: string)
    requires CountWhere(s, IsDot) == 0
    ensures '.' !in s
    decreases |s|
  {
    if |s| > 0 {
      CountZeroAbsent(s[1..]);
      assert s == [s[0]] + s[1..];
    }
  }

  // ---------------------------------------------------------------------
  // Section type detection

  /** The style entries of `getSectionConfig`, told apart by their key. */
  datatype SectionKind = ContentStrategy | AudienceAnalysis | GrowthOpportunities | Insights | Default

  /** The key of each entry of `configs`. */
  function KindName(k: SectionKind): string {
    match k
    case ContentStrategy => "content-strategy"
    case AudienceAnalysis => "audience-analysis"
    case GrowthOpportunities => "growth-opportunities"
    case Insights => "insights"
    case Default => "default"
  }

  /** `configs[key] || configs.default`. */
  function KindOfKey(key: string): SectionKind {
    if key == "content-strategy" then ContentStrategy
    else if key == "audience-analysis" then AudienceAnalysis
    else if key == "growth-opportunities" then GrowthOpportunities
    else if key == "insights" then Insights
    else Default
  }

  /** The keyword chain over the lower-cased title (a missing title reads as ""). */
  function DetectFromTitle(title: Option<string>): SectionKind {
    var t := Lower(if title.Some? then title.value else "");
    if Contains(t, "content") && Contains(t, "strategy") then ContentStrategy
    else if Contains(t, "audience") || Contains(t, "demographics") then AudienceAnalysis
    else if Contains(t, "growth") || Contains(t, "opportunities") then GrowthOpportunities
    else if Contains(t, "insights") then Insights
    else Default
  }

  /** `detectedType`: an explicit, non-empty `sectionType`, or else the key
      detected from the title. */
  function DetectedType(sectionType: Option<string>, title: Option<string>): string {
    if sectionType.Some? && sectionType.value != "" then sectionType.value
    else KindName(DetectFromTitle(title))
  }

  /** `getSectionConfig(sectionType, title)`, as the entry it picks. */
  function SectionConfig(sectionType: Option<string>, title: Option<string>): SectionKind {
    KindOfKey(DetectedType(sectionType, title))
  }

  /** Every entry is found again under its own key. */
  lemma KeyRoundTrip(k: SectionKind)
    ensures KindOfKey(KindName(k)) == k
  {
  }

  /** The precedence rank of each title rule. */
  function Rank(k: SectionKind): nat {
    match k
    case ContentStrategy => 0
    case AudienceAnalysis => 1
    case GrowthOpportunities => 2
    case Insights => 3
    case Default => 4
  }

  /** When the lower-cased title `t` satisfies the rule of `k`. */
  predicate Triggers(k: SectionKind, t: string) {
    match k
    case ContentStrategy => Contains(t, "content") && Contains(t, "strategy")
    case AudienceAnalysis => Contains(t, "audience") || Contains(t, "demographics")
    case GrowthOpportunities => Contains(t, "growth") || Contains(t, "opportunities")
    case Insights => Contains(t, "insights")
    case Default => true
  }

  /** Title detection picks the first rule, in precedence order, that the
      lower-cased title satisfies. */
  lemma TitleRulePrecedence(title: Option<string>)
    ensures var t := Lower(if title.Some? then title.value else "");
      var k := DetectFromTitle(title);
      && Triggers(k, t)
      && forall j: SectionKind :: Rank(j) < Rank(k) ==> !Triggers(j, t)
  {
  }

  /** An explicit type wins: the title is not looked at. */
  lemma ExplicitTypeWins(sectionType: string, title1: Option<string>, title2: Option<string>)
    requires sectionType != ""
    ensures SectionConfig(Some(sectionType), title1) == SectionConfig(Some(sectionType), title2)
    ensures SectionConfig(Some(sectionType), title1) == KindOfKey(sectionType)
  {
  }

  /** A non-empty type that names no entry falls back to the default
      entry, whatever the title says. */
  lemma UnknownTypeIsDefault(sectionType: string, title: Option<string>)
    requires sectionType != ""
    requires forall k: SectionKind :: sectionType != KindName(k)
    ensures SectionConfig(Some(sectionType), title) == Default
  {
    assert sectionType != KindName(ContentStrategy) && sectionType != KindName(AudienceAnalysis);
    assert sectionType != KindName(GrowthOpportunities) && sectionType != KindName(Insights);
  }

  /** Without a type, title detection decides; no type and no title give
      the default entry. */
  lemma NoTypeUsesTitle(title: Option<string>)
    ensures SectionConfig(None, title) == DetectFromTitle(title)
    ensures SectionConfig(Some(""), title) == DetectFromTitle(title)
    ensures SectionConfig(None, None) == Default
  {
    KeyRoundTrip(DetectFromTitle(title));
    assert !Contains("", "content") && !Contains("", "audience") && !Contains("", "demographics");
    assert !Contains("", "growth") && !Contains("", "opportunities") && !Contains("", "insights");
  }
}

=== FILE: kpi_patterns.dfy ===
/** The six regular expressions of `extractKPIs`
    (frontend/src/components/ChannelKPIs.jsx), each read as a language for
    its capture group and a condition on the text after it, and the
    leftmost-match search of `String.prototype.match`.

    Every pattern has the shape `(G)\s*S…` with the `/i` flag: a number
    group, optional whitespace, and a word. The word starts with a letter
    that no group can contain, so among all the ends a backtracking engine
    could try for the group at a given start, at most one is followed by
    the rest of the pattern. The group is therefore determined by its start,
    whatever order the engine tries the alternatives in. */
module KpiPatterns {
  import opened Text
  import opened Numbers

  datatype Pattern = Subscribers | Videos | Views | AvgViews | Engagement | UploadFreq

  predicate IsKmb(c: char) {
    c == 'K' || c == 'M' || c == 'B' || c == 'k' || c == 'm' || c == 'b'
  }

  /** `\d+(?:,\d+)*`: digits in groups separated by single commas. */
  predicate IsCommaNumber(g: string) {
    && |g| > 0 && IsDigit(g[0]) && IsDigit(g[|g| - 1])
    && (forall i :: 0 <= i < |g| ==> IsDigit(g[i]) || g[i] == ',')
    && (forall i :: 0 <= i < |g| - 1 && g[i] == ',' ==> g[i + 1] != ',')
  }

  /** `\d+(?:\.\d+)?`: digits with at most one inner '.'. */
  predicate IsDecimalNumber(g: string) {
    && |g| > 0 && IsDigit(g[0]) && IsDigit(g[|g| - 1])
    && (forall i :: 0 <= i < |g| ==> IsDigit(g[i]) || g[i] == '.')
    && (forall i, j :: 0 <= i < j < |g| && g[i] == '.' ==> g[j] != '.')
  }

  /** `\d+(?:\.\d+)?[KMB]?` under `/i`. */
  predicate IsScaledNumber(g: string) {
    IsDecimalNumber(g) || (|g| >= 2 && IsKmb(g[|g| - 1]) && IsDecimalNumber(g[..|g| - 1]))
  }

  /** `\d+(?:\.\d+)?%`. */
  predicate IsPercent(g: string) {
    |g| >= 2 && g[|g| - 1] == '%' && IsDecimalNumber(g[..|g| - 1])
  }

  /** The words a capture group of `p` can be. */
  predicate InGroup(p: Pattern, g: string) {
    match p
    case Subscribers => IsCommaNumber(g) || IsScaledNumber(g)
    case Videos => IsCommaNumber(g)
    case Views => IsCommaNumber(g) || IsScaledNumber(g)
    case AvgViews => IsCommaNumber(g) || IsScaledNumber(g)
    case Engagement => IsPercent(g)
    case UploadFreq => IsDecimalNumber(g)
  }

  /** `u` starts with the lower-case ASCII word `w`, ignoring ASCII case. */
  predicate WordAt(u: string, w: string)
    ensures WordAt(u, w) ==> |w| <= |u|
  {
    |w| == 0 || (|u| > 0 && LowerChar(u[0]) == w[0] && WordAt(u[1..], w[1..]))
  }

  /** `\s+w`: at least one whitespace character, then `w`. */
  predicate SpacedWord(x: string, w: string) {
    |x| > 0 && IsSpace(x[0]) && WordAt(TrimStart(x), w)
  }

  /** `s?`: one optional 's'. It is only ever followed by `\s+`, so taking
      an 's' that is there is the only choice that can succeed. */
  function OptionalS(x: string): string {
    if |x| > 0 && (x[0] == 's' || x[0] == 'S') then x[1..] else x
  }

  /** `\s+per\s+(?:week|month)`. */
  predicate PerPeriod(x: string) {
    && SpacedWord(x, "per")
    && var y := TrimStart(x)[3..];
       SpacedWord(y, "week") || SpacedWord(y, "month")
  }

  /** What must follow the group: `\s*` and then the pattern's words. The
      whitespace run is taken whole because the next character of the
      pattern is a letter. */
  predicate SuffixOk(p: Pattern, u: string) {
    var v := TrimStart(u);
    match p
    case Subscribers => WordAt(v, "subscriber")
    case Videos => WordAt(v, "video")
    case Views => (WordAt(v, "total") && SpacedWord(v[5..], "view")) || WordAt(v, "view")
    case AvgViews =>
      || (WordAt(v, "average") && WordAt(TrimStart(v[7..]), "view"))
      || (WordAt(v, "avg") && WordAt(TrimStart(v[3..]), "view"))
    case Engagement => WordAt(v, "engagement")
    case UploadFreq =>
      || (WordAt(v, "video") && PerPeriod(OptionalS(v[5..])))
      || (WordAt(v, "upload") && PerPeriod(OptionalS(v[6..])))
  }

  /** The pattern matches `t` at `start` with capture group `t[start..end]`. */
  predicate MatchAt(t: string, p: Pattern, start: nat, end: nat) {
    start < end <= |t| && InGroup(p, t[start..end]) && SuffixOk(p, t[end..])
  }

  /** The least `x` in `from..bound` with `ok(x)`. */
  function Least(ok: nat -> bool, from: nat, bound: nat): (r: Option<nat>)
    ensures r.Some? ==> from <= r.value <= bound && ok(r.value)
    ensures r.Some? ==> forall x: nat :: from <= x < r.value ==> !ok(x)
    ensures r.None? ==> forall x: nat :: from <= x <= bound ==> !ok(x)
    decreases bound + 1 - from
  {
    if from > bound then None
    else if ok(from) then Some(from)
    else Least(ok, from + 1, bound)
  }

  /** The end of the group when the pattern matches at `start`: the engine
      tries the ends one by one and stops at the one the rest accepts. */
  function EndAt(t: string, p: Pattern, start: nat): Option<nat> {
    Least((e: nat) => MatchAt(t, p, start, e), start + 1, |t|)
  }

  /** Whether the pattern matches at `start`. */
  predicate MatchesAt(t: string, p: Pattern, start: nat) {
    EndAt(t, p, start).Some?
  }

  /** The first start, from left to right, at which the pattern matches. */
  function FirstStart(t: string, p: Pattern): Option<nat> {
    Least((q: nat) => MatchesAt(t, p, q), 0, |t|)
  }

  /** `text.match(regex)?.[1]`: the capture group of the first match. */
  function MatchGroup(t: string, p: Pattern): Option<string> {
    match FirstStart(t, p)
    case Some(q) => Some(t[q..EndAt(t, p, q).value])
    case None => None
  }

  /** The end found at a start completes a match there, and no end is
      found where none does. */
  lemma EndAtSpec(t: string, p: Pattern, start: nat)
    ensures EndAt(t, p, start).Some? ==> MatchAt(t, p, start, EndAt(t, p, start).value)
    ensures EndAt(t, p, start).None? ==> forall e: nat :: !MatchAt(t, p, start, e)
  {
    var ok := (e: nat) => MatchAt(t, p, start, e);
    var r := Least(ok, start + 1, |t|);
    assert EndAt(t, p, start) == r;
    if r.Some? {
      assert ok(r.value);
    } else {
      forall e: nat ensures !MatchAt(t, p, start, e) {
        if start + 1 <= e <= |t| {
          assert !ok(e);
        }
      }
    }
  }

  /** `MatchesAt` holds exactly where some end completes a match. */
  lemma MatchesAtSpec(t: string, p: Pattern, start: nat, end: nat)
    ensures MatchAt(t, p, start, end) ==> MatchesAt(t, p, start)
    ensures MatchesAt(t, p, start) ==> MatchAt(t, p, start, EndAt(t, p, start).value)
  {
    EndAtSpec(t, p, start);
  }

  // ---------------------------------------------------------------------
  // The group is determined by where it starts

  /** A character some capture group can hold. */
  predicate GroupChar(c: char) {
    IsDigit(c) || c == ',' || c == '.' || c == '%' || IsKmb(c)
  }

  lemma GroupChars(p: Pattern, g: string)
    requires InGroup(p, g)
    ensures forall i :: 0 <= i < |g| ==> GroupChar(g[i])
  {
    if IsScaledNumber(g) && !IsDecimalNumber(g) {
      forall i | 0 <= i < |g| ensures GroupChar(g[i]) {
        if i < |g| - 1 {
          assert g[i] == g[..|g| - 1][i];
        }
      }
    } else if p == Engagement {
      forall i | 0 <= i < |g| ensures GroupChar(g[i]) {
        if i < |g| - 1 {
          assert g[i] == g[..|g| - 1][i];
        }
      }
    }
  }

  /** A word that starts with a letter no group holds. */
  lemma WordStart(u: string, w: string)
    requires |w| > 0 && WordAt(u, w)
    requires w[0] in "stvaeu"
    ensures |u| > 0 && !GroupChar(u[0])
  {
  }

  /** What follows a group starts with whitespace or a letter, never with a
      character a group could hold. */
  lemma SuffixStart(p: Pattern, u: string)
    ensures SuffixOk(p, u) ==> |u| > 0 && !GroupChar(u[0])
  {
    var v := TrimStart(u);
    if SuffixOk(p, u) {
      if |v| < |u| {
        assert IsSpace(u[0]);
      } else {
        assert v == u;
        LeadLetter(p, v);
      }
    }
  }

  /** With no whitespace in front, what follows a group starts with the
      first letter of one of the pattern's words. */
  lemma LeadLetter(p: Pattern, v: string)
    requires SuffixOk(p, v) && TrimStart(v) == v
    ensures |v| > 0 && !GroupChar(v[0])
  {
    match p
    case Subscribers => WordStart(v, "subscriber");
    case Videos => WordStart(v, "video");
    case Views =>
      if WordAt(v, "total") { WordStart(v, "total"); } else { WordStart(v, "view"); }
    case AvgViews =>
      if WordAt(v, "average") { WordStart(v, "average"); } else { WordStart(v, "avg"); }
    case Engagement => WordStart(v, "engagement");
    case UploadFreq =>
      if WordAt(v, "video") { WordStart(v, "video"); } else { WordStart(v, "upload"); }
  }

  /** Two different ends never both complete a match at the same start. */
  lemma EndsApart(t: string, p: Pattern, start: nat, e1: nat, e2: nat)
    requires e1 < e2
    ensures !(MatchAt(t, p, start, e1) && MatchAt(t, p, start, e2))
  {
    if MatchAt(t, p, start, e2) && start < e1 {
      GroupChars(p, t[start..e2]);
      assert t[e1] == t[start..e2][e1 - start];
      SuffixStart(p, t[e1..]);
      assert t[e1..][0] == t[e1];
    }
  }

  /** At a given start, at most one end completes a match. */
  lemma MatchEndUnique(t: string, p: Pattern, start: nat, end: nat)
    requires MatchAt(t, p, start, end)
    ensures forall e: nat :: e != end ==> !MatchAt(t, p, start, e)
  {
    forall e: nat | e != end ensures !MatchAt(t, p, start, e) {
      if e < end {
        EndsApart(t, p, start, e, end);
      } else {
        EndsApart(t, p, start, end, e);
      }
    }
  }

  /** `match` returns the group of the leftmost start at which the
      pattern matches; which end the engine tries first does not matter. */
  lemma LeftmostGroup(t: string, p: Pattern, start: nat, end: nat)
    requires MatchAt(t, p, start, end)
    requires forall q: nat, e: nat :: q < start ==> !MatchAt(t, p, q, e)
    ensures MatchGroup(t, p) == Some(t[start..end])
  {
    var ok := (q: nat) => MatchesAt(t, p, q);
    MatchesAtSpec(t, p, start, end);
    assert ok(start);
    forall q: nat | q < start ensures !ok(q) {
      EndAtSpec(t, p, q);
    }
    LeastIs(ok, |t|, start);
    assert FirstStart(t, p) == Some(start);
    MatchEndUnique(t, p, start, end);
    EndAtSpec(t, p, start);
  }

  /** The least index is the one below which nothing qualifies. */
  lemma LeastIs(ok: nat -> bool, bound: nat, x: nat)
    requires x <= bound && ok(x)
    requires forall y: nat :: y < x ==> !ok(y)
    ensures Least(ok, 0, bound) == Some(x)
  {
    var r := Least(ok, 0, bound);
    assert r.Some?;
    assert !(r.value < x);
    assert !(x < r.value);
  }

  /** A match with no match starting further left. */
  ghost predicate LeftmostMatch(t: string, p: Pattern, q: nat, e: nat) {
    && MatchAt(t, p, q, e)
    && forall q': nat, e': nat :: q' < q ==> !MatchAt(t, p, q', e')
  }

  /** The group, when there is one, is that of the leftmost match; there is
      none exactly when the pattern matches nowhere. */
  lemma MatchGroupSpec(t: string, p: Pattern)
    ensures MatchGroup(t, p).Some? ==>
      exists q: nat, e: nat :: LeftmostMatch(t, p, q, e) && MatchGroup(t, p).value == t[q..e]
    ensures MatchGroup(t, p).None? <==> forall q: nat, e: nat :: !MatchAt(t, p, q, e)
  {
    var ok := (q: nat) => MatchesAt(t, p, q);
    var r := Least(ok, 0, |t|);
    assert r == FirstStart(t, p);
    if r.Some? {
      var q := r.value;
      var e := EndAt(t, p, q).value;
      FirstStartIsLeftmost(t, p, q);
      assert LeftmostMatch(t, p, q, e) && MatchGroup(t, p).value == t[q..e];
    } else {
      NoStartNoMatch(t, p);
    }
  }

  /** The first start of a match opens the leftmost match. */
  lemma FirstStartIsLeftmost(t: string, p: Pattern, q: nat)
    requires FirstStart(t, p) == Some(q)
    ensures EndAt(t, p, q).Some?
    ensures LeftmostMatch(t, p, q, EndAt(t, p, q).value)
  {
    var ok := (q: nat) => MatchesAt(t, p, q);
    assert Least(ok, 0, |t|) == Some(q);
    MatchesAtSpec(t, p, q, 0);
    forall q': nat, e': nat | q' < q ensures !MatchAt(t, p, q', e') {
      assert !ok(q');
      MatchesAtSpec(t, p, q', e');
    }
  }

  /** Without a first start the pattern matches nowhere. */
  lemma NoStartNoMatch(t: string, p: Pattern)
    requires FirstStart(t, p).None?
    ensures forall q: nat, e: nat :: !MatchAt(t, p, q, e)
  {
    var ok := (q: nat) => MatchesAt(t, p, q);
    assert Least(ok, 0, |t|).None?;
    forall q: nat, e: nat ensures !MatchAt(t, p, q, e) {
      MatchesAtSpec(t, p, q, e);
      if q <= |t| {
        assert !ok(q);
      } else {
        assert !MatchesAt(t, p, q);
      }
    }
  }
}

=== FILE: kpis.dfy ===
/** `extractKPIs`, `extractFromText` and `formatNumber` of
    frontend/src/components/ChannelKPIs.jsx, and the cards the component
    draws from their results. */
module Kpis {
  import opened Text
  import opened Numbers
  import opened KpiPatterns

  /** The JavaScript values the component handles. Numbers are integers
      here; an object's fields are modelled where they are read. */
  datatype JsValue = Undefined | Null | Bool(b: bool) | Num(n: int) | Str(s: string) | Obj

  /** JavaScript truthiness. */
  predicate Truthy(v: JsValue) {
    match v
    case Undefined => false
    case Null => false
    case Bool(b) => b
    case Num(n) => n != 0
    case Str(s) => s != ""
    case Obj => true
  }

  /** `a || b`. */
  function Or(a: JsValue, b: JsValue): JsValue {
    if Truthy(a) then a else b
  }

  /** The fields of `result.metadata` the component reads:
      `subscriber_count`, `video_count` and `total_views`. */
  datatype Metadata = Metadata(subscriberCount: JsValue, videoCount: JsValue, totalViews: JsValue)

  /** `{}`: every field reads as `undefined`. */
  const NoMetadata := Metadata(Undefined, Undefined, Undefined)

  /** A channel result: its metadata (`None` when absent or falsy) and its
      `analysis` value, which is usually markdown text. */
  datatype Channel = Channel(metadata: Option<Metadata>, analysis: JsValue)

  datatype Kpis = Kpis(
    subscribers: JsValue, videos: JsValue, views: JsValue,
    avgViews: JsValue, engagement: JsValue, uploadFreq: JsValue)

  /** `extractFromText(text, regex)`: `null` unless `text` is a string,
      else capture group 1 of the leftmost match, or `null`. */
  function ExtractFromText(text: JsValue, p: Pattern): (r: JsValue)
    ensures r.Null? || r.Str?
    ensures !text.Str? ==> r.Null?
  {
    if !text.Str? then Null
    else
      match MatchGroup(text.s, p)
      case Some(g) => Str(g)
      case None => Null
  }

  /** On a string, the result is the non-empty group of the leftmost match,
      a word of the pattern's group, and it is null exactly when the
      pattern matches nowhere. */
  lemma ExtractFromTextSpec(text: JsValue, p: Pattern)
    ensures var r := ExtractFromText(text, p);
      && (r.Str? ==> r.s != "" && InGroup(p, r.s))
      && (r.Str? ==> exists q: nat, e: nat :: LeftmostMatch(text.s, p, q, e) && r.s == text.s[q..e])
      && (text.Str? ==> (r.Null? <==> forall q: nat, e: nat :: !MatchAt(text.s, p, q, e)))
  {
    if text.Str? {
      MatchGroupSpec(text.s, p);
    }
  }

  /** `extractKPIs()`: the first three metrics prefer the metadata field
      when it is truthy; the other three come from the analysis text only.
      `analysis || {}` turns a falsy analysis into an object. */
  function ExtractKpis(c: Channel): Kpis {
    var md := if c.metadata.Some? then c.metadata.value else NoMetadata;
    var analysis := Or(c.analysis, Obj);
    Kpis(
      Or(md.subscriberCount, ExtractFromText(analysis, Subscribers)),
      Or(md.videoCount, ExtractFromText(analysis, Videos)),
      Or(md.totalViews, ExtractFromText(analysis, Views)),
      ExtractFromText(analysis, AvgViews),
      ExtractFromText(analysis, Engagement),
      ExtractFromText(analysis, UploadFreq))
  }

  function MetadataOf(c: Channel): Metadata {
    if c.metadata.Some? then c.metadata.value else NoMetadata
  }

  /** A truthy metadata field is shown whatever the analysis says. */
  lemma MetadataWins(md: Metadata, a1: JsValue, a2: JsValue)
    ensures Truthy(md.subscriberCount) ==>
      ExtractKpis(Channel(Some(md), a1)).subscribers == md.subscriberCount
        == ExtractKpis(Channel(Some(md), a2)).subscribers
    ensures Truthy(md.videoCount) ==>
      ExtractKpis(Channel(Some(md), a1)).videos == md.videoCount
        == ExtractKpis(Channel(Some(md), a2)).videos
    ensures Truthy(md.totalViews) ==>
      ExtractKpis(Channel(Some(md), a1)).views == md.totalViews
        == ExtractKpis(Channel(Some(md), a2)).views
  {
  }

  /** Without metadata the first three metrics fall back to the text, and
      the text decides exactly as it does for the other three. */
  lemma TextFallback(a: JsValue)
    ensures var k := ExtractKpis(Channel(None, a));
      && k.subscribers == ExtractFromText(a, Subscribers)
      && k.videos == ExtractFromText(a, Videos)
      && k.views == ExtractFromText(a, Views)
  {
  }

  /** `metadata.field || extractFromText(analysis, ...)`: whenever a
      metadata field is falsy (missing, null, 0, "" or false, and also when
      there is no metadata at all), its figure comes from the analysis
      text, read through `analysis || {}`. */
  lemma FalsyFieldFallback(c: Channel)
    ensures var k, md, a := ExtractKpis(c), MetadataOf(c), Or(c.analysis, Obj);
      && (!Truthy(md.subscriberCount) ==> k.subscribers == ExtractFromText(a, Subscribers))
      && (!Truthy(md.videoCount) ==> k.videos == ExtractFromText(a, Videos))
      && (!Truthy(md.totalViews) ==> k.views == ExtractFromText(a, Views))
  {
  }

  /** Average views, engagement and upload rate never depend on the
      metadata. */
  lemma TextOnlyMetrics(m1: Option<Metadata>, m2: Option<Metadata>, a: JsValue)
    ensures var k1, k2 := ExtractKpis(Channel(m1, a)), ExtractKpis(Channel(m2, a));
      && k1.avgViews == k2.avgViews
      && k1.engagement == k2.engagement
      && k1.uploadFreq == k2.uploadFreq
  {
  }

  /** An analysis that is not a string (an object, or nothing) leaves every
      text-derived metric null: the first three show the metadata field
      when it is truthy and null otherwise. */
  lemma NonTextAnalysis(c: Channel)
    requires !c.analysis.Str?
    ensures var k := ExtractKpis(c);
      && k.avgViews == Null && k.engagement == Null && k.uploadFreq == Null
      && k.subscribers == Or(MetadataOf(c).subscriberCount, Null)
      && k.videos == Or(MetadataOf(c).videoCount, Null)
      && k.views == Or(MetadataOf(c).totalViews, Null)
  {
  }

  /** The engagement figure keeps its percent sign. */
  lemma EngagementHasPercent(c: Channel)
    ensures var g := ExtractKpis(c).engagement;
      g.Str? ==> IsPercent(g.s)
  {
    EngagementField(c);
    ExtractFromTextSpec(Or(c.analysis, Obj), Engagement);
  }

  lemma EngagementField(c: Channel)
    ensures ExtractKpis(c).engagement == ExtractFromText(Or(c.analysis, Obj), Engagement)
  {
  }

  /** A percentage followed by " engagement" is captured with its sign,
      so "45% engagement" gives "45%". */
  lemma PercentEngagement(g: string)
    requires IsPercent(g)
    ensures ExtractFromText(Str(g + " engagement"), Engagement) == Str(g)
  {
    var t := g + " engagement";
    PercentEngagementGroup(g);
    GroupIsExtracted(t, Engagement, g);
  }

  lemma PercentEngagementGroup(g: string)
    requires IsPercent(g)
    ensures MatchGroup(g + " engagement", Engagement) == Some(g)
  {
    var t := g + " engagement";
    assert t[0..|g|] == g;
    assert t[|g|..] == " engagement";
    EngagementSuffixExample();
    assert MatchAt(t, Engagement, 0, |g|);
    LeftmostGroup(t, Engagement, 0, |g|);
  }

  /** On a string, `extractFromText` yields the capture group. */
  lemma GroupIsExtracted(t: string, p: Pattern, g: string)
    requires MatchGroup(t, p) == Some(g)
    ensures ExtractFromText(Str(t), p) == Str(g)
  {
  }

  lemma EngagementSuffixExample()
    ensures SuffixOk(Engagement, " engagement")
  {
    var w := "engagement";
    SpaceThenWord(w);
    assert " " + w == " engagement";
    LowerWordAtItself(w);
  }

  /** A single space before a word is skipped. */
  lemma SpaceThenWord(w: string)
    requires |w| > 0 && !IsSpace(w[0])
    ensures TrimStart(" " + w) == w
  {
    assert (" " + w)[1..] == w;
  }

  /** A lower-case ASCII word is found where it is written. */
  lemma {:induction false} LowerWordAtItself(w: string)
    requires forall i :: 0 <= i < |w| ==> 'a' <= w[i] <= 'z'
    ensures WordAt(w, w)
    decreases |w|
  {
    if |w| > 0 {
      LowerWordAtItself(w[1..]);
    }
  }

  // ---------------------------------------------------------------------
  // formatNumber

  predicate HasUpperScale(s: string) {
    'K' in s || 'M' in s || 'B' in s
  }

  /** The display of a finite integer: one decimal and an `M` from a
      million up, one decimal and a `K` from a thousand up, and the
      locale form below. */
  function Magnitude(n: int): string {
    if n >= 1000000 then OneDecimal(Tenths(n, 1000000)) + "M"
    else if n >= 1000 then OneDecimal(Tenths(n, 1000)) + "K"
    else Locale(n)
  }

  /** `formatNumber(value)`. A falsy value is "N/A"; a string holding an
      upper-case K, M or B is shown as it is; any other string is read with
      its commas removed by `parseInt`, and shown as it is when that is
      `NaN`; `true` shows as "true"; an object stays an object. */
  function FormatNumber(v: JsValue): JsValue {
    if !Truthy(v) then Str("N/A")
    else match v
      case Str(s) =>
        if HasUpperScale(s) then v
        else (match ParseInt(RemoveCommas(s))
          case Some(n) => Str(Magnitude(n))
          case None => v)
      case Num(n) => Str(Magnitude(n))
      case Bool(_) => Str("true")
      case _ => v
  }

  /** Every falsy value, `null` and `undefined` included, shows "N/A". */
  lemma FalsyIsNA(v: JsValue)
    requires !Truthy(v)
    ensures FormatNumber(v) == Str("N/A")
  {
  }

  /** Any string holding an upper-case K, M or B is shown as it is. */
  lemma ScaledKept(s: string)
    requires s != "" && HasUpperScale(s)
    ensures FormatNumber(Str(s)) == Str(s)
  {
  }

  /** The suffix tells the magnitude: `M` exactly from a million up, `K`
      exactly from a thousand up to a million, and below a thousand the
      locale form, which parses back to the number. */
  lemma MagnitudeSuffix(n: int)
    ensures var m := Magnitude(n);
      && |m| > 0
      && (m[|m| - 1] == 'M' <==> n >= 1000000)
      && (m[|m| - 1] == 'K' <==> 1000 <= n < 1000000)
      && (n < 1000 ==> m == Locale(n) && ParseInt(RemoveCommas(m)) == Some(n))
  {
    if n >= 1000000 {
      ScaledEnd(n, 1000000, "M");
    } else if n >= 1000 {
      ScaledEnd(n, 1000, "K");
    } else {
      SmallMagnitude(n);
    }
  }

  lemma ScaledEnd(n: int, scale: nat, suffix: string)
    requires |suffix| == 1
    requires (scale == 1000000 && suffix == "M" && n >= 1000000)
      || (scale == 1000 && suffix == "K" && 1000 <= n < 1000000)
    ensures var m := Magnitude(n); |m| > 0 && m[|m| - 1] == suffix[0]
  {
    var d := OneDecimal(Tenths(n, scale));
    assert Magnitude(n) == d + suffix;
  }

  lemma SmallMagnitude(n: int)
    requires n < 1000
    ensures var m := Magnitude(n);
      && m == Locale(n) && |m| > 0 && m[|m| - 1] != 'M' && m[|m| - 1] != 'K'
      && ParseInt(RemoveCommas(m)) == Some(n)
  {
    LocaleChars(n);
    LocaleRoundTrip(n);
  }

  /** The shown figure is the number rounded to the nearest tenth of its
      unit, a half rounding up. */
  lemma MagnitudeRounds(n: int)
    ensures n >= 1000000 ==> exists q: nat ::
      Magnitude(n) == OneDecimal(q) + "M" && -50000 < q * 100000 - n <= 50000
    ensures 1000 <= n < 1000000 ==> exists q: nat ::
      Magnitude(n) == OneDecimal(q) + "K" && -50 < q * 100 - n <= 50
  {
    if n >= 1000000 {
      var q := Tenths(n, 1000000);
      assert Magnitude(n) == OneDecimal(q) + "M";
    } else if n >= 1000 {
      var q := Tenths(n, 1000);
      assert Magnitude(n) == OneDecimal(q) + "K";
    }
  }

  /** Every character of a locale-formatted integer is a digit, a group
      separator or the minus sign. */
  lemma LocaleChars(n: int)
    ensures |Locale(n)| > 0
    ensures forall i :: 0 <= i < |Locale(n)| ==>
      IsDigit(Locale(n)[i]) || Locale(n)[i] == ',' || Locale(n)[i] == '-'
  {
    if n < 0 {
      GroupKeepsDigits(Decimal(-n));
    } else {
      GroupKeepsDigits(Decimal(n));
    }
  }

  lemma {:induction false} GroupKeepsDigits(s: string)
    requires |s| > 0 && AllDigits(s)
    ensures |Group(s)| > 0
    ensures forall i :: 0 <= i < |Group(s)| ==> IsDigit(Group(s)[i]) || Group(s)[i] == ','
    decreases |s|
  {
    if |s| > 3 {
      var hi, lo := s[..|s| - 3], s[|s| - 3..];
      GroupKeepsDigits(hi);
      var g := Group(hi) + "," + lo;
      assert Group(s) == g;
      forall i | 0 <= i < |g| ensures IsDigit(g[i]) || g[i] == ',' {
        if i < |Group(hi)| {
          assert g[i] == Group(hi)[i];
        } else if i > |Group(hi)| {
          assert g[i] == lo[i - |Group(hi)| - 1];
        }
      }
    }
  }

  /** A locale string holds no upper-case scale letter. */
  lemma LocaleNoScale(n: int)
    ensures Locale(n) != "" && !HasUpperScale(Locale(n))
  {
    LocaleChars(n);
    var l := Locale(n);
    assert forall i :: 0 <= i < |l| ==> l[i] != 'K' && l[i] != 'M' && l[i] != 'B';
  }

  /** A nonzero number and its locale string format alike. Zero does not:
      the number is falsy and shows "N/A", while the string "0" is truthy
      and shows "0". */
  lemma LocaleStringAgrees(n: int)
    ensures n != 0 ==> FormatNumber(Str(Locale(n))) == FormatNumber(Num(n))
    ensures FormatNumber(Num(0)) == Str("N/A") && FormatNumber(Str("0")) == Str("0")
  {
    if n != 0 {
      LocaleNoScale(n);
      LocaleRoundTrip(n);
      FormatParsed(Locale(n), n);
    }
    ZeroLocale();
  }

  lemma ZeroLocale()
    ensures FormatNumber(Num(0)) == Str("N/A") && FormatNumber(Str("0")) == Str("0")
  {
    assert Locale(0) == "0";
    LocaleNoScale(0);
    LocaleRoundTrip(0);
    FormatParsed("0", 0);
  }

  /** Formatting a formatted value changes nothing. */
  lemma FormatIdempotent(v: JsValue)
    ensures FormatNumber(FormatNumber(v)) == FormatNumber(v)
  {
    var r := FormatNumber(v);
    if !Truthy(v) {
      NotANumber("N/A");
    } else if v.Bool? {
      NotANumber("true");
    } else if r.Str? && r != v {
      var n :| r == Str(Magnitude(n));
      MagnitudeStable(n);
    }
  }

  /** A text without leading digit or sign parses to `NaN`. */
  lemma NotANumber(s: string)
    requires |s| > 0 && !IsSpace(s[0]) && !IsDigit(s[0]) && s[0] != '-' && s[0] != '+'
    requires forall i :: 0 <= i < |s| ==> s[i] != ','
    requires !HasUpperScale(s)
    ensures FormatNumber(Str(s)) == Str(s)
  {
    RemoveNoCommas(s);
    assert TrimStart(s) == s;
    assert DigitRun(s, false) == 0;
  }

  /** A shown magnitude is shown again unchanged. */
  lemma MagnitudeStable(n: int)
    ensures FormatNumber(Str(Magnitude(n))) == Str(Magnitude(n))
  {
    var m := Magnitude(n);
    if n >= 1000000 {
      assert m[|m| - 1] == 'M';
    } else if n >= 1000 {
      assert m[|m| - 1] == 'K';
    } else {
      MagnitudeSuffix(n);
      LocaleNoScale(n);
    }
  }

  /** A string without scale letter that `parseInt` reads, once its
      commas are removed, shows as the magnitude of the number read. */
  lemma FormatParsed(s: string, n: int)
    requires s != "" && !HasUpperScale(s)
    requires ParseInt(RemoveCommas(s)) == Some(n)
    ensures FormatNumber(Str(s)) == Str(Magnitude(n))
  {
  }

  /** A string made of a numeral and a tail that neither continues it
      nor holds a comma or scale letter shows as the numeral's magnitude. */
  lemma FormatLeading(n: nat, rest: string)
    requires n > 0
    requires |rest| == 0 || !IsDigit(rest[0])
    requires forall i :: 0 <= i < |rest| ==> rest[i] != ','
    requires !HasUpperScale(rest)
    ensures FormatNumber(Str(Decimal(n) + rest)) == Str(Magnitude(n))
  {
    var s := Decimal(n) + rest;
    PlainTail(Decimal(n), rest);
    RemoveNoCommas(s);
    ParseLeadingInteger(n, rest);
    FormatParsed(s, n);
  }

  lemma PlainTail(d: string, rest: string)
    requires AllDigits(d)
    requires forall i :: 0 <= i < |rest| ==> rest[i] != ','
    requires !HasUpperScale(rest)
    ensures forall i :: 0 <= i < |d + rest| ==> (d + rest)[i] != ','
    ensures !HasUpperScale(d + rest)
  {
    var s := d + rest;
    forall i | 0 <= i < |s| ensures s[i] != ',' && s[i] != 'K' && s[i] != 'M' && s[i] != 'B' {
      if i < |d| {
        assert s[i] == d[i];
      } else {
        assert s[i] == rest[i - |d|];
      }
    }
  }

  /** `parseInt` reads only the leading integer: "4.5" shows as "4". */
  lemma LeadingIntegerOnly()
    ensures FormatNumber(Str("4.5")) == Str("4")
  {
    var rest := ".5";
    assert !HasUpperScale(rest);
    FormatLeading(4, rest);
    assert Decimal(4) + rest == "4.5";
    assert Locale(4) == "4";
  }

  /** A lower-case scale letter, which the `/i` patterns capture, is not
      recognised: "1.2k" shows as "1". */
  lemma LowerCaseScaleDropped(s: string)
    requires s == "1.2k"
    ensures FormatNumber(Str(s)) == Str("1")
  {
    var rest := ".2k";
    LowerScaleTail(rest);
    OneIsOne();
    assert s == Decimal(1) + rest;
    FormatLeading(1, rest);
  }

  lemma LowerScaleTail(rest: string)
    requires rest == ".2k"
    ensures !IsDigit(rest[0]) && !HasUpperScale(rest)
    ensures forall i :: 0 <= i < |rest| ==> rest[i] != ','
  {
  }

  lemma OneIsOne()
    ensures Decimal(1) == "1" && Magnitude(1) == "1"
  {
    assert Locale(1) == "1";
  }

  /** An already scaled string such as "1.2M" is shown as it is. */
  lemma ScaledStringKept()
    ensures FormatNumber(Str("1.2M")) == Str("1.2M")
  {
    assert "1.2M"[3] == 'M';
  }

  /** 1,500,000 shows as "1.5M". */
  lemma MillionsExample()
    ensures FormatNumber(Num(1500000)) == Str("1.5M")
  {
    assert Tenths(1500000, 1000000) == 15;
    assert Decimal(1) == "1";
    assert OneDecimal(15) == "1.5";
  }

  /** A grouped count: "2,340" shows as "2.3K". */
  lemma ThousandsExample()
    ensures FormatNumber(Str("2,340")) == Str("2.3K")
  {
    UngroupExample();
    DecimalExample();
    ParseDecimal(2340);
    NoScaleExample();
    FormatParsed("2,340", 2340);
    ThousandsMagnitude();
  }

  lemma UngroupExample()
    ensures RemoveCommas("2,340") == "2340"
  {
    CommaSplice("2", "340");
    assert "2" + ("," + "340") == "2,340";
    assert "2" + "340" == "2340";
  }

  /** One comma between two comma-free stretches is dropped. */
  lemma CommaSplice(a: string, b: string)
    requires forall i :: 0 <= i < |a| ==> a[i] != ','
    requires forall i :: 0 <= i < |b| ==> b[i] != ','
    ensures RemoveCommas(a + ("," + b)) == a + b
  {
    RemoveCommasAppend(a, "," + b);
    RemoveCommasAppend(",", b);
    RemoveNoCommas(a);
    RemoveNoCommas(b);
    assert RemoveCommas(",") == "";
    assert RemoveCommas("," + b) == b by {
      assert "" + b == b;
    }
  }

  lemma NoScaleExample()
    ensures !HasUpperScale("2,340")
  {
    var s := "2,340";
    assert forall i :: 0 <= i < |s| ==> IsDigit(s[i]) || s[i] == ',';
  }

  lemma ThousandsMagnitude()
    ensures Magnitude(2340) == "2.3K"
  {
    assert Tenths(2340, 1000) == 23;
    assert Decimal(2) == "2";
    assert OneDecimal(23) == "2.3";
  }

  lemma DecimalExample()
    ensures Decimal(2340) == "2340"
  {
    assert Decimal(2) == "2";
    assert Decimal(23) == "23";
    assert Decimal(234) == "234";
  }

  // ---------------------------------------------------------------------
  // The cards

  /** A KPI card: its label and the text it shows. */
  datatype Card = Card(title: string, shown: JsValue)

  /** The grid: subscribers, videos and total views always, formatted;
      average views (formatted), engagement and upload rate (as captured)
      only when present. */
  function Cards(k: Kpis): (r: seq<Card>)
    ensures 3 <= |r| <= 6
  {
    [Card("Subscribers", FormatNumber(k.subscribers)),
     Card("Videos", FormatNumber(k.videos)),
     Card("Total Views", FormatNumber(k.views))]
    + OptionalList(k)
  }

  /** What the component draws: a loading card while there is no result,
      else the KPI grid. */
  datatype KpiView = Loading | Grid(cards: seq<Card>)

  /** `ChannelKPIs({ result })`: a missing result returns early with the
      loading card; a present one is extracted and laid out. */
  function ChannelView(result: Option<Channel>): (v: KpiView)
    ensures v.Loading? <==> result.None?
    ensures v.Grid? ==> 3 <= |v.cards| <= 6 && v.cards[0].title == "Subscribers"
    ensures v.Grid? ==> forall i :: 0 <= i < |v.cards| ==> Truthy(v.cards[i].shown)
  {
    match result
    case None => Loading
    case Some(c) =>
      CardsShape(ExtractKpis(c));
      Grid(Cards(ExtractKpis(c)))
  }

  /** The number of optional cards shown. */
  function OptionalCount(k: Kpis): nat {
    (if Truthy(k.avgViews) then 1 else 0)
    + (if Truthy(k.engagement) then 1 else 0)
    + (if Truthy(k.uploadFreq) then 1 else 0)
  }

  /** The grid holds the three fixed cards, in order, and one card per
      present optional metric; a card never shows a falsy value other than
      as "N/A". The fixed cards and the average-views card show their
      figure formatted; engagement and upload rate show it as captured. */
  lemma CardsShape(k: Kpis)
    ensures |Cards(k)| == 3 + OptionalCount(k)
    ensures Cards(k)[0].title == "Subscribers" && Cards(k)[1].title == "Videos"
      && Cards(k)[2].title == "Total Views"
    ensures forall i :: 0 <= i < |Cards(k)| ==> Truthy(Cards(k)[i].shown)
    ensures Cards(k)[0].shown == FormatNumber(k.subscribers)
      && Cards(k)[1].shown == FormatNumber(k.videos)
      && Cards(k)[2].shown == FormatNumber(k.views)
    ensures forall i :: 3 <= i < |Cards(k)| ==> OptionalCard(Cards(k)[i], k)
    ensures forall i, j :: 3 <= i < j < |Cards(k)| ==> Rank(Cards(k)[i].title) < Rank(Cards(k)[j].title)
  {
    OptionalCards(k);
    var r := Cards(k);
    forall i | 0 <= i < |r| ensures Truthy(r[i].shown) {
      FormatTruthy(if i == 0 then k.subscribers else if i == 1 then k.videos else if i == 2 then k.views else k.avgViews);
    }
  }

  /** An optional card: its title names a present optional figure, and
      it shows that figure, formatted for average views and as captured
      for engagement and upload rate. */
  predicate OptionalCard(c: Card, k: Kpis) {
    || (c.title == "Avg Views" && Truthy(k.avgViews) && c.shown == FormatNumber(k.avgViews))
    || (c.title == "Engagement" && Truthy(k.engagement) && c.shown == k.engagement)
    || (c.title == "Upload Rate" && Truthy(k.uploadFreq) && c.shown == k.uploadFreq)
  }

  /** The order of the optional cards in the grid. */
  function Rank(title: string): nat {
    if title == "Avg Views" then 0 else if title == "Engagement" then 1 else 2
  }

  /** The optional cards, in grid order. */
  function OptionalList(k: Kpis): seq<Card> {
    (if Truthy(k.avgViews) then [Card("Avg Views", FormatNumber(k.avgViews))] else [])
    + (if Truthy(k.engagement) then [Card("Engagement", k.engagement)] else [])
    + (if Truthy(k.uploadFreq) then [Card("Upload Rate", k.uploadFreq)] else [])
  }

  lemma OptionalCards(k: Kpis)
    ensures forall i :: 3 <= i < |Cards(k)| ==> OptionalCard(Cards(k)[i], k)
    ensures forall i, j :: 3 <= i < j < |Cards(k)| ==> Rank(Cards(k)[i].title) < Rank(Cards(k)[j].title)
  {
    var opt := OptionalList(k);
    assert Cards(k)[3..] == opt;
    OptionalListCards(k, opt);
    assert forall i :: 3 <= i < |Cards(k)| ==> Cards(k)[i] == opt[i - 3];
  }

  lemma OptionalListCards(k: Kpis, opt: seq<Card>)
    requires opt == OptionalList(k)
    ensures forall i :: 0 <= i < |opt| ==> OptionalCard(opt[i], k)
    ensures forall i, j :: 0 <= i < j < |opt| ==> Rank(opt[i].title) < Rank(opt[j].title)
  {
    var a := if Truthy(k.avgViews) then [Card("Avg Views", FormatNumber(k.avgViews))] else [];
    var e := if Truthy(k.engagement) then [Card("Engagement", k.engagement)] else [];
    var u := if Truthy(k.uploadFreq) then [Card("Upload Rate", k.uploadFreq)] else [];
    assert opt == a + e + u;
    assert forall i :: 0 <= i < |a| ==> Rank(a[i].title) == 0 && OptionalCard(a[i], k);
    assert forall i :: 0 <= i < |e| ==> Rank(e[i].title) == 1 && OptionalCard(e[i], k);
    assert forall i :: 0 <= i < |u| ==> Rank(u[i].title) == 2 && OptionalCard(u[i], k);
  }

  /** The formatted value is never falsy. */
  lemma FormatTruthy(v: JsValue)
    ensures Truthy(FormatNumber(v))
  {
    if Truthy(v) {
      match v {
        case Str(s) =>
          match ParseInt(RemoveCommas(s)) {
            case Some(n) => MagnitudeSuffix(n);
            case None =>
          }
        case Num(n) => MagnitudeSuffix(n);
        case _ =>
      }
    }
  }
}

=== FILE: numbers.dfy ===
/** The number primitives `formatNumber` relies on: `parseInt` with no
    radix argument, en-US `toLocaleString` of an integer, and `toFixed(1)`
    of a quotient. */
module Numbers {
  import opened Text

  predicate AllDigits(s: string) {
    forall i :: 0 <= i < |s| ==> IsDigit(s[i])
  }

  /** The value of a decimal digit string, most significant digit first. */
  function DigitsValue(s: string): nat
    requires AllDigits(s)
  {
    if |s| == 0 then 0 else 10 * DigitsValue(s[..|s| - 1]) + DigitValue(s[|s| - 1])
  }

  /** The shortest decimal numeral of `n`. */
  function Decimal(n: nat): (s: string)
    ensures |s| > 0 && AllDigits(s)
    ensures |s| > 1 ==> s[0] != '0'
    ensures DigitsValue(s) == n
  {
    if n < 10 then [DigitChar(n)]
    else
      var s := Decimal(n / 10) + [DigitChar(n % 10)];
      assert s[..|s| - 1] == Decimal(n / 10);
      s
  }

  // ---------------------------------------------------------------------
  // parseInt

  predicate IsHexDigit(c: char) {
    IsDigit(c) || 'a' <= c <= 'f' || 'A' <= c <= 'F'
  }

  function HexValue(c: char): nat
    requires IsHexDigit(c)
  {
    if IsDigit(c) then DigitValue(c)
    else if 'a' <= c <= 'f' then (c as int - 'a' as int + 10) as nat
    else (c as int - 'A' as int + 10) as nat
  }

  predicate IsRadixDigit(c: char, hex: bool) {
    if hex then IsHexDigit(c) else IsDigit(c)
  }

  function RadixDigitValue(c: char, hex: bool): nat
    requires IsRadixDigit(c, hex)
  {
    if hex then HexValue(c) else DigitValue(c)
  }

  /** The length of the longest prefix of `s` made of digits of the radix. */
  function DigitRun(s: string, hex: bool): (n: nat)
    ensures n <= |s|
    ensures forall i :: 0 <= i < n ==> IsRadixDigit(s[i], hex)
    ensures n < |s| ==> !IsRadixDigit(s[n], hex)
  {
    if |s| == 0 || !IsRadixDigit(s[0], hex) then 0 else 1 + DigitRun(s[1..], hex)
  }

  /** The value of a numeral in radix 10 or 16. */
  function RadixValue(s: string, hex: bool): nat
    requires forall i :: 0 <= i < |s| ==> IsRadixDigit(s[i], hex)
  {
    if |s| == 0 then 0
    else (if hex then 16 else 10) * RadixValue(s[..|s| - 1], hex) + RadixDigitValue(s[|s| - 1], hex)
  }

  /** The digits after the sign: a "0x"/"0X" prefix switches to radix 16,
      and the longest run of digits that follows is the value; no digit at
      all is `NaN` (`None`). */
  function Unsigned(u: string): Option<nat> {
    var hex := |u| >= 2 && u[0] == '0' && (u[1] == 'x' || u[1] == 'X');
    var v := if hex then u[2..] else u;
    var n := DigitRun(v, hex);
    if n == 0 then None else Some(RadixValue(v[..n], hex))
  }

  /** `parseInt(s)` with no radix: leading whitespace is skipped and one
      sign is read before the digits. */
  function ParseInt(s: string): Option<int> {
    var t := TrimStart(s);
    var negative := |t| > 0 && t[0] == '-';
    var u := if |t| > 0 && (t[0] == '-' || t[0] == '+') then t[1..] else t;
    match Unsigned(u)
    case None => None
    case Some(m) => Some(if negative then -(m as int) else m)
  }

  lemma {:induction false} DecimalRadix(s: string)
    requires AllDigits(s)
    ensures forall i :: 0 <= i < |s| ==> IsRadixDigit(s[i], false)
    ensures RadixValue(s, false) == DigitsValue(s)
    decreases |s|
  {
    if |s| > 0 {
      DecimalRadix(s[..|s| - 1]);
    }
  }

  /** `parseInt` reads the leading integer and ignores what follows it: a
      numeral followed by anything that is not a digit parses to its value,
      except that "0" followed by "x" or "X" starts a hexadecimal numeral. */
  lemma ParseLeadingInteger(n: nat, rest: string)
    requires |rest| == 0 || !IsDigit(rest[0])
    requires n > 0 || |rest| == 0 || (rest[0] != 'x' && rest[0] != 'X')
    ensures ParseInt(Decimal(n) + rest) == Some(n)
  {
    var s := Decimal(n) + rest;
    assert s[0] == Decimal(n)[0];
    UnsignedDecimal(n, rest);
    ParseUnsigned(s);
  }

  /** Text that starts with a digit has no whitespace or sign to skip. */
  lemma ParseUnsigned(s: string)
    requires |s| > 0 && IsDigit(s[0])
    ensures ParseInt(s).Some? <==> Unsigned(s).Some?
    ensures Unsigned(s).Some? ==> ParseInt(s).value == Unsigned(s).value
  {
    TrimStartNoSpace(s);
    assert s[0] != '-' && s[0] != '+';
  }

  lemma UnsignedDecimal(n: nat, rest: string)
    requires |rest| == 0 || !IsDigit(rest[0])
    requires n > 0 || |rest| == 0 || (rest[0] != 'x' && rest[0] != 'X')
    ensures Unsigned(Decimal(n) + rest) == Some(n)
  {
    var d := Decimal(n);
    var s := d + rest;
    assert s[0] == d[0];
    if |d| >= 2 {
      assert s[1] == d[1];
    } else if |rest| > 0 {
      assert s[1] == rest[0];
    }
    RunOfDecimal(d, rest);
    assert s[..|d|] == d;
    DecimalRadix(d);
  }

  lemma RunOfDecimal(d: string, rest: string)
    requires |d| > 0 && AllDigits(d)
    requires |rest| == 0 || !IsDigit(rest[0])
    ensures DigitRun(d + rest, false) == |d|
  {
    assert forall i :: 0 <= i < |d| ==> (d + rest)[i] == d[i];
    assert |rest| > 0 ==> (d + rest)[|d|] == rest[0];
  }

  /** The shortest numeral of a number parses back to it. */
  lemma ParseDecimal(n: nat)
    ensures ParseInt(Decimal(n)) == Some(n)
  {
    ParseLeadingInteger(n, "");
    assert Decimal(n) + "" == Decimal(n);
  }

  // ---------------------------------------------------------------------
  // toLocaleString

  /** Digit grouping: a ',' before every group of three digits from the right. */
  function Group(s: string): string
    decreases |s|
  {
    if |s| <= 3 then s else Group(s[..|s| - 3]) + "," + s[|s| - 3..]
  }

  /** `n.toLocaleString()` for an integer in the en-US locale. */
  function Locale(n: int): string {
    if n < 0 then "-" + Group(Decimal(-n)) else Group(Decimal(n))
  }

  predicate NotComma(c: char) { c != ',' }

  /** `s.replace(/,/g, '')`. */
  function RemoveCommas(s: string): (r: string)
    ensures |r| <= |s|
    ensures forall i :: 0 <= i < |r| ==> r[i] != ','
  {
    if |s| == 0 then ""
    else (if s[0] == ',' then "" else [s[0]]) + RemoveCommas(s[1..])
  }

  lemma {:induction false} RemoveCommasAppend(a: string, b: string)
    ensures RemoveCommas(a + b) == RemoveCommas(a) + RemoveCommas(b)
    decreases |a|
  {
    if |a| > 0 {
      assert (a + b)[0] == a[0] && (a + b)[1..] == a[1..] + b;
      RemoveCommasAppend(a[1..], b);
      RemoveCommasCons(a + b);
      RemoveCommasCons(a);
    } else {
      assert a + b == b;
    }
  }

  lemma RemoveCommasCons(s: string)
    requires |s| > 0
    ensures RemoveCommas(s) == (if s[0] == ',' then "" else [s[0]]) + RemoveCommas(s[1..])
  {
  }

  lemma {:induction false} RemoveNoCommas(s: string)
    requires forall i :: 0 <= i < |s| ==> s[i] != ','
    ensures RemoveCommas(s) == s
    decreases |s|
  {
    if |s| > 0 {
      RemoveNoCommas(s[1..]);
      assert s == [s[0]] + s[1..];
    }
  }

  /** Removing the group separators gives the digits back. */
  lemma {:induction false} UngroupGroup(s: string)
    requires AllDigits(s)
    ensures RemoveCommas(Group(s)) == s
    decreases |s|
  {
    if |s| <= 3 {
      RemoveNoCommas(s);
    } else {
      var hi, lo := s[..|s| - 3], s[|s| - 3..];
      UngroupGroup(hi);
      UngroupStep(s, hi, lo);
    }
  }

  /** Once the leading digits ungroup, the whole numeral does. */
  lemma UngroupStep(s: string, hi: string, lo: string)
    requires |s| > 3 && hi == s[..|s| - 3] && lo == s[|s| - 3..] && AllDigits(s)
    requires RemoveCommas(Group(hi)) == hi
    ensures RemoveCommas(Group(s)) == s
  {
    GroupStep(s, hi, lo);
    RemoveNoCommas(lo);
    assert s == hi + lo;
  }

  /** Ungrouping a long numeral ungroups its leading digits and its last
      three separately. */
  lemma GroupStep(s: string, hi: string, lo: string)
    requires |s| > 3 && hi == s[..|s| - 3] && lo == s[|s| - 3..]
    ensures RemoveCommas(Group(s)) == RemoveCommas(Group(hi)) + RemoveCommas(lo)
  {
    assert Group(s) == Group(hi) + "," + lo;
    RemoveCommasAppend(Group(hi) + ",", lo);
    RemoveCommasAppend(Group(hi), ",");
  }

  /** A locale-formatted integer, with its separators removed, parses back
      to the same integer. */
  lemma LocaleRoundTrip(n: int)
    ensures ParseInt(RemoveCommas(Locale(n))) == Some(n)
  {
    if n < 0 {
      var d := Decimal(-n);
      UngroupSigned(d);
      ParseNegative(-n, d);
    } else {
      UngroupGroup(Decimal(n));
      ParseDecimal(n);
    }
  }

  /** The separators of a negative number's digits come out; the sign stays. */
  lemma UngroupSigned(d: string)
    requires AllDigits(d)
    ensures RemoveCommas("-" + Group(d)) == "-" + d
  {
    UngroupGroup(d);
    RemoveCommasAppend("-", Group(d));
  }

  /** A minus sign before the shortest numeral of `m` parses to `-m`. */
  lemma ParseNegative(m: nat, d: string)
    requires d == Decimal(m)
    ensures ParseInt("-" + d) == Some(-(m as int))
  {
    UnsignedDecimal(m, "");
    assert d + "" == d;
    var s := "-" + d;
    assert s[1..] == d;
    ParseMinus(s, m);
  }

  /** A leading minus sign negates what the digits after it parse to. */
  lemma ParseMinus(s: string, v: nat)
    requires |s| > 0 && s[0] == '-' && Unsigned(s[1..]) == Some(v)
    ensures ParseInt(s) == Some(-(v as int))
  {
    TrimStartNoSpace(s);
  }

  // ---------------------------------------------------------------------
  // toFixed(1)

  /** `(num / scale).toFixed(1)` as a count of tenths, rounding half up. */
  function Tenths(num: nat, scale: nat): (q: nat)
    requires scale > 0
    ensures 2 * (q * scale - 10 * num) <= scale
    ensures 2 * (10 * num - q * scale) < scale
  {
    var d := 10 * num + scale / 2;
    RoundingBounds(10 * num, scale, d / scale * scale, d % scale);
    d / scale
  }

  /** Adding half the divisor before dividing leaves the quotient within
      half a divisor of the exact value. */
  lemma RoundingBounds(t: int, scale: int, p: int, r: int)
    requires scale > 0 && 0 <= r < scale && t + scale / 2 == p + r
    ensures 2 * (p - t) <= scale && 2 * (t - p) < scale
  {
  }

  /** A count of tenths written with one decimal, as `toFixed(1)` does. */
  function OneDecimal(q: nat): string {
    Decimal(q / 10) + "." + [DigitChar(q % 10)]
  }
}

=== FILE: reflow.dfy ===
/** The bullet reflow of frontend/src/components/ContentCard.jsx: every
    match of `/([^.\n]*[,;][^.\n]*[,;][^.\n]*\.)/g` is split on `,` and `;`,
    and when more than two non-empty trimmed pieces remain it is replaced by
    a bullet list, one "• " line per piece. */
module Reflow {
  import opened Text
  import opened Scan
  import opened Seqs

  predicate IsStop(c: char) { c == '.' || c == '\n' }

  predicate IsClauseSep(c: char) { c == ',' || c == ';' }

  /** The index of the first '.' or '\n' of `t`, or `|t|` when there is none. */
  function StopIndex(t: string): (j: nat)
    ensures j <= |t|
    ensures forall i :: 0 <= i < j ==> !IsStop(t[i])
    ensures j < |t| ==> IsStop(t[j])
  {
    if |t| == 0 || IsStop(t[0]) then 0 else 1 + StopIndex(t[1..])
  }

  /** A word of `[^.\n]*[,;][^.\n]*[,;][^.\n]*\.`: characters other than
      '.' and '\n', at least two of them ',' or ';', then one '.'. */
  predicate IsRun(m: string) {
    && |m| > 0 && m[|m| - 1] == '.'
    && (forall i :: 0 <= i < |m| - 1 ==> !IsStop(m[i]))
    && CountWhere(m[..|m| - 1], IsClauseSep) >= 2
  }

  /** The regex at the start of `t`. Every part of it but the final `\.`
      excludes '.' and '\n', so a match can only end at the first of them,
      and only if that one is a '.'. */
  function ReflowAt(t: string): nat {
    var j := StopIndex(t);
    if j < |t| && t[j] == '.' && CountWhere(t[..j], IsClauseSep) >= 2 then j + 1 else 0
  }

  predicate NonEmpty(s: string) { |s| > 0 }

  /** `match.split(/[,;]/).map(s => s.trim()).filter(s => s.length > 0)` */
  function Pieces(m: string): seq<string> {
    Filter(Map(Split(m, IsClauseSep), Trim), NonEmpty)
  }

  /** `s.replace(/\.$/, '')`: one trailing '.' is dropped. */
  function StripDot(s: string): string {
    if |s| > 0 && s[|s| - 1] == '.' then s[..|s| - 1] else s
  }

  function Bullet(p: string): string {
    "\U{2022} " + StripDot(p)
  }

  /** The replacement callback: a bullet list between two line breaks when
      more than two pieces remain, the match itself otherwise. */
  function Bulletize(m: string): string {
    var ps := Pieces(m);
    if |ps| > 2 then "\n" + Join(Map(ps, Bullet), "\n") + "\n" else m
  }

  /** The `designSystem` step of `processContent`. */
  function Reflow(text: string): string {
    Render(Tokenize(text, ReflowAt), Bulletize)
  }

  // ---------------------------------------------------------------------
  // The matcher

  /** The engine's match at the start of `t` is a run, and no other prefix
      of `t` is one. */
  lemma ReflowAtSpec(t: string)
    ensures ReflowAt(t) > 0 ==> ReflowAt(t) <= |t| && IsRun(t[..ReflowAt(t)])
    ensures forall n :: 0 < n <= |t| && IsRun(t[..n]) ==> n == ReflowAt(t)
  {
    var j := StopIndex(t);
    if ReflowAt(t) > 0 {
      assert t[..j + 1][..j] == t[..j];
    }
    forall n | 0 < n <= |t| && IsRun(t[..n]) ensures n == ReflowAt(t) {
      assert t[n - 1] == t[..n][n - 1];
      assert forall i :: 0 <= i < n - 1 ==> t[i] == t[..n][i];
      assert j == n - 1;
      assert t[..n][..n - 1] == t[..j];
    }
  }

  /** No match at a character other than '.' and '\n' means no match at the
      next one either: the run from there has the same end and fewer
      separators. */
  lemma NoMatchPropagates(t: string)
    requires |t| > 0 && !IsStop(t[0]) && ReflowAt(t) == 0
    ensures ReflowAt(t[1..]) == 0
  {
    var j := StopIndex(t);
    assert StopIndex(t[1..]) == j - 1;
    assert t[..j] == [t[0]] + t[1..][..j - 1];
    assert CountWhere(t[..j], IsClauseSep) >= CountWhere(t[1..][..j - 1], IsClauseSep);
    if j < |t| {
      assert t[1..][j - 1] == t[j];
    }
  }

  predicate EndsInStop(x: string) {
    |x| > 0 && IsStop(x[|x| - 1])
  }

  /** Reflow cuts the text into kept characters and runs, left to right;
      every hit is a run, and a run starts at the beginning of the text or
      right after a '.' or '\n'. So each hit is a whole maximal stretch
      without '.' and '\n', closed by its '.'. */
  lemma ReflowSpec(text: string)
    ensures var ps := Tokenize(text, ReflowAt);
      && Flatten(ps) == text
      && Conforms(ps, ReflowAt)
      && (forall k :: 0 <= k < |ps| && ps[k].Hit? ==> IsRun(ps[k].m))
      && (forall k :: 0 < k < |ps| && ps[k].Hit? ==> EndsInStop(PieceText(ps[k - 1])))
  {
    var ps := Tokenize(text, ReflowAt);
    TokenizeConforms(text, ReflowAt);
    HitsAreRuns(ps);
    HitsFollowStops(ps);
  }

  lemma HitsAreRuns(ps: seq<Piece>)
    requires Conforms(ps, ReflowAt)
    ensures forall k :: 0 <= k < |ps| && ps[k].Hit? ==> IsRun(ps[k].m)
  {
    forall k | 0 <= k < |ps| && ps[k].Hit? ensures IsRun(ps[k].m) {
      HitIsRun(ps, k);
    }
  }

  lemma HitsFollowStops(ps: seq<Piece>)
    requires Conforms(ps, ReflowAt)
    ensures forall k :: 0 < k < |ps| && ps[k].Hit? ==> EndsInStop(PieceText(ps[k - 1]))
  {
    forall k | 0 < k < |ps| && ps[k].Hit? ensures EndsInStop(PieceText(ps[k - 1])) {
      match ps[k - 1]
      case Hit(m) =>
        HitIsRun(ps, k - 1);
      case Keep(c) =>
        KeptBeforeHit(ps, k);
    }
  }

  lemma HitIsRun(ps: seq<Piece>, k: nat)
    requires Conforms(ps, ReflowAt)
    requires k < |ps| && ps[k].Hit?
    ensures IsRun(ps[k].m)
  {
    HitIsMatch(ps, k, ReflowAt);
    ReflowAtSpec(Flatten(ps[k..]));
  }

  lemma KeptBeforeHit(ps: seq<Piece>, k: nat)
    requires Conforms(ps, ReflowAt)
    requires 0 < k < |ps| && ps[k].Hit? && ps[k - 1].Keep?
    ensures IsStop(ps[k - 1].c)
  {
    var c := ps[k - 1].c;
    var rest := Flatten(ps[k..]);
    assert ps[k - 1..][1..] == ps[k..];
    assert Flatten(ps[k - 1..]) == [c] + rest;
    assert Agrees(ps[k - 1], Flatten(ps[k - 1..]), ReflowAt);
    HitIsMatch(ps, k, ReflowAt);
    assert ([c] + rest)[1..] == rest;
    ReflowAtSpec([c] + rest);
    if !IsStop(c) {
      NoMatchPropagates([c] + rest);
    }
  }

  lemma RunHoldsDot(t: string)
    ensures ReflowAt(t) > 0 ==> '.' in t
  {
    if ReflowAt(t) > 0 {
      assert t[StopIndex(t)] == '.';
    }
  }

  /** Text without a '.' is never reflowed. */
  lemma NoDotUnchanged(text: string)
    requires '.' !in text
    ensures Reflow(text) == text
  {
    forall i | 0 <= i < |text| ensures !MatchesHere(text[i..], ReflowAt) {
      RunHoldsDot(text[i..]);
    }
    NoMatchUnchanged(text, ReflowAt, Bulletize);
  }

  /** Every match of the scan splits into at most two pieces. */
  predicate ShortRuns(ps: seq<Piece>) {
    forall k :: 0 <= k < |ps| && ps[k].Hit? ==> |Pieces(ps[k].m)| <= 2
  }

  /** A run is turned into bullets exactly when it has more than two
      pieces; otherwise the callback returns the match unchanged. */
  lemma BulletizeFixed(m: string)
    requires IsRun(m)
    ensures Bulletize(m) == m <==> |Pieces(m)| <= 2
  {
    if |Pieces(m)| > 2 {
      RunStart(m);
      assert Bulletize(m)[0] == '\n';
    }
  }

  /** A run has at least two separators before its '.', so its first
      character is not a line break. */
  lemma RunStart(m: string)
    requires IsRun(m)
    ensures |m| > 1 && m[0] != '\n'
  {
  }

  /** When no run of the text has more than two pieces, reflow returns the
      text unchanged. */
  lemma ShortRunsUnchanged(text: string)
    requires ShortRuns(Tokenize(text, ReflowAt))
    ensures Reflow(text) == text
  {
    var ps := Tokenize(text, ReflowAt);
    FlattenTokenize(text, ReflowAt);
    forall k | 0 <= k < |ps| && ps[k].Hit? ensures Bulletize(ps[k].m) == ps[k].m {
      TokenizeConforms(text, ReflowAt);
      HitIsRun(ps, k);
      BulletizeFixed(ps[k].m);
    }
    RenderFixed(ps, Bulletize);
  }

  /** "a,,b." is a run of two pieces, "a" and "b.", so it is kept. */
  lemma TwoPieceRunKept(s: string)
    requires s == "a,,b."
    ensures Reflow(s) == s
  {
    TwoPieceRunMatched(s);
    TwoPieces(s);
    RenderMatchFirst(s, ReflowAt, Bulletize);
    assert s[..5] == s && s[5..] == "";
    assert Bulletize(s) == s;
    assert Render(Tokenize("", ReflowAt), Bulletize) == "";
  }

  lemma TwoPieceRunMatched(s: string)
    requires s == "a,,b."
    ensures ReflowAt(s) == 5
  {
    var t1, t2, t3, t4 := s[1..], s[2..], s[3..], s[4..];
    assert t4 == "." && t3 == "b." && t2 == ",b." && t1 == ",,b.";
    assert StopIndex(t4) == 0;
    assert StopIndex(t3) == 1 && t3[1..] == t4;
    assert StopIndex(t2) == 2 && t2[1..] == t3;
    assert StopIndex(t1) == 3 && t1[1..] == t2;
    assert StopIndex(s) == 4 && s[1..] == t1;
    assert s[..4] == "a,,b";
    SepCount(s[..4]);
  }

  lemma SepCount(t: string)
    requires t == "a,,b"
    ensures CountWhere(t, IsClauseSep) == 2
  {
    var t1, t2, t3 := t[1..], t[2..], t[3..];
    assert t3 == "b" && t3[1..] == "";
    assert CountWhere(t3, IsClauseSep) == 0;
    assert t2[1..] == t3 && IsClauseSep(t2[0]);
    assert CountWhere(t2, IsClauseSep) == 1;
    assert t1[1..] == t2 && IsClauseSep(t1[0]);
    assert CountWhere(t1, IsClauseSep) == 2;
    assert t[1..] == t1 && !IsClauseSep(t[0]);
  }

  lemma TwoPieces(s: string)
    requires s == "a,,b."
    ensures Pieces(s) == ["a", "b."]
  {
    TwoPieceSplit(s);
    TrimmedParts(Split(s, IsClauseSep));
    NonEmptyParts(Map(Split(s, IsClauseSep), Trim));
  }

  lemma TrimmedParts(qs: seq<string>)
    requires qs == ["a", "", "b."]
    ensures Map(qs, Trim) == qs
  {
    forall i | 0 <= i < |qs| ensures Trim(qs[i]) == qs[i] {
      TrimKept(qs[i]);
    }
    MapFixed(qs, Trim);
  }

  lemma TrimKept(q: string)
    requires q == "a" || q == "" || q == "b."
    ensures Trim(q) == q
  {
    if q != "" {
      TrimNoEdgeSpace(q);
    }
  }

  lemma NonEmptyParts(ts: seq<string>)
    requires ts == ["a", "", "b."]
    ensures Filter(ts, NonEmpty) == ["a", "b."]
  {
    FilterCons(ts, NonEmpty);
    FilterCons(ts[1..], NonEmpty);
    FilterCons(ts[2..], NonEmpty);
    assert ts[1..][1..] == ts[2..] && ts[2..][1..] == [];
  }

  lemma TwoPieceSplit(s: string)
    requires s == "a,,b."
    ensures Split(s, IsClauseSep) == ["a", "", "b."]
  {
    var t1, t2, t3, t4 := s[1..], s[2..], s[3..], s[4..];
    assert t4 == "." && t4[1..] == "" && !IsClauseSep(t4[0]);
    assert [t4[0]] + "" == ".";
    assert Split(t4, IsClauseSep) == ["."];
    assert t3[1..] == t4 && !IsClauseSep(t3[0]);
    assert [t3[0]] + "." == "b.";
    assert Split(t3, IsClauseSep) == ["b."];
    assert t2[1..] == t3 && IsClauseSep(t2[0]);
    assert Split(t2, IsClauseSep) == ["", "b."];
    assert t1[1..] == t2 && IsClauseSep(t1[0]);
    assert Split(t1, IsClauseSep) == ["", "", "b."];
    assert s[1..] == t1 && !IsClauseSep(s[0]);
    assert [s[0]] + "" == "a";
  }

  // ---------------------------------------------------------------------
  // The replacement

  /** '.' can only be the last character. */
  predicate DotOnlyLast(q: string) {
    forall i :: 0 <= i < |q| - 1 ==> q[i] != '.'
  }

  predicate NotNewline(c: char) { c != '\n' }

  lemma {:induction false} SplitDotOnlyLast(s: string)
    requires DotOnlyLast(s)
    ensures forall k :: 0 <= k < |Split(s, IsClauseSep)| ==> DotOnlyLast(Split(s, IsClauseSep)[k])
    decreases |s|
  {
    if |s| > 0 {
      SplitDotOnlyLast(s[1..]);
      var rest := Split(s[1..], IsClauseSep);
      if !IsClauseSep(s[0]) {
        var first := [s[0]] + rest[0];
        if |s| == 1 {
          assert rest == [""];
        } else {
          forall i | 0 <= i < |first| - 1 ensures first[i] != '.' {
            if i > 0 {
              assert first[i] == rest[0][i - 1];
            }
          }
        }
      }
    }
  }

  lemma TrimDotOnlyLast(q: string)
    requires DotOnlyLast(q)
    ensures DotOnlyLast(Trim(q))
  {
    var r := Trim(q);
    var a: nat :| TrimmedAt(q, r, a);
    assert q[a..a + |r|] == r;
    forall i | 0 <= i < |r| - 1 ensures r[i] != '.' {
      assert r[i] == q[a..a + |r|][i] == q[a + i];
    }
  }

  /** A piece comes from one of the split pieces, trimmed. */
  lemma PieceOrigin(m: string, p: string)
    requires p in Pieces(m)
    ensures exists k :: 0 <= k < |Split(m, IsClauseSep)| && p == Trim(Split(m, IsClauseSep)[k])
  {
    var trimmed := Map(Split(m, IsClauseSep), Trim);
    assert p in trimmed;
    var k :| 0 <= k < |trimmed| && trimmed[k] == p;
  }

  /** No bullet body holds a '.': the only '.' of a run is its last
      character, which ends the last piece and is dropped from it. */
  lemma NoDotInBullets(m: string)
    requires IsRun(m)
    ensures forall j :: 0 <= j < |Pieces(m)| ==> '.' !in StripDot(Pieces(m)[j])
  {
    SplitDotOnlyLast(m);
    forall j | 0 <= j < |Pieces(m)| ensures '.' !in StripDot(Pieces(m)[j]) {
      PieceNoDot(m, Pieces(m)[j]);
    }
  }

  lemma PieceNoDot(m: string, p: string)
    requires forall k :: 0 <= k < |Split(m, IsClauseSep)| ==> DotOnlyLast(Split(m, IsClauseSep)[k])
    requires p in Pieces(m)
    ensures '.' !in StripDot(p)
  {
    var qs := Split(m, IsClauseSep);
    PieceOrigin(m, p);
    var k :| 0 <= k < |qs| && p == Trim(qs[k]);
    TrimDotOnlyLast(qs[k]);
    StripDotClean(p);
  }

  lemma StripDotClean(p: string)
    requires DotOnlyLast(p)
    ensures '.' !in StripDot(p)
  {
    var r := StripDot(p);
    forall i | 0 <= i < |r| ensures r[i] != '.' {
      assert r[i] == p[i];
    }
  }

  /** No piece holds a line break, because a run holds none. */
  lemma PiecesOneLine(m: string)
    requires IsRun(m)
    ensures forall j, i :: 0 <= j < |Pieces(m)| && 0 <= i < |Pieces(m)[j]| ==> Pieces(m)[j][i] != '\n'
  {
    assert forall i :: 0 <= i < |m| ==> NotNewline(m[i]);
    SplitKeeps(m, IsClauseSep, NotNewline);
    forall j | 0 <= j < |Pieces(m)| ensures forall i :: 0 <= i < |Pieces(m)[j]| ==> Pieces(m)[j][i] != '\n' {
      PieceOneLine(m, Pieces(m)[j]);
    }
  }

  lemma PieceOneLine(m: string, p: string)
    requires forall k, i :: 0 <= k < |Split(m, IsClauseSep)| && 0 <= i < |Split(m, IsClauseSep)[k]| ==> NotNewline(Split(m, IsClauseSep)[k][i])
    requires p in Pieces(m)
    ensures forall i :: 0 <= i < |p| ==> p[i] != '\n'
  {
    var qs := Split(m, IsClauseSep);
    PieceOrigin(m, p);
    var k :| 0 <= k < |qs| && p == Trim(qs[k]);
    TrimmedOneLine(qs[k], p);
  }

  lemma TrimmedOneLine(q: string, p: string)
    requires forall i :: 0 <= i < |q| ==> NotNewline(q[i])
    requires p == Trim(q)
    ensures forall i :: 0 <= i < |p| ==> p[i] != '\n'
  {
    TrimKeeps(q, NotNewline);
  }

  /** A reflowed run reads, line by line, as an empty line, one bullet per
      non-empty trimmed piece in order, and an empty line: so the number of
      bullets is the number of pieces. */
  lemma BulletLines(m: string)
    requires IsRun(m) && |Pieces(m)| > 2
    ensures Lines(Bulletize(m)) == [""] + Map(Pieces(m), Bullet) + [""]
  {
    var parts := [""] + Map(Pieces(m), Bullet) + [""];
    PiecesOneLine(m);
    BulletsOneLine(Pieces(m));
    JoinFramed(Map(Pieces(m), Bullet), "\n");
    SplitJoin(parts, '\n', IsNewline);
  }

  lemma BulletsOneLine(ps: seq<string>)
    requires forall j, i :: 0 <= j < |ps| && 0 <= i < |ps[j]| ==> ps[j][i] != '\n'
    ensures var parts := [""] + Map(ps, Bullet) + [""];
      forall k, i :: 0 <= k < |parts| && 0 <= i < |parts[k]| ==> parts[k][i] != '\n'
  {
    var parts := [""] + Map(ps, Bullet) + [""];
    forall k, i | 0 <= k < |parts| && 0 <= i < |parts[k]| ensures parts[k][i] != '\n' {
      if 0 < k < |parts| - 1 {
        var p := ps[k - 1];
        assert parts[k] == "\U{2022} " + StripDot(p);
        if i >= 2 {
          assert parts[k][i] == StripDot(p)[i - 2] == p[i - 2];
        }
      }
    }
  }
}

=== FILE: scan.dfy ===
/** The scan behind `String.prototype.replace` with a global regex: starting
    at index 0, a match at the current index is consumed whole and replaced,
    otherwise one character is kept and the scan moves one index on. A regex
    is given to the scan as a prefix matcher `at`: `at(t)` is the length of
    the match that starts at the first character of `t`, and 0 (or any
    length that does not fit) means no match there. */
module Scan {
  import opened Text

  /** One step of the scan: a character kept as is, or a whole match. */
  datatype Piece = Keep(c: char) | Hit(m: string)

  function PieceText(p: Piece): string {
    match p
    case Keep(c) => [c]
    case Hit(m) => m
  }

  /** The text the pieces were cut from. */
  function Flatten(ps: seq<Piece>): string {
    if |ps| == 0 then "" else PieceText(ps[0]) + Flatten(ps[1..])
  }

  /** Whether `at` reports a match at the start of `t`. */
  predicate MatchesHere(t: string, at: string -> nat) {
    0 < at(t) <= |t|
  }

  /** The leftmost, non-overlapping cut of `s` into pieces. */
  function Tokenize(s: string, at: string -> nat): seq<Piece>
    decreases |s|
  {
    if |s| == 0 then []
    else if MatchesHere(s, at) then [Hit(s[..at(s)])] + Tokenize(s[at(s)..], at)
    else [Keep(s[0])] + Tokenize(s[1..], at)
  }

  /** `s.replace(regex, f)`: every match is replaced by `f` of it. */
  function Render(ps: seq<Piece>, f: string -> string): string {
    if |ps| == 0 then ""
    else (match ps[0] case Keep(c) => [c] case Hit(m) => f(m)) + Render(ps[1..], f)
  }

  function HitCount(ps: seq<Piece>): nat {
    if |ps| == 0 then 0 else (if ps[0].Hit? then 1 else 0) + HitCount(ps[1..])
  }

  /** A piece agrees with the matcher on the text that remains where it stands:
      a hit is exactly the match there, a kept character has no match there. */
  predicate Agrees(p: Piece, rest: string, at: string -> nat) {
    match p
    case Hit(m) => |m| > 0 && at(rest) == |m|
    case Keep(c) => !MatchesHere(rest, at)
  }

  /** The declarative reading of a leftmost, non-overlapping scan. */
  predicate Conforms(ps: seq<Piece>, at: string -> nat) {
    forall k :: 0 <= k < |ps| ==> Agrees(ps[k], Flatten(ps[k..]), at)
  }

  lemma {:induction false} FlattenTokenize(s: string, at: string -> nat)
    ensures Flatten(Tokenize(s, at)) == s
    decreases |s|
  {
    if |s| > 0 {
      if MatchesHere(s, at) {
        FlattenTokenize(s[at(s)..], at);
        FlattenHitStep(s, at);
      } else {
        FlattenTokenize(s[1..], at);
        FlattenKeepStep(s, at);
      }
    }
  }

  lemma FlattenHitStep(s: string, at: string -> nat)
    requires MatchesHere(s, at)
    requires Flatten(Tokenize(s[at(s)..], at)) == s[at(s)..]
    ensures Flatten(Tokenize(s, at)) == s
  {
    var n := at(s);
    TokenizeHit(s, at);
    FlattenCons(Hit(s[..n]), Tokenize(s[n..], at));
    SplitAt(s, n);
  }

  lemma FlattenKeepStep(s: string, at: string -> nat)
    requires |s| > 0 && !MatchesHere(s, at)
    requires Flatten(Tokenize(s[1..], at)) == s[1..]
    ensures Flatten(Tokenize(s, at)) == s
  {
    var ps := Tokenize(s, at);
    assert ps[0] == Keep(s[0]) && ps[1..] == Tokenize(s[1..], at);
    assert Flatten(ps) == [s[0]] + s[1..];
  }

  lemma TokenizeHit(s: string, at: string -> nat)
    requires MatchesHere(s, at)
    ensures Tokenize(s, at) == [Hit(s[..at(s)])] + Tokenize(s[at(s)..], at)
  {
  }

  lemma SplitAt(s: string, n: nat)
    requires n <= |s|
    ensures s[..n] + s[n..] == s
  {
  }

  lemma FlattenCons(p: Piece, ps: seq<Piece>)
    ensures Flatten([p] + ps) == PieceText(p) + Flatten(ps)
  {
    assert ([p] + ps)[1..] == ps;
  }

  /** The scan cuts `s` into pieces that give `s` back and that each agree
      with the matcher. */
  lemma {:induction false} TokenizeConforms(s: string, at: string -> nat)
    ensures Flatten(Tokenize(s, at)) == s
    ensures Conforms(Tokenize(s, at), at)
    decreases |s|
  {
    FlattenTokenize(s, at);
    var ps := Tokenize(s, at);
    if |s| > 0 {
      var rest := if MatchesHere(s, at) then s[at(s)..] else s[1..];
      TokenizeConforms(rest, at);
      assert ps[1..] == Tokenize(rest, at);
      forall k | 0 <= k < |ps| ensures Agrees(ps[k], Flatten(ps[k..]), at) {
        if k > 0 {
          assert ps[k..] == ps[1..][k - 1..];
        }
      }
    }
  }

  /** Conversely, the only piece sequence that gives `s` back and agrees
      with the matcher everywhere is the scan's. */
  lemma {:induction false} ConformsUnique(s: string, ps: seq<Piece>, at: string -> nat)
    requires Flatten(ps) == s
    requires Conforms(ps, at)
    ensures ps == Tokenize(s, at)
    decreases |ps|
  {
    if |ps| > 0 {
      assert Agrees(ps[0], Flatten(ps[0..]), at);
      assert ps[0..] == ps;
      assert Conforms(ps[1..], at) by {
        forall k | 0 <= k < |ps[1..]| ensures Agrees(ps[1..][k], Flatten(ps[1..][k..]), at) {
          assert ps[1..][k..] == ps[k + 1..];
          assert Agrees(ps[k + 1], Flatten(ps[k + 1..]), at);
        }
      }
      match ps[0]
      case Hit(m) =>
        assert s == m + Flatten(ps[1..]);
        assert s[..at(s)] == m;
        assert s[at(s)..] == Flatten(ps[1..]);
        ConformsUnique(s[at(s)..], ps[1..], at);
      case Keep(c) =>
        assert s == [c] + Flatten(ps[1..]);
        assert s[1..] == Flatten(ps[1..]);
        ConformsUnique(s[1..], ps[1..], at);
    } else {
      assert s == "";
    }
  }

  /** When the regex matches nowhere in `s`, replacing leaves `s` unchanged. */
  lemma {:induction false} NoMatchUnchanged(s: string, at: string -> nat, f: string -> string)
    requires forall i :: 0 <= i < |s| ==> !MatchesHere(s[i..], at)
    ensures Render(Tokenize(s, at), f) == s
    decreases |s|
  {
    if |s| > 0 {
      assert s[0..] == s;
      assert forall i :: 0 <= i < |s[1..]| ==> s[1..][i..] == s[i + 1..];
      NoMatchUnchanged(s[1..], at, f);
      assert s == [s[0]] + s[1..];
    }
  }

  /** A replacement that adds `extra` characters to every match adds
      `extra` characters per hit to the whole text. */
  lemma {:induction false} RenderLength(ps: seq<Piece>, f: string -> string, extra: int)
    requires forall m :: |f(m)| == |m| + extra
    ensures |Render(ps, f)| == |Flatten(ps)| + extra * HitCount(ps)
    decreases |ps|
  {
    if |ps| > 0 {
      RenderLength(ps[1..], f, extra);
      var p := ps[0];
      var r := match p case Keep(c) => [c] case Hit(m) => f(m);
      assert Render(ps, f) == r + Render(ps[1..], f);
      assert Flatten(ps) == PieceText(p) + Flatten(ps[1..]);
      assert |r| == |PieceText(p)| + (if p.Hit? then extra else 0);
      LengthStep(|r|, |Render(ps[1..], f)|, |PieceText(p)|, |Flatten(ps[1..])|,
        if p.Hit? then 1 else 0, HitCount(ps[1..]), extra);
    }
  }

  /** One step of the length count, as arithmetic alone. */
  lemma LengthStep(r0: int, r1: int, f0: int, f1: int, h0: int, h1: int, extra: int)
    requires r0 == f0 + extra * h0
    requires r1 == f1 + extra * h1
    ensures r0 + r1 == f0 + f1 + extra * (h0 + h1)
  {
  }

  /** Replacing every match by the empty string keeps exactly the kept characters. */
  lemma {:induction false} RenderDeleteLength(ps: seq<Piece>)
    ensures |Render(ps, _ => "")| + HitLength(ps) == |Flatten(ps)|
    decreases |ps|
  {
    if |ps| > 0 {
      RenderDeleteLength(ps[1..]);
    }
  }

  /** The total length of the matches. */
  function HitLength(ps: seq<Piece>): nat {
    if |ps| == 0 then 0 else (if ps[0].Hit? then |ps[0].m| else 0) + HitLength(ps[1..])
  }

  /** Characters outside matches are never altered: the rendered text is the
      kept characters and the replacements, in source order. */
  lemma {:induction false} RenderAppend(a: seq<Piece>, b: seq<Piece>, f: string -> string)
    ensures Render(a + b, f) == Render(a, f) + Render(b, f)
    ensures Flatten(a + b) == Flatten(a) + Flatten(b)
    decreases |a|
  {
    if |a| > 0 {
      assert (a + b)[1..] == a[1..] + b;
      RenderAppend(a[1..], b, f);
    } else {
      assert a + b == b;
    }
  }

  /** A replacement that gives every match back as it is leaves the text
      unchanged. */
  lemma {:induction false} RenderFixed(ps: seq<Piece>, f: string -> string)
    requires forall k :: 0 <= k < |ps| && ps[k].Hit? ==> f(ps[k].m) == ps[k].m
    ensures Render(ps, f) == Flatten(ps)
    decreases |ps|
  {
    if |ps| > 0 {
      assert forall k :: 1 <= k < |ps| ==> ps[1..][k - 1] == ps[k];
      RenderFixed(ps[1..], f);
    }
  }

  /** A stretch of text with no match in it passes through unchanged ahead
      of whatever the rest of the text renders to. */
  lemma {:induction false} RenderNoMatchPrefix(a: string, b: string, at: string -> nat, f: string -> string)
    requires forall i :: 0 <= i < |a| ==> !MatchesHere((a + b)[i..], at)
    ensures Render(Tokenize(a + b, at), f) == a + Render(Tokenize(b, at), f)
    decreases |a|
  {
    if |a| > 0 {
      NoMatchTail(a, b, at);
      KeepStep(a + b, at, f);
      RenderNoMatchPrefix(a[1..], b, at, f);
      assert a == [(a + b)[0]] + a[1..];
    } else {
      assert a + b == b;
    }
  }

  lemma NoMatchTail(a: string, b: string, at: string -> nat)
    requires |a| > 0
    requires forall i :: 0 <= i < |a| ==> !MatchesHere((a + b)[i..], at)
    ensures !MatchesHere(a + b, at) && (a + b)[1..] == a[1..] + b
    ensures forall i :: 0 <= i < |a[1..]| ==> !MatchesHere((a[1..] + b)[i..], at)
  {
    var s := a + b;
    assert s[0..] == s;
    forall i | 0 <= i < |a[1..]| ensures !MatchesHere((a[1..] + b)[i..], at) {
      assert (a[1..] + b)[i..] == s[i + 1..];
    }
  }

  /** A character with no match at it is kept ahead of the rest. */
  lemma KeepStep(s: string, at: string -> nat, f: string -> string)
    requires |s| > 0 && !MatchesHere(s, at)
    ensures Render(Tokenize(s, at), f) == [s[0]] + Render(Tokenize(s[1..], at), f)
  {
    var ps := Tokenize(s, at);
    assert ps[1..] == Tokenize(s[1..], at);
  }

  /** A match at the start of the text is replaced ahead of the rest. */
  lemma RenderMatchFirst(s: string, at: string -> nat, f: string -> string)
    requires MatchesHere(s, at)
    ensures Render(Tokenize(s, at), f) == f(s[..at(s)]) + Render(Tokenize(s[at(s)..], at), f)
  {
  }

  /** A hit piece is a prefix of the text that remains where it stands. */
  lemma {:induction false} FlattenPrefix(ps: seq<Piece>, k: nat)
    requires k < |ps| && ps[k].Hit?
    ensures StartsWith(Flatten(ps[k..]), ps[k].m)
  {
    assert Flatten(ps[k..]) == ps[k].m + Flatten(ps[k + 1..]) by {
      assert ps[k..][1..] == ps[k + 1..];
    }
  }

  /** In a conforming cut, a hit is the matcher's match on the text that
      remains where it stands. */
  lemma HitIsMatch(ps: seq<Piece>, k: nat, at: string -> nat)
    requires Conforms(ps, at)
    requires k < |ps| && ps[k].Hit?
    ensures var rest := Flatten(ps[k..]);
      && at(rest) == |ps[k].m| > 0
      && |ps[k].m| <= |rest| && rest[..|ps[k].m|] == ps[k].m
  {
    assert Agrees(ps[k], Flatten(ps[k..]), at);
    FlattenPrefix(ps, k);
  }
}

=== FILE: sections.dfy ===
/** `parseSummary` and the TL;DR pick of the video view
    (frontend/src/components/ResultDisplay.jsx): the cleaned summary is cut
    into lines, every line whose trimmed form starts with "## " opens a
    section, and the non-blank lines after it, up to the next heading, are
    its content. */
module Sections {
  import opened Text
  import opened Seqs
  import Sentinel

  datatype Section = Section(id: string, title: string, content: seq<string>)

  const HeadingPrefix: string := "## "

  /** How the parser reads one line of the cleaned summary. */
  datatype Line = Heading(title: string) | Text(raw: string) | Blank

  /** `line.trim()` starts with "## ": a heading whose title is the trimmed
      line minus its first three characters; otherwise a blank line when the
      trimmed line is empty, and a text line (kept untrimmed) when it is not. */
  function Classify(line: string): Line
  {
    var t := Trim(line);
    if StartsWith(t, HeadingPrefix) then Heading(t[|HeadingPrefix|..])
    else if t == "" then Blank
    else Text(line)
  }

  function ClassifyAll(lines: seq<string>): (ks: seq<Line>)
    ensures |ks| == |lines|
    ensures forall i :: 0 <= i < |lines| ==> ks[i] == Classify(lines[i])
  {
    seq(|lines|, i requires 0 <= i < |lines| => Classify(lines[i]))
  }

  /** One character of `toLowerCase().replace(/[^a-z0-9]/g, '-')`. */
  function SlugChar(c: char): char {
    var l := LowerChar(c);
    if IsLowerAlnum(l) then l else '-'
  }

  /** The section id: each character of the title maps to exactly one
      character of the id; letters and digits survive lower-cased, anything
      else becomes a single '-', with no collapsing and no edge trimming.
      The source replaces UTF-16 code units, so a character outside the
      Basic Multilingual Plane gives two '-' there and one here. */
  function Slug(title: string): (id: string)
    ensures |id| == |title|
    ensures forall i :: 0 <= i < |id| ==> IsLowerAlnum(id[i]) || id[i] == '-'
    ensures forall i :: 0 <= i < |id| ==> (id[i] == '-' <==> !IsAsciiAlnum(title[i]))
    ensures forall i :: 0 <= i < |id| && IsAsciiAlnum(title[i]) ==> id[i] == LowerChar(title[i])
  {
    seq(|title|, i requires 0 <= i < |title| => SlugChar(title[i]))
  }

  function NewSection(title: string): Section
  {
    Section(Slug(title), title, [])
  }

  /** The `forEach` over the lines with `currentSection` as the accumulator
      `cur`: a heading flushes `cur` and opens a new section, a text line is
      appended untrimmed to `cur`, anything else is dropped. */
  function Collect(ks: seq<Line>, cur: Option<Section>): seq<Section>
  {
    var flushed := if cur.Some? then [cur.value] else [];
    if |ks| == 0 then flushed
    else match ks[0]
      case Heading(t) => flushed + Collect(ks[1..], Some(NewSection(t)))
      case Text(l) =>
        if cur.Some? then Collect(ks[1..], Some(cur.value.(content := cur.value.content + [l])))
        else Collect(ks[1..], cur)
      case Blank => Collect(ks[1..], cur)
  }

  /** The lines `parseSummary` iterates over. */
  function SummaryLines(summary: string): seq<Line>
  {
    ClassifyAll(Lines(Sentinel.CleanSummary(summary)))
  }

  /** `parseSummary(summary)`: a missing or empty summary gives no sections. */
  function ParseSummary(summary: Option<string>): seq<Section>
  {
    if summary.None? || summary.value == "" then []
    else Collect(SummaryLines(summary.value), None)
  }

  // ---------------------------------------------------------------------
  // The declarative reading of the parser

  /** The text lines before the next heading. */
  function Body(ks: seq<Line>): seq<string>
  {
    if |ks| == 0 || ks[0].Heading? then []
    else (if ks[0].Text? then [ks[0].raw] else []) + Body(ks[1..])
  }

  /** One section per heading line, holding the body that follows it. */
  function Outline(ks: seq<Line>): seq<Section>
  {
    if |ks| == 0 then []
    else if ks[0].Heading? then
      [NewSection(ks[0].title).(content := Body(ks[1..]))] + Outline(ks[1..])
    else Outline(ks[1..])
  }

  function HeadingCount(ks: seq<Line>): nat
  {
    if |ks| == 0 then 0 else (if ks[0].Heading? then 1 else 0) + HeadingCount(ks[1..])
  }

  /** The fold with an open section finishes that section with the body
      that follows and then yields the outline of the rest. */
  lemma {:induction false} CollectIsOutline(ks: seq<Line>, cur: Option<Section>)
    ensures cur.None? ==> Collect(ks, cur) == Outline(ks)
    ensures cur.Some? ==>
      Collect(ks, cur) == [cur.value.(content := cur.value.content + Body(ks))] + Outline(ks)
    decreases |ks|
  {
    if |ks| > 0 {
      match ks[0]
      case Heading(t) =>
        CollectIsOutline(ks[1..], Some(NewSection(t)));
        assert NewSection(t).(content := NewSection(t).content + Body(ks[1..]))
          == NewSection(t).(content := Body(ks[1..]));
        assert Outline(ks) == [NewSection(t).(content := Body(ks[1..]))] + Outline(ks[1..]);
        if cur.Some? {
          assert Body(ks) == [];
          assert cur.value.content + Body(ks) == cur.value.content;
          assert cur.value.(content := cur.value.content) == cur.value;
        }
      case Text(l) =>
        if cur.Some? {
          var next := cur.value.(content := cur.value.content + [l]);
          CollectIsOutline(ks[1..], Some(next));
          assert next.content + Body(ks[1..]) == cur.value.content + Body(ks);
        } else {
          CollectIsOutline(ks[1..], cur);
        }
      case Blank =>
        CollectIsOutline(ks[1..], cur);
        assert Body(ks) == Body(ks[1..]);
    } else if cur.Some? {
      assert cur.value.content + Body(ks) == cur.value.content;
      assert cur.value.(content := cur.value.content) == cur.value;
    }
  }

  lemma {:induction false} OutlineLength(ks: seq<Line>)
    ensures |Outline(ks)| == HeadingCount(ks)
    decreases |ks|
  {
    if |ks| > 0 {
      OutlineLength(ks[1..]);
    }
  }

  /** The section opened by the heading at line `h` sits at the position
      given by the number of headings before it, and its content is the
      body that follows line `h`. */
  lemma {:induction false} OutlineAt(ks: seq<Line>, h: nat)
    requires h < |ks| && ks[h].Heading?
    ensures HeadingCount(ks[..h]) < |Outline(ks)|
    ensures Outline(ks)[HeadingCount(ks[..h])] == NewSection(ks[h].title).(content := Body(ks[h + 1..]))
    decreases h
  {
    OutlineLength(ks);
    if h == 0 {
      assert ks[..0] == [];
    } else {
      OutlineAt(ks[1..], h - 1);
      assert ks[1..][..h - 1] == ks[1..h];
      assert ks[..h][1..] == ks[1..h];
      assert ks[1..][h - 1] == ks[h];
      assert ks[1..][h - 1 + 1..] == ks[h + 1..];
    }
  }

  /** The number of sections is the number of heading lines of the cleaned
      summary, indented headings included. */
  lemma SectionCount(summary: string)
    requires summary != ""
    ensures |ParseSummary(Some(summary))| == HeadingCount(SummaryLines(summary))
  {
    CollectIsOutline(SummaryLines(summary), None);
    OutlineLength(SummaryLines(summary));
  }

  /** Each heading line of the cleaned summary yields its own section, in
      source order, whose content is exactly the text lines up to the next
      heading, stored untrimmed. Headings with equal ids are not merged. */
  lemma SectionOfHeading(summary: string, h: nat)
    requires summary != ""
    requires h < |SummaryLines(summary)| && SummaryLines(summary)[h].Heading?
    ensures var ks := SummaryLines(summary);
      var secs := ParseSummary(Some(summary));
      && HeadingCount(ks[..h]) < |secs|
      && secs[HeadingCount(ks[..h])].title == ks[h].title
      && secs[HeadingCount(ks[..h])].id == Slug(ks[h].title)
      && secs[HeadingCount(ks[..h])].content == Body(ks[h + 1..])
  {
    ParseIsOutline(summary);
    OutlineAt(SummaryLines(summary), h);
  }

  lemma ParseIsOutline(summary: string)
    requires summary != ""
    ensures ParseSummary(Some(summary)) == Outline(SummaryLines(summary))
  {
    CollectIsOutline(SummaryLines(summary), None);
  }

  /** A missing or empty summary yields no sections rather than an error. */
  lemma EmptySummary(summary: Option<string>)
    requires summary.None? || summary.value == ""
    ensures ParseSummary(summary) == []
  {
  }

  /** A title is never empty and ends in a non-space: a trimmed line of
      exactly "## " would end in a space, so a heading has text after the
      prefix. A text line is never blank. */
  lemma ClassifyShape(line: string)
    ensures Classify(line).Heading? ==>
      |Classify(line).title| > 0 && !IsSpace(Classify(line).title[|Classify(line).title| - 1])
    ensures Classify(line).Text? ==> Classify(line).raw == line && !(forall i :: 0 <= i < |line| ==> IsSpace(line[i]))
  {
    var t := Trim(line);
    if StartsWith(t, HeadingPrefix) {
      assert IsSpace(t[2]);
      assert |t| != 3;
    }
  }

  /** Two headings whose titles differ only in case give two sections with
      the same id. */
  lemma DuplicateIdsKept()
    ensures var secs := Collect([Heading("Q&A"), Text("notes"), Heading("q A")], None);
      && |secs| == 2
      && secs[0] == Section("q-a", "Q&A", ["notes"])
      && secs[1] == Section("q-a", "q A", [])
  {
    assert Slug("Q&A") == "q-a";
    assert Slug("q A") == "q-a";
    var ks := [Heading("Q&A"), Text("notes"), Heading("q A")];
    assert ks[1..] == [Text("notes"), Heading("q A")];
    assert ks[1..][1..] == [Heading("q A")];
    assert ks[1..][1..][1..] == [];
  }

  /** Leading whitespace is trimmed away. */
  lemma {:induction false} PaddingIgnored(pad: string, line: string)
    requires forall i :: 0 <= i < |pad| ==> IsSpace(pad[i])
    ensures TrimStart(pad + line) == TrimStart(line)
    decreases |pad|
  {
    if |pad| > 0 {
      PaddingIgnored(pad[1..], line);
      assert (pad + line)[1..] == pad[1..] + line;
    } else {
      assert pad + line == line;
    }
  }

  /** Leading whitespace changes neither whether a line is a heading, nor
      its title, nor whether it is blank; a text line keeps its padding,
      since the parser stores text lines untrimmed. */
  lemma PaddedLine(pad: string, line: string)
    requires forall i :: 0 <= i < |pad| ==> IsSpace(pad[i])
    ensures Classify(pad + line).Heading? <==> Classify(line).Heading?
    ensures Classify(line).Heading? ==> Classify(pad + line) == Classify(line)
    ensures Classify(pad + line).Blank? <==> Classify(line).Blank?
    ensures Classify(line).Text? ==> Classify(pad + line) == Text(pad + line)
  {
    PaddingIgnored(pad, line);
    SameTrimSameClass(pad + line, line);
  }

  /** Lines that trim alike are classified alike, except that a text line
      keeps its own raw form. */
  lemma SameTrimSameClass(a: string, b: string)
    requires Trim(a) == Trim(b)
    ensures Classify(a).Heading? <==> Classify(b).Heading?
    ensures Classify(b).Heading? ==> Classify(a) == Classify(b)
    ensures Classify(a).Blank? <==> Classify(b).Blank?
    ensures Classify(b).Text? ==> Classify(a) == Text(a)
  {
  }

  /** An indented heading is still a heading, and its title is the text
      after "## " when that text has no whitespace at its ends. */
  lemma IndentedHeading(pad: string, title: string)
    requires forall i :: 0 <= i < |pad| ==> IsSpace(pad[i])
    requires |title| > 0 && !IsSpace(title[0]) && !IsSpace(title[|title| - 1])
    ensures Classify(pad + HeadingPrefix + title) == Heading(title)
  {
    var h := HeadingPrefix + title;
    assert pad + HeadingPrefix + title == pad + h;
    assert h[|h| - 1] == title[|title| - 1];
    PaddedTrim(pad, h);
    assert h[..3] == HeadingPrefix && h[3..] == title;
    HeadingOfTrimmed(pad + h, h);
  }

  lemma PaddedTrim(pad: string, h: string)
    requires forall i :: 0 <= i < |pad| ==> IsSpace(pad[i])
    requires |h| > 0 && !IsSpace(h[0]) && !IsSpace(h[|h| - 1])
    ensures Trim(pad + h) == h
  {
    PaddingIgnored(pad, h);
    TrimNoEdgeSpace(h);
  }

  lemma HeadingOfTrimmed(line: string, h: string)
    requires Trim(line) == h && StartsWith(h, HeadingPrefix)
    ensures Classify(line) == Heading(h[|HeadingPrefix|..])
  {
  }

  // ---------------------------------------------------------------------
  // The TL;DR pick

  predicate IsTldr(s: Section) {
    Contains(Lower(s.title), "tl;dr")
  }

  /** `sections.find(...)`: the hero section of the video view. */
  function TldrSection(secs: seq<Section>): Option<Section>
  {
    Find(secs, IsTldr)
  }

  /** `sections.filter(...)`: the sections that are not TL;DR, in order. */
  function OtherSections(secs: seq<Section>): seq<Section>
  {
    Filter(secs, NotTldr)
  }

  predicate NotTldr(s: Section) {
    !IsTldr(s)
  }

  /** The filter drops exactly the TL;DR sections: what it keeps and the
      TL;DR sections make up the whole list, the kept sections stay in
      their original order (splitting the list anywhere splits the result
      there), the hero section is the first TL;DR section, and without one
      nothing is dropped. */
  lemma TldrPartition(secs: seq<Section>)
    ensures multiset(OtherSections(secs)) + multiset(Filter(secs, IsTldr)) == multiset(secs)
    ensures forall i :: 0 <= i <= |secs| ==>
      OtherSections(secs) == OtherSections(secs[..i]) + OtherSections(secs[i..])
    ensures forall j :: 0 <= j < |OtherSections(secs)| ==> !IsTldr(OtherSections(secs)[j])
    ensures TldrSection(secs).Some? <==> |Filter(secs, IsTldr)| > 0
    ensures TldrSection(secs).Some? ==> TldrSection(secs).value == Filter(secs, IsTldr)[0]
    ensures TldrSection(secs).None? ==> OtherSections(secs) == secs
  {
    TldrSplit(secs);
    TldrFind(secs);
    TldrOrder(secs);
  }

  lemma TldrOrder(secs: seq<Section>)
    ensures forall i :: 0 <= i <= |secs| ==>
      OtherSections(secs) == OtherSections(secs[..i]) + OtherSections(secs[i..])
  {
    forall i | 0 <= i <= |secs|
      ensures OtherSections(secs) == OtherSections(secs[..i]) + OtherSections(secs[i..])
    {
      assert secs == secs[..i] + secs[i..];
      OthersInOrder(secs[..i], secs[i..]);
    }
  }

  /** The sections kept beside the hero keep their source order: the kept
      sections of a concatenation are those of each part in turn, and a
      single section is kept exactly when it is not TL;DR. */
  lemma OthersInOrder(a: seq<Section>, b: seq<Section>)
    ensures OtherSections(a + b) == OtherSections(a) + OtherSections(b)
    ensures forall s :: OtherSections([s]) == (if IsTldr(s) then [] else [s])
  {
    FilterAppend(a, b, NotTldr);
    forall s ensures OtherSections([s]) == (if IsTldr(s) then [] else [s]) {
      FilterOne(s, NotTldr);
    }
  }

  lemma TldrSplit(secs: seq<Section>)
    ensures multiset(OtherSections(secs)) + multiset(Filter(secs, IsTldr)) == multiset(secs)
    ensures forall j :: 0 <= j < |OtherSections(secs)| ==> !IsTldr(OtherSections(secs)[j])
  {
    NotTldrNegates();
    FilterPartition(secs, IsTldr, NotTldr);
    OthersNotTldr(OtherSections(secs));
  }

  lemma TldrFind(secs: seq<Section>)
    ensures TldrSection(secs).Some? <==> |Filter(secs, IsTldr)| > 0
    ensures TldrSection(secs).Some? ==> TldrSection(secs).value == Filter(secs, IsTldr)[0]
    ensures TldrSection(secs).None? ==> OtherSections(secs) == secs
  {
    NotTldrNegates();
    FindIsFilterHead(secs, IsTldr, NotTldr);
  }

  lemma NotTldrNegates()
    ensures forall x :: NotTldr(x) == !IsTldr(x)
  {
  }

  lemma OthersNotTldr(o: seq<Section>)
    requires forall j :: 0 <= j < |o| ==> NotTldr(o[j])
    ensures forall j :: 0 <= j < |o| ==> !IsTldr(o[j])
  {
  }
}

=== FILE: sentinel.dfy ===
/** The cleaning step at the top of `parseSummary`
    (frontend/src/components/ResultDisplay.jsx): the MARKDOWN wrapper markers
    are deleted on their own, the JSON and SOCIAL side blocks are deleted
    together with what they enclose, and the result is trimmed. */
module Sentinel {
  import opened Text
  import opened Scan

  const MarkdownStart: string := "---MARKDOWN START---"
  const MarkdownEnd: string := "---MARKDOWN END---"
  const JsonStart: string := "---JSON START---"
  const JsonEnd: string := "---JSON END---"
  const SocialStart: string := "---SOCIAL START---"
  const SocialEnd: string := "---SOCIAL END---"

  /** Prefix matcher of a literal regex such as `/---MARKDOWN START---/g`. */
  function LiteralAt(p: string): string -> nat {
    t => if |p| > 0 && StartsWith(t, p) then |p| else 0
  }

  /** Prefix matcher of `start[\s\S]*?end`: the lazy body stops at the
      first `end` that follows `start`. */
  function BlockAt(start: string, end: string): string -> nat {
    t => if |start| > 0 && StartsWith(t, start) then
           match FindFrom(t, end, |start|)
           case Some(k) => k + |end|
           case None => 0
         else 0
  }

  function Delete(m: string): string { "" }

  /** `s.replace(/p/g, '')` for a literal `p`. */
  function RemoveMarker(s: string, p: string): string {
    Render(Tokenize(s, LiteralAt(p)), Delete)
  }

  /** `s.replace(/start[\s\S]*?end/g, '')`. */
  function RemoveBlocks(s: string, start: string, end: string): string {
    Render(Tokenize(s, BlockAt(start, end)), Delete)
  }

  /** The four replacements of `parseSummary`, in source order, then `trim`. */
  function CleanSummary(s: string): (r: string)
    ensures |r| <= |s|
  {
    var a := RemoveMarker(s, MarkdownStart);
    var b := RemoveMarker(a, MarkdownEnd);
    var c := RemoveBlocks(b, JsonStart, JsonEnd);
    var d := RemoveBlocks(c, SocialStart, SocialEnd);
    RemoveNotLonger(s, LiteralAt(MarkdownStart));
    RemoveNotLonger(a, LiteralAt(MarkdownEnd));
    RemoveNotLonger(b, BlockAt(JsonStart, JsonEnd));
    RemoveNotLonger(c, BlockAt(SocialStart, SocialEnd));
    Trim(d)
  }

  lemma RemoveNotLonger(s: string, at: string -> nat)
    ensures |Render(Tokenize(s, at), Delete)| <= |s|
  {
    var ps := Tokenize(s, at);
    FlattenTokenize(s, at);
    RenderDeleteLength(ps);
    assert Render(ps, Delete) == Render(ps, _ => "") by { RenderSameDelete(ps); }
  }

  lemma {:induction false} RenderSameDelete(ps: seq<Piece>)
    ensures Render(ps, Delete) == Render(ps, _ => "")
    decreases |ps|
  {
    if |ps| > 0 {
      RenderSameDelete(ps[1..]);
    }
  }

  /** Deleting a marker removes exactly its leftmost, non-overlapping
      occurrences: the cut gives the text back, every cut-out piece is the
      marker, every kept character starts no occurrence, and the result is
      shorter by one marker length per occurrence. */
  lemma MarkerRemovalSpec(s: string, p: string)
    requires |p| > 0
    ensures var ps := Tokenize(s, LiteralAt(p));
      && Flatten(ps) == s
      && Conforms(ps, LiteralAt(p))
      && (forall k :: 0 <= k < |ps| && ps[k].Hit? ==> ps[k].m == p)
      && |RemoveMarker(s, p)| == |s| - |p| * HitCount(ps)
  {
    var at := LiteralAt(p);
    var ps := Tokenize(s, at);
    TokenizeConforms(s, at);
    forall k | 0 <= k < |ps| && ps[k].Hit? ensures ps[k].m == p {
      assert Agrees(ps[k], Flatten(ps[k..]), at);
      FlattenPrefix(ps, k);
    }
    RenderSameDelete(ps);
    RenderDeleteLength(ps);
    HitLengthUniform(ps, |p|);
  }

  lemma {:induction false} HitLengthUniform(ps: seq<Piece>, n: nat)
    requires forall k :: 0 <= k < |ps| && ps[k].Hit? ==> |ps[k].m| == n
    ensures HitLength(ps) == n * HitCount(ps)
    decreases |ps|
  {
    if |ps| > 0 {
      HitLengthUniform(ps[1..], n);
    }
  }

  /** `body` is the shortest `start ... end` block: it opens with `start`,
      closes with `end`, and `end` occurs nowhere earlier after `start`. */
  predicate ShortestBlock(body: string, start: string, end: string) {
    && StartsWith(body, start)
    && |start| + |end| <= |body|
    && body[|body| - |end|..] == end
    && forall j :: |start| <= j < |body| - |end| ==> !OccursAt(body, end, j)
  }

  /** Some prefix of `t` is a shortest block. */
  predicate StartsBlock(t: string, start: string, end: string) {
    exists n :: 0 < n <= |t| && ShortestBlock(t[..n], start, end)
  }

  /** The lazy block matcher reads the shortest-block definition exactly:
      what it matches is a shortest block, and a shortest block at the
      start of `t` is what it matches. */
  lemma BlockAtSpec(t: string, start: string, end: string)
    requires |start| > 0
    ensures BlockAt(start, end)(t) <= |t|
    ensures BlockAt(start, end)(t) > 0 ==> ShortestBlock(t[..BlockAt(start, end)(t)], start, end)
    ensures forall n :: 0 < n <= |t| && ShortestBlock(t[..n], start, end) ==> BlockAt(start, end)(t) == n
  {
    var n0 := BlockAt(start, end)(t);
    if n0 > 0 {
      HitIsShortestBlock(t, t[..n0], start, end);
    }
    forall n | 0 < n <= |t| && ShortestBlock(t[..n], start, end) ensures BlockAt(start, end)(t) == n {
      ShortestBlockMatched(t, n, start, end);
    }
  }

  lemma ShortestBlockMatched(t: string, n: nat, start: string, end: string)
    requires |start| > 0 && 0 < n <= |t| && ShortestBlock(t[..n], start, end)
    ensures BlockAt(start, end)(t) == n
  {
    var body := t[..n];
    var e := n - |end|;
    assert t[..|start|] == body[..|start|];
    assert StartsWith(t, start);
    assert t[e..e + |end|] == body[e..];
    assert OccursAt(t, end, e);
    var r := FindFrom(t, end, |start|);
    assert r.Some? && r.value <= e;
    if r.value < e {
      assert t[r.value..r.value + |end|] == body[r.value..r.value + |end|];
      assert OccursAt(body, end, r.value);
    }
  }

  /** Side-block removal cuts out exactly the shortest blocks met by the
      scan: every cut-out piece is a shortest block, and no kept character
      starts one. */
  lemma BlockRemovalSpec(s: string, start: string, end: string)
    requires |start| > 0
    ensures var ps := Tokenize(s, BlockAt(start, end));
      && Flatten(ps) == s
      && Conforms(ps, BlockAt(start, end))
      && (forall k :: 0 <= k < |ps| && ps[k].Hit? ==> ShortestBlock(ps[k].m, start, end))
      && (forall k :: 0 <= k < |ps| && ps[k].Keep? ==> !StartsBlock(Flatten(ps[k..]), start, end))
  {
    var at := BlockAt(start, end);
    var ps := Tokenize(s, at);
    TokenizeConforms(s, at);
    forall k | 0 <= k < |ps| && ps[k].Hit? ensures ShortestBlock(ps[k].m, start, end) {
      assert Agrees(ps[k], Flatten(ps[k..]), at);
      FlattenPrefix(ps, k);
      HitIsShortestBlock(Flatten(ps[k..]), ps[k].m, start, end);
    }
    forall k | 0 <= k < |ps| && ps[k].Keep? ensures !StartsBlock(Flatten(ps[k..]), start, end) {
      assert Agrees(ps[k], Flatten(ps[k..]), at);
      KeptStartsNoBlock(Flatten(ps[k..]), start, end);
    }
  }

  lemma KeptStartsNoBlock(t: string, start: string, end: string)
    requires |start| > 0 && !MatchesHere(t, BlockAt(start, end))
    ensures !StartsBlock(t, start, end)
  {
    if StartsBlock(t, start, end) {
      var n :| 0 < n <= |t| && ShortestBlock(t[..n], start, end);
      ShortestBlockMatched(t, n, start, end);
      assert false;
    }
  }

  lemma HitIsShortestBlock(t: string, m: string, start: string, end: string)
    requires |start| > 0 && |m| > 0 && StartsWith(t, m)
    requires BlockAt(start, end)(t) == |m|
    ensures ShortestBlock(m, start, end)
  {
    assert StartsWith(t, start);
    var e := FindFrom(t, end, |start|).value;
    assert |m| == e + |end|;
    assert m == t[..e + |end|];
    assert m[..|start|] == t[..|start|];
    assert m[e..] == t[e..e + |end|];
    forall j | |start| <= j < |m| - |end| ensures !OccursAt(m, end, j) {
      assert !OccursAt(t, end, j);
      assert m[j..j + |end|] == t[j..j + |end|];
    }
  }

  /** With no closing marker anywhere, an opening marker is not a block, so
      the side-block removal leaves the text unchanged. */
  lemma UnmatchedStartSurvives(s: string, start: string, end: string)
    requires !Contains(s, end)
    ensures RemoveBlocks(s, start, end) == s
  {
    var at := BlockAt(start, end);
    forall i | 0 <= i < |s| ensures !MatchesHere(s[i..], at) {
      NoBlockAt(s, i, start, end);
    }
    NoMatchUnchanged(s, at, Delete);
  }

  lemma NoBlockAt(s: string, i: nat, start: string, end: string)
    requires !Contains(s, end) && i < |s|
    ensures BlockAt(start, end)(s[i..]) == 0
  {
    var t := s[i..];
    var r := FindFrom(t, end, |start|);
    if r.Some? {
      OccursShift(s, end, i, r.value);
    }
  }

  /** An occurrence in a suffix is an occurrence in the whole text. */
  lemma OccursShift(s: string, p: string, i: nat, k: nat)
    requires i <= |s| && OccursAt(s[i..], p, k)
    ensures OccursAt(s, p, i + k)
  {
    assert s[i..][k..k + |p|] == s[i + k..i + k + |p|];
  }

  /** A literal that contains a character `s` lacks does not occur in `s`. */
  lemma MissingCharNoOccurrence(s: string, p: string, c: char)
    requires c in p && c !in s
    ensures !Contains(s, p)
  {
  }

  /** A literal that does not occur in `s` is not deleted from it. */
  lemma MarkerAbsentUnchanged(s: string, p: string)
    requires !Contains(s, p)
    ensures RemoveMarker(s, p) == s
  {
    var at := LiteralAt(p);
    forall i | 0 <= i < |s| ensures !MatchesHere(s[i..], at) {
      if |p| > 0 && StartsWith(s[i..], p) {
        assert s[i..][..|p|] == s[i..i + |p|];
        assert OccursAt(s, p, i);
      }
    }
    NoMatchUnchanged(s, at, Delete);
  }

  const Rule: string := "---"

  /** A stretch without "---" holds no match of a marker that starts with
      "---" and has a non-'-' fourth character, even one that would run on
      into a following `tail` that itself starts with "---". */
  lemma NoMarkerStraddles(x: string, tail: string, p: string)
    requires !Contains(x, Rule)
    requires StartsWith(tail, Rule) && StartsWith(p, Rule) && |p| > 3 && p[3] != '-'
    ensures forall i :: 0 <= i < |x| ==> !MatchesHere((x + tail)[i..], LiteralAt(p))
  {
    forall i | 0 <= i < |x| ensures !MatchesHere((x + tail)[i..], LiteralAt(p)) {
      if i + 3 <= |x| {
        NoRuleInside(x, tail, p, i);
      } else {
        NoRuleAcross(x, tail, p, i);
      }
    }
  }

  lemma NoRuleInside(x: string, tail: string, p: string, i: nat)
    requires !Contains(x, Rule) && StartsWith(p, Rule)
    requires i + 3 <= |x|
    ensures !StartsWith((x + tail)[i..], p)
  {
    if StartsWith((x + tail)[i..], p) {
      assert x[i..i + 3] == (x + tail)[i..][..|p|][..3];
      assert OccursAt(x, Rule, i);
    }
  }

  lemma NoRuleAcross(x: string, tail: string, p: string, i: nat)
    requires StartsWith(tail, Rule) && |p| > 3 && p[3] != '-'
    requires i < |x| < i + 3
    ensures !StartsWith((x + tail)[i..], p)
  {
  }

  /** A marker starts with "---", so text without "---" holds none. */
  lemma NoRuleNoMarker(x: string, p: string)
    requires !Contains(x, Rule) && StartsWith(p, Rule)
    ensures !Contains(x, p)
  {
    if Contains(x, p) {
      var i :| 0 <= i <= |x| && OccursAt(x, p, i);
      assert x[i..i + 3] == x[i..i + |p|][..3];
      assert OccursAt(x, Rule, i);
    }
  }

  /** The closing MARKDOWN marker holds none of the other markers. */
  lemma MarkdownEndHoldsNoStart()
    ensures !Contains(MarkdownEnd, MarkdownStart)
  {
    assert 'S' in MarkdownStart && 'S' !in MarkdownEnd;
    MissingCharNoOccurrence(MarkdownEnd, MarkdownStart, 'S');
  }

  lemma MarkdownEndHoldsNoJsonEnd()
    ensures !Contains(MarkdownEnd, JsonEnd)
  {
    assert 'J' in JsonEnd && 'J' !in MarkdownEnd;
    MissingCharNoOccurrence(MarkdownEnd, JsonEnd, 'J');
  }

  lemma MarkdownEndHoldsNoSocialEnd()
    ensures !Contains(MarkdownEnd, SocialEnd)
  {
    assert 'S' in SocialEnd && 'S' !in MarkdownEnd;
    MissingCharNoOccurrence(MarkdownEnd, SocialEnd, 'S');
  }

  /** Text without "---" holds no closing side-block marker. */
  lemma NoRuleHoldsNoEnd(x: string)
    requires !Contains(x, Rule)
    ensures !Contains(x, JsonEnd) && !Contains(x, SocialEnd)
  {
    assert JsonEnd[..3] == Rule && SocialEnd[..3] == Rule;
    NoRuleNoMarker(x, JsonEnd);
    NoRuleNoMarker(x, SocialEnd);
  }

  /** The MARKDOWN markers are deleted but the text they wrap is kept,
      whenever that text holds no "---" (the lead of every marker). */
  lemma MarkdownWrapperKept(x: string)
    requires !Contains(x, Rule)
    ensures CleanSummary(MarkdownStart + x + MarkdownEnd) == Trim(x)
  {
    OpeningMarkerDeleted(x);
    ClosingMarkerDeleted(x);
    NoRuleHoldsNoEnd(x);
    UnmatchedStartSurvives(x, JsonStart, JsonEnd);
    UnmatchedStartSurvives(x, SocialStart, SocialEnd);
  }

  lemma MarkersLead()
    ensures StartsWith(MarkdownStart, Rule) && MarkdownStart[3] == 'M'
    ensures StartsWith(MarkdownEnd, Rule) && MarkdownEnd[3] == 'M'
  {
  }

  lemma OpeningMarkerDeleted(x: string)
    requires !Contains(x, Rule)
    ensures RemoveMarker(MarkdownStart + x + MarkdownEnd, MarkdownStart) == x + MarkdownEnd
  {
    var s := MarkdownStart + x + MarkdownEnd;
    assert s[..|MarkdownStart|] == MarkdownStart;
    assert s[|MarkdownStart|..] == x + MarkdownEnd;
    RenderMatchFirst(s, LiteralAt(MarkdownStart), Delete);
    WrappedTextKept(x);
  }

  lemma WrappedTextKept(x: string)
    requires !Contains(x, Rule)
    ensures RemoveMarker(x + MarkdownEnd, MarkdownStart) == x + MarkdownEnd
  {
    var at := LiteralAt(MarkdownStart);
    MarkersLead();
    NoMarkerStraddles(x, MarkdownEnd, MarkdownStart);
    RenderNoMatchPrefix(x, MarkdownEnd, at, Delete);
    MarkdownEndHoldsNoStart();
    MarkerAbsentUnchanged(MarkdownEnd, MarkdownStart);
  }

  lemma ClosingMarkerDeleted(x: string)
    requires !Contains(x, Rule)
    ensures RemoveMarker(x + MarkdownEnd, MarkdownEnd) == x
  {
    var at := LiteralAt(MarkdownEnd);
    MarkersLead();
    NoMarkerStraddles(x, MarkdownEnd, MarkdownEnd);
    RenderNoMatchPrefix(x, MarkdownEnd, at, Delete);
    RenderMatchFirst(MarkdownEnd, at, Delete);
    assert MarkdownEnd[|MarkdownEnd|..] == "";
  }

  /** A JSON block is cut out whole, together with what it encloses. */
  lemma JsonBlockCut(s: string)
    requires s == "a" + JsonStart + "x" + JsonEnd + "b"
    ensures CleanSummary(s) == "ab"
  {
    BlockTextFacts(s);
    NoMarkdownMarker(s);
    JsonBlockRemoved(s);
    AbCleans("ab");
    CleanChain(s, s, s, "ab", "ab");
  }

  lemma BlockTextFacts(s: string)
    requires s == "a" + JsonStart + "x" + JsonEnd + "b"
    ensures 'M' !in s
  {
  }

  lemma AbCleans(t: string)
    requires t == "ab"
    ensures RemoveBlocks(t, SocialStart, SocialEnd) == t
    ensures Trim(t) == t
  {
    SocialAbsent(t);
    TrimNoEdgeSpace(t);
  }

  lemma NoMarkdownMarker(s: string)
    requires 'M' !in s
    ensures RemoveMarker(s, MarkdownStart) == s
    ensures RemoveMarker(s, MarkdownEnd) == s
  {
    assert MarkdownStart[3] == 'M' && MarkdownEnd[3] == 'M';
    MissingCharNoOccurrence(s, MarkdownStart, 'M');
    MissingCharNoOccurrence(s, MarkdownEnd, 'M');
    MarkerAbsentUnchanged(s, MarkdownStart);
    MarkerAbsentUnchanged(s, MarkdownEnd);
  }

  lemma SocialAbsent(s: string)
    requires '-' !in s
    ensures RemoveBlocks(s, SocialStart, SocialEnd) == s
  {
    assert SocialEnd[0] == '-';
    MissingCharNoOccurrence(s, SocialEnd, '-');
    UnmatchedStartSurvives(s, SocialStart, SocialEnd);
  }

  lemma JsonBlockRemoved(s: string)
    requires s == "a" + JsonStart + "x" + JsonEnd + "b"
    ensures RemoveBlocks(s, JsonStart, JsonEnd) == "ab"
  {
    var rest := JsonStart + "x" + JsonEnd + "b";
    LeadKept(s, rest);
    BlockDropped(rest);
  }

  lemma BlockDropped(rest: string)
    requires rest == JsonStart + "x" + JsonEnd + "b"
    ensures RemoveBlocks(rest, JsonStart, JsonEnd) == "b"
  {
    BlockFirst(rest);
    RenderMatchFirst(rest, BlockAt(JsonStart, JsonEnd), Delete);
    TailKept(rest[31..]);
  }

  lemma LeadKept(s: string, rest: string)
    requires s == "a" + rest && rest == JsonStart + "x" + JsonEnd + "b"
    ensures RemoveBlocks(s, JsonStart, JsonEnd) == "a" + RemoveBlocks(rest, JsonStart, JsonEnd)
  {
    assert s[0..] == s && s[0] != JsonStart[0];
    RenderNoMatchPrefix("a", rest, BlockAt(JsonStart, JsonEnd), Delete);
  }

  lemma TailKept(b: string)
    requires b == "b"
    ensures RemoveBlocks(b, JsonStart, JsonEnd) == b
  {
    assert JsonEnd[0] == '-';
    MissingCharNoOccurrence(b, JsonEnd, '-');
    UnmatchedStartSurvives(b, JsonStart, JsonEnd);
  }

  lemma BlockFirst(rest: string)
    requires rest == JsonStart + "x" + JsonEnd + "b"
    ensures BlockAt(JsonStart, JsonEnd)(rest) == 31
    ensures rest[31..] == "b"
  {
    var body := rest[..31];
    assert body == JsonStart + "x" + JsonEnd;
    JsonBlockBody(body);
    ShortestBlockMatched(rest, 31, JsonStart, JsonEnd);
  }

  lemma JsonBlockBody(body: string)
    requires body == JsonStart + "x" + JsonEnd
    ensures ShortestBlock(body, JsonStart, JsonEnd)
  {
    assert body[..16] == JsonStart;
    assert body[17..] == JsonEnd;
    assert body[16] == 'x' != JsonEnd[0];
  }

  /** The text that splices together a closing MARKDOWN marker. */
  const Splice: string := "---MARKDOWN E" + MarkdownEnd + "ND---"

  lemma SpliceHoldsNoStart()
    ensures RemoveMarker(Splice, MarkdownStart) == Splice
  {
    assert 'S' !in Splice;
    MissingCharNoOccurrence(Splice, MarkdownStart, 'S');
    MarkerAbsentUnchanged(Splice, MarkdownStart);
  }

  lemma SpliceFirstStretch()
    ensures forall i :: 0 <= i < 13 ==> !MatchesHere(Splice[i..], LiteralAt(MarkdownEnd))
  {
    forall i | 0 <= i < 13 ensures !MatchesHere(Splice[i..], LiteralAt(MarkdownEnd)) {
      var t := Splice[i..];
      if i == 0 {
        assert t[13] != MarkdownEnd[13];
      } else {
        assert t[3] != MarkdownEnd[3];
      }
    }
  }

  lemma SpliceJoins()
    ensures RemoveMarker(Splice, MarkdownEnd) == MarkdownEnd
  {
    SpliceLeadKept();
    SpliceMarkerCut();
    assert "---MARKDOWN E" + "ND---" == MarkdownEnd;
  }

  lemma SpliceLeadKept()
    ensures RemoveMarker(Splice, MarkdownEnd) == "---MARKDOWN E" + RemoveMarker(MarkdownEnd + "ND---", MarkdownEnd)
  {
    var a := "---MARKDOWN E";
    var rest := MarkdownEnd + "ND---";
    assert a + rest == Splice;
    SpliceFirstStretch();
    RenderNoMatchPrefix(a, rest, LiteralAt(MarkdownEnd), Delete);
  }

  lemma SpliceMarkerCut()
    ensures RemoveMarker(MarkdownEnd + "ND---", MarkdownEnd) == "ND---"
  {
    var b := "ND---";
    var rest := MarkdownEnd + b;
    assert rest[..|MarkdownEnd|] == MarkdownEnd;
    assert rest[|MarkdownEnd|..] == b;
    RenderMatchFirst(rest, LiteralAt(MarkdownEnd), Delete);
    assert |b| < |MarkdownEnd|;
    MarkerAbsentUnchanged(b, MarkdownEnd);
  }

  lemma MarkdownEndSurvivesBlocks()
    ensures RemoveBlocks(RemoveBlocks(MarkdownEnd, JsonStart, JsonEnd), SocialStart, SocialEnd) == MarkdownEnd
    ensures Trim(MarkdownEnd) == MarkdownEnd
  {
    MarkdownEndHoldsNoJsonEnd();
    UnmatchedStartSurvives(MarkdownEnd, JsonStart, JsonEnd);
    MarkdownEndHoldsNoSocialEnd();
    UnmatchedStartSurvives(MarkdownEnd, SocialStart, SocialEnd);
    MarkdownEndTrimmed();
  }

  lemma MarkdownEndTrimmed()
    ensures Trim(MarkdownEnd) == MarkdownEnd
  {
    assert MarkdownEnd[0] == '-' && MarkdownEnd[|MarkdownEnd| - 1] == '-';
    TrimNoEdgeSpace(MarkdownEnd);
  }

  /** `CleanSummary` as the chain of its five steps. */
  lemma CleanChain(s: string, a: string, b: string, c: string, d: string)
    requires a == RemoveMarker(s, MarkdownStart)
    requires b == RemoveMarker(a, MarkdownEnd)
    requires c == RemoveBlocks(b, JsonStart, JsonEnd)
    requires d == RemoveBlocks(c, SocialStart, SocialEnd)
    ensures CleanSummary(s) == Trim(d)
  {
  }

  lemma EndMarkerDeletedAlone()
    ensures RemoveMarker(MarkdownEnd, MarkdownEnd) == ""
  {
    RenderMatchFirst(MarkdownEnd, LiteralAt(MarkdownEnd), Delete);
    assert MarkdownEnd[|MarkdownEnd|..] == "";
  }

  lemma EmptyStaysClean(start: string, end: string)
    ensures RemoveBlocks("", start, end) == ""
    ensures Trim("") == ""
  {
  }

  lemma MarkdownEndCleansAway()
    ensures CleanSummary(MarkdownEnd) == ""
  {
    MarkdownEndHoldsNoStart();
    MarkerAbsentUnchanged(MarkdownEnd, MarkdownStart);
    EndMarkerDeletedAlone();
    EmptyStaysClean(JsonStart, JsonEnd);
    EmptyStaysClean(SocialStart, SocialEnd);
    CleanChain(MarkdownEnd, MarkdownEnd, "", "", "");
  }

  /** Stripping is not idempotent: deleting one marker can splice a new one
      together out of the text around it. */
  lemma CleanNotIdempotent()
    ensures CleanSummary(Splice) == MarkdownEnd
    ensures CleanSummary(CleanSummary(Splice)) == ""
  {
    SpliceHoldsNoStart();
    SpliceJoins();
    MarkdownEndSurvivesBlocks();
    MarkdownEndCleansAway();
  }
}

=== FILE: seqs.dfy ===
/** `Array.prototype.filter` and `Array.prototype.find`, with the facts the
    components rely on. */
module Seqs {
  import opened Text

  /** The elements satisfying `p`, in order. */
  function Filter<T(==)>(xs: seq<T>, p: T -> bool): (r: seq<T>)
    ensures |r| <= |xs|
    ensures forall j :: 0 <= j < |r| ==> p(r[j]) && r[j] in xs
  {
    if |xs| == 0 then []
    else (if p(xs[0]) then [xs[0]] else []) + Filter(xs[1..], p)
  }

  /** The index `find` stops at: the first element satisfying `p`. */
  function FirstIndex<T>(xs: seq<T>, p: T -> bool): (r: Option<nat>)
    ensures r.Some? ==> r.value < |xs| && p(xs[r.value])
    ensures r.Some? ==> forall j :: 0 <= j < r.value ==> !p(xs[j])
    ensures r.None? ==> forall j :: 0 <= j < |xs| ==> !p(xs[j])
  {
    if |xs| == 0 then None
    else if p(xs[0]) then Some(0)
    else match FirstIndex(xs[1..], p)
      case Some(k) => Some(k + 1)
      case None => None
  }

  /** `find`: the first element satisfying `p`, if any. */
  function Find<T>(xs: seq<T>, p: T -> bool): Option<T>
  {
    match FirstIndex(xs, p)
    case Some(k) => Some(xs[k])
    case None => None
  }

  /** `Array.prototype.map`. */
  function Map<A, B>(xs: seq<A>, f: A -> B): (r: seq<B>)
    ensures |r| == |xs|
    ensures forall i :: 0 <= i < |xs| ==> r[i] == f(xs[i])
  {
    seq(|xs|, i requires 0 <= i < |xs| => f(xs[i]))
  }

  /** The filter keeps order: filtering a concatenation filters each part
      in turn, and on one element it keeps that element exactly when `p`
      holds. Together these determine the filter completely. */
  lemma {:induction false} FilterAppend<T>(a: seq<T>, b: seq<T>, p: T -> bool)
    ensures Filter(a + b, p) == Filter(a, p) + Filter(b, p)
    decreases |a|
  {
    if |a| > 0 {
      assert (a + b)[0] == a[0];
      assert (a + b)[1..] == a[1..] + b;
      FilterAppend(a[1..], b, p);
    } else {
      assert a + b == b;
    }
  }

  lemma FilterOne<T>(x: T, p: T -> bool)
    ensures Filter([x], p) == (if p(x) then [x] else [])
  {
    assert [x][1..] == [];
  }

  /** Mapping a function that fixes every element leaves the list as it is. */
  lemma MapFixed<T>(xs: seq<T>, f: T -> T)
    requires forall i :: 0 <= i < |xs| ==> f(xs[i]) == xs[i]
    ensures Map(xs, f) == xs
  {
  }

  /** Filtering by `p` and by its negation `q` splits the list in two. */
  lemma {:induction false} FilterPartition<T>(xs: seq<T>, p: T -> bool, q: T -> bool)
    requires forall x :: q(x) == !p(x)
    ensures multiset(Filter(xs, p)) + multiset(Filter(xs, q)) == multiset(xs)
    decreases |xs|
  {
    if |xs| > 0 {
      FilterPartition(xs[1..], p, q);
      FilterHeadMultiset(xs, p);
      FilterHeadMultiset(xs, q);
      ConsMultiset(xs);
    }
  }

  /** What the filter keeps of `xs`, counted: its verdict on the head plus
      what it keeps of the rest. */
  lemma FilterHeadMultiset<T>(xs: seq<T>, p: T -> bool)
    requires |xs| > 0
    ensures multiset(Filter(xs, p))
      == (if p(xs[0]) then multiset{xs[0]} else multiset{}) + multiset(Filter(xs[1..], p))
  {
    assert Filter(xs, p) == (if p(xs[0]) then [xs[0]] else []) + Filter(xs[1..], p);
  }

  lemma ConsSplit<T>(xs: seq<T>)
    requires |xs| > 0
    ensures xs == [xs[0]] + xs[1..]
  {
  }

  lemma ConsMultiset<T>(xs: seq<T>)
    requires |xs| > 0
    ensures multiset(xs) == multiset{xs[0]} + multiset(xs[1..])
  {
    assert xs == [xs[0]] + xs[1..];
  }

  /** `find` returns the head of what the filter by `p` keeps, and when it
      finds nothing the filter by the negation `q` keeps everything. */
  lemma {:induction false} FindIsFilterHead<T>(xs: seq<T>, p: T -> bool, q: T -> bool)
    requires forall x :: q(x) == !p(x)
    ensures Find(xs, p).Some? <==> |Filter(xs, p)| > 0
    ensures Find(xs, p).Some? ==> Find(xs, p).value == Filter(xs, p)[0]
    ensures Find(xs, p).None? ==> Filter(xs, q) == xs
    decreases |xs|
  {
    if |xs| > 0 {
      FindIsFilterHead(xs[1..], p, q);
      if !p(xs[0]) {
        SkipStep(xs, p, q);
      }
    }
  }

  /** Past an element `p` rejects, `find` moves on to the rest of the list. */
  lemma FindSkip<T>(xs: seq<T>, p: T -> bool)
    requires |xs| > 0 && !p(xs[0])
    ensures Find(xs, p) == Find(xs[1..], p)
  {
  }

  /** The filter's verdict on the head, ahead of what it keeps of the rest. */
  lemma FilterCons<T>(xs: seq<T>, p: T -> bool)
    requires |xs| > 0
    ensures Filter(xs, p) == (if p(xs[0]) then [xs[0]] else []) + Filter(xs[1..], p)
  {
  }

  /** Past an element `p` rejects, `find` and both filters move on to the
      rest of the list. */
  lemma SkipStep<T>(xs: seq<T>, p: T -> bool, q: T -> bool)
    requires |xs| > 0 && !p(xs[0]) && q(xs[0])
    ensures Find(xs, p) == Find(xs[1..], p)
    ensures Filter(xs, p) == Filter(xs[1..], p)
    ensures Filter(xs, q) == [xs[0]] + Filter(xs[1..], q)
    ensures xs == [xs[0]] + xs[1..]
  {
    FindSkip(xs, p);
    FilterCons(xs, p);
    FilterCons(xs, q);
    assert [] + Filter(xs[1..], p) == Filter(xs[1..], p);
    ConsSplit(xs);
  }
}

=== FILE: text.dfy ===
/** Character classes and string primitives shared by every scanner of the model.
    Strings are `seq<char>`; the JavaScript string methods the components call
    (`trim`, `toLowerCase`, `startsWith`, `includes`, `split`, `join`) are
    defined here once, restricted as noted in README.md. */
module Text {

  datatype Option<+T> = None | Some(value: T)

  /** ECMAScript WhiteSpace and LineTerminator code points: the set that
      `String.prototype.trim`, the regex class `\s` and `parseInt` skip. */
  predicate IsSpace(c: char) {
    || c == '\t' || c == '\n' || c == '\U{B}' || c == '\U{C}' || c == '\r' || c == ' '
    || c == '\U{A0}' || c == '\U{1680}' || ('\U{2000}' <= c <= '\U{200A}')
    || c == '\U{2028}' || c == '\U{2029}' || c == '\U{202F}' || c == '\U{205F}'
    || c == '\U{3000}' || c == '\U{FEFF}'
  }

  predicate IsDigit(c: char) { '0' <= c <= '9' }

  predicate IsLowerAlnum(c: char) { 'a' <= c <= 'z' || IsDigit(c) }

  predicate IsAsciiAlnum(c: char) { 'a' <= c <= 'z' || 'A' <= c <= 'Z' || IsDigit(c) }

  function DigitValue(c: char): nat
    requires IsDigit(c)
  {
    (c as int - '0' as int) as nat
  }

  function DigitChar(d: nat): (c: char)
    requires d < 10
    ensures IsDigit(c) && DigitValue(c) == d
  {
    ('0' as int + d) as char
  }

  /** ASCII `toLowerCase` of one character. */
  function LowerChar(c: char): (r: char)
    ensures 'A' <= c <= 'Z' ==> 'a' <= r <= 'z'
    ensures !('A' <= c <= 'Z') ==> r == c
  {
    if 'A' <= c <= 'Z' then (c as int + 32) as char else c
  }

  function Lower(s: string): (r: string)
    ensures |r| == |s|
    ensures forall i :: 0 <= i < |s| ==> r[i] == LowerChar(s[i])
  {
    seq(|s|, i requires 0 <= i < |s| => LowerChar(s[i]))
  }

  predicate StartsWith(s: string, p: string) {
    |p| <= |s| && s[..|p|] == p
  }

  /** Whether `p` occurs in `s` at index `i`. */
  predicate OccursAt(s: string, p: string, i: nat) {
    i + |p| <= |s| && s[i..i + |p|] == p
  }

  /** `String.prototype.includes`, scanning left to right. */
  function Contains(s: string, p: string): (b: bool)
    ensures b <==> exists i :: 0 <= i <= |s| && OccursAt(s, p, i)
    decreases |s|
  {
    if StartsWith(s, p) then
      assert OccursAt(s, p, 0);
      true
    else if |s| == 0 then
      false
    else
      var b := Contains(s[1..], p);
      assert forall i :: 1 <= i <= |s| ==> (OccursAt(s, p, i) <==> OccursAt(s[1..], p, i - 1));
      assert b ==> exists i :: 1 <= i <= |s| && OccursAt(s, p, i) by {
        if b {
          var j :| 0 <= j <= |s[1..]| && OccursAt(s[1..], p, j);
          assert OccursAt(s, p, j + 1);
        }
      }
      b
  }

  /** The index of the first occurrence of `p` in `t` at or after `from`. */
  function FindFrom(t: string, p: string, from: nat): (r: Option<nat>)
    ensures r.Some? ==> from <= r.value && OccursAt(t, p, r.value)
    ensures r.Some? ==> forall j :: from <= j < r.value ==> !OccursAt(t, p, j)
    ensures r.None? ==> forall j :: from <= j ==> !OccursAt(t, p, j)
    decreases |t| - from
  {
    if from + |p| > |t| then None
    else if OccursAt(t, p, from) then Some(from)
    else FindFrom(t, p, from + 1)
  }

  /** The number of whitespace characters `s` starts with. */
  function LeadingSpaces(s: string): (n: nat)
    ensures n <= |s|
    ensures forall i :: 0 <= i < n ==> IsSpace(s[i])
    ensures n < |s| ==> !IsSpace(s[n])
  {
    if |s| == 0 || !IsSpace(s[0]) then 0 else 1 + LeadingSpaces(s[1..])
  }

  /** The number of whitespace characters `s` ends with. */
  function TrailingSpaces(s: string): (n: nat)
    ensures n <= |s|
    ensures forall i :: |s| - n <= i < |s| ==> IsSpace(s[i])
    ensures n < |s| ==> !IsSpace(s[|s| - n - 1])
  {
    if |s| == 0 || !IsSpace(s[|s| - 1]) then 0 else 1 + TrailingSpaces(s[..|s| - 1])
  }

  /** `trimStart`: drops the leading whitespace and nothing else. */
  function TrimStart(s: string): (r: string)
    ensures |r| <= |s| && r == s[|s| - |r|..]
    ensures forall i :: 0 <= i < |s| - |r| ==> IsSpace(s[i])
    ensures |r| == 0 || !IsSpace(r[0])
  {
    s[LeadingSpaces(s)..]
  }

  /** Text that starts with a non-space keeps its start. */
  lemma TrimStartNoSpace(s: string)
    requires |s| > 0 && !IsSpace(s[0])
    ensures TrimStart(s) == s
  {
  }

  /** `trimEnd`: drops the trailing whitespace and nothing else. */
  function TrimEnd(s: string): (r: string)
    ensures |r| <= |s| && r == s[..|r|]
    ensures forall i :: |r| <= i < |s| ==> IsSpace(s[i])
    ensures |r| == 0 || !IsSpace(r[|r| - 1])
  {
    s[..|s| - TrailingSpaces(s)]
  }

  /** `r` sits at index `a` of `s` with only whitespace around it. */
  predicate TrimmedAt(s: string, r: string, a: nat) {
    && OccursAt(s, r, a)
    && (forall i :: 0 <= i < a ==> IsSpace(s[i]))
    && (forall i :: a + |r| <= i < |s| ==> IsSpace(s[i]))
  }

  /** `trim`: the result is the infix of `s` left after removing the
      whitespace at both ends. */
  function Trim(s: string): (r: string)
    ensures |r| <= |s|
    ensures exists a :: TrimmedAt(s, r, a)
    ensures |r| == 0 || (!IsSpace(r[0]) && !IsSpace(r[|r| - 1]))
    ensures |r| == 0 <==> forall i :: 0 <= i < |s| ==> IsSpace(s[i])
  {
    TrimSpec(s);
    TrimEnd(TrimStart(s))
  }

  lemma TrimSpec(s: string)
    ensures var r := TrimEnd(TrimStart(s));
      && |r| <= |s|
      && TrimmedAt(s, r, |s| - |TrimStart(s)|)
      && (|r| == 0 || (!IsSpace(r[0]) && !IsSpace(r[|r| - 1])))
      && (|r| == 0 <==> forall i :: 0 <= i < |s| ==> IsSpace(s[i]))
  {
    var t := TrimStart(s);
    TrimParts(s, t, TrimEnd(t));
  }

  /** Trimming the start to `t`, then the end of `t` to `r`, leaves `r` at
      `|s| - |t|` in `s` with whitespace around it and none at its ends. */
  lemma TrimParts(s: string, t: string, r: string)
    requires |t| <= |s| && t == s[|s| - |t|..] && forall i :: 0 <= i < |s| - |t| ==> IsSpace(s[i])
    requires |t| == 0 || !IsSpace(t[0])
    requires |r| <= |t| && r == t[..|r|] && forall i :: |r| <= i < |t| ==> IsSpace(t[i])
    requires |r| == 0 || !IsSpace(r[|r| - 1])
    ensures TrimmedAt(s, r, |s| - |t|)
    ensures |r| == 0 || (!IsSpace(r[0]) && !IsSpace(r[|r| - 1]))
    ensures |r| == 0 <==> forall i :: 0 <= i < |s| ==> IsSpace(s[i])
  {
    var a := |s| - |t|;
    forall i | 0 <= i < |r| ensures s[a + i] == r[i] {
      assert r[i] == t[i];
    }
    assert s[a..a + |r|] == r;
    forall i | a + |r| <= i < |s| ensures IsSpace(s[i]) {
      assert s[i] == t[i - a];
    }
  }

  /** `String.prototype.split` with a one-character separator class: the
      pieces between separators, in order, including empty ones. */
  function Split(s: string, isSep: char -> bool): (r: seq<string>)
    ensures |r| >= 1
    ensures forall k, i :: 0 <= k < |r| && 0 <= i < |r[k]| ==> !isSep(r[k][i])
    decreases |s|
  {
    if |s| == 0 then [""]
    else
      var rest := Split(s[1..], isSep);
      if isSep(s[0]) then [""] + rest else [[s[0]] + rest[0]] + rest[1..]
  }

  /** `Array.prototype.join`. */
  function Join(parts: seq<string>, sep: string): string
  {
    if |parts| == 0 then ""
    else if |parts| == 1 then parts[0]
    else parts[0] + sep + Join(parts[1..], sep)
  }

  predicate IsNewline(c: char) { c == '\n' }

  /** `s.split('\n')`. */
  function Lines(s: string): seq<string>
  {
    Split(s, IsNewline)
  }

  /** Splitting on a one-character class `{c}` and joining with `c` gives
      the text back. */
  lemma {:induction false} JoinSplit(s: string, c: char, isSep: char -> bool)
    requires forall x :: isSep(x) <==> x == c
    ensures Join(Split(s, isSep), [c]) == s
    decreases |s|
  {
    if |s| > 0 {
      JoinSplit(s[1..], c, isSep);
      var rest := Split(s[1..], isSep);
      if s[0] == c {
        JoinEmptyHead(rest, [c]);
      } else {
        JoinPrepend([s[0]], rest, [c]);
      }
      assert s == [s[0]] + s[1..];
    }
  }

  /** Joining after an empty first piece starts with the separator. */
  lemma JoinEmptyHead(rest: seq<string>, sep: string)
    requires |rest| >= 1
    ensures Join([""] + rest, sep) == sep + Join(rest, sep)
  {
    assert ([""] + rest)[1..] == rest;
  }

  /** Text glued to the front of the first piece comes out in front. */
  lemma JoinPrepend(x: string, rest: seq<string>, sep: string)
    requires |rest| >= 1
    ensures Join([x + rest[0]] + rest[1..], sep) == x + Join(rest, sep)
  {
    var r := [x + rest[0]] + rest[1..];
    if |rest| > 1 {
      assert r[1..] == rest[1..];
      assert Join(r, sep) == (x + rest[0]) + sep + Join(rest[1..], sep);
    }
  }

  /** Joining pieces that contain no `c` with `c` and splitting on `{c}`
      gives the pieces back. */
  lemma {:induction false} SplitJoin(parts: seq<string>, c: char, isSep: char -> bool)
    requires forall x :: isSep(x) <==> x == c
    requires |parts| >= 1
    requires forall k, i :: 0 <= k < |parts| && 0 <= i < |parts[k]| ==> parts[k][i] != c
    ensures Split(Join(parts, [c]), isSep) == parts
    decreases |parts|
  {
    if |parts| == 1 {
      NoSepSplit(parts[0], isSep);
    } else {
      SplitJoin(parts[1..], c, isSep);
      SplitAppendSep(parts[0], Join(parts[1..], [c]), c, isSep);
    }
  }

  lemma {:induction false} NoSepSplit(s: string, isSep: char -> bool)
    requires forall i :: 0 <= i < |s| ==> !isSep(s[i])
    ensures Split(s, isSep) == [s]
    decreases |s|
  {
    if |s| > 0 {
      NoSepSplit(s[1..], isSep);
      assert s == [s[0]] + s[1..];
    }
  }

  lemma {:induction false} SplitAppendSep(a: string, b: string, c: char, isSep: char -> bool)
    requires isSep(c)
    requires forall i :: 0 <= i < |a| ==> !isSep(a[i])
    ensures Split(a + [c] + b, isSep) == [a] + Split(b, isSep)
    decreases |a|
  {
    if |a| == 0 {
      assert a + [c] + b == [c] + b;
      assert ([c] + b)[1..] == b;
    } else {
      SplitAppendSep(a[1..], b, c, isSep);
      assert (a + [c] + b)[1..] == a[1..] + [c] + b;
      assert a == [a[0]] + a[1..];
    }
  }

  /** Joining two non-empty lists puts one separator between them. */
  lemma {:induction false} JoinAppend(a: seq<string>, b: seq<string>, sep: string)
    requires |a| > 0 && |b| > 0
    ensures Join(a + b, sep) == Join(a, sep) + sep + Join(b, sep)
    decreases |a|
  {
    if |a| == 1 {
      assert (a + b)[1..] == b;
    } else {
      assert (a + b)[1..] == a[1..] + b;
      JoinAppend(a[1..], b, sep);
    }
  }

  /** An empty piece on either side frames the join with separators. */
  lemma JoinFramed(parts: seq<string>, sep: string)
    requires |parts| > 0
    ensures Join([""] + parts + [""], sep) == sep + Join(parts, sep) + sep
  {
    var tail := parts + [""];
    assert [""] + parts + [""] == [""] + tail;
    JoinAppend([""], tail, sep);
    JoinAppend(parts, [""], sep);
    calc {
      Join([""] + tail, sep);
      Join([""], sep) + sep + Join(tail, sep);
      "" + sep + (Join(parts, sep) + sep + "");
      { assert "" + sep + (Join(parts, sep) + sep + "") == sep + Join(parts, sep) + sep; }
      sep + Join(parts, sep) + sep;
    }
  }

  /** A property of characters that holds throughout `s` holds throughout
      every piece `split` cuts from it. */
  lemma {:induction false} SplitKeeps(s: string, isSep: char -> bool, p: char -> bool)
    requires forall i :: 0 <= i < |s| ==> p(s[i])
    ensures forall k, i :: 0 <= k < |Split(s, isSep)| && 0 <= i < |Split(s, isSep)[k]| ==> p(Split(s, isSep)[k][i])
    decreases |s|
  {
    if |s| > 0 {
      SplitKeeps(s[1..], isSep, p);
    }
  }

  /** The same for `trim`, which keeps an infix. */
  lemma TrimKeeps(s: string, p: char -> bool)
    requires forall i :: 0 <= i < |s| ==> p(s[i])
    ensures forall i :: 0 <= i < |Trim(s)| ==> p(Trim(s)[i])
  {
    var r := Trim(s);
    var a: nat :| TrimmedAt(s, r, a);
    InfixKeeps(s, r, a, p);
  }

  /** A property of characters that holds throughout `s` holds throughout
      any text occurring in it. */
  lemma InfixKeeps(s: string, r: string, a: nat, p: char -> bool)
    requires OccursAt(s, r, a)
    requires forall i :: 0 <= i < |s| ==> p(s[i])
    ensures forall i :: 0 <= i < |r| ==> p(r[i])
  {
    forall i | 0 <= i < |r| ensures p(r[i]) {
      assert r[i] == s[a..a + |r|][i] == s[a + i];
    }
  }

  /** The number of characters of `s` satisfying `p`. */
  function CountWhere(s: string, p: char -> bool): nat
  {
    if |s| == 0 then 0 else (if p(s[0]) then 1 else 0) + CountWhere(s[1..], p)
  }

  /** Text with no whitespace at either end is its own trim. */
  lemma TrimNoEdgeSpace(s: string)
    requires |s| > 0 && !IsSpace(s[0]) && !IsSpace(s[|s| - 1])
    ensures Trim(s) == s
  {
    assert TrimStart(s) == s;
    assert TrimEnd(s) == s;
  }

  lemma {:induction false} CountAppend(a: string, b: string, p: char -> bool)
    ensures CountWhere(a + b, p) == CountWhere(a, p) + CountWhere(b, p)
    decreases |a|
  {
    if |a| > 0 {
      assert (a + b)[1..] == a[1..] + b;
      CountAppend(a[1..], b, p);
    } else {
      assert a + b == b;
    }
  }

  lemma {:induction false} CountNone(s: string, p: char -> bool)
    requires forall i :: 0 <= i < |s| ==> !p(s[i])
    ensures CountWhere(s, p) == 0
    decreases |s|
  {
    if |s| > 0 {
      CountNone(s[1..], p);
    }
  }
}

=== FILE: timestamps.dfy ===
/** Timestamp anchoring, shared by both versions of `ContentCard`
    (src/components/ContentCard.jsx and frontend/src/components/ContentCard.jsx):
    `text.replace(/(\d{1,2}:\d{2})/g, m => "[⏱️ " + m + "](javascript:void(0))")`,
    and the link renderer that turns such an anchor back into a timestamp. */
module Timestamps {
  import opened Text
  import opened Scan

  /** The stopwatch emoji: U+23F1 followed by the emoji presentation selector. */
  const Stopwatch: string := "\U{23F1}\U{FE0F}"

  const Href: string := "javascript:void(0)"

  /** A word of the language `\d{1,2}:\d{2}`. */
  predicate IsTimestamp(m: string) {
    var k := |m| - 3;
    && (k == 1 || k == 2)
    && (forall i :: 0 <= i < k ==> IsDigit(m[i]))
    && m[k] == ':'
    && IsDigit(m[k + 1]) && IsDigit(m[k + 2])
  }

  /** The regex at the start of `t`, as the backtracking engine runs it:
      `\d{1,2}` first takes two digits and only falls back to one when the
      rest of the pattern fails after two. */
  function TimestampAt(t: string): nat {
    if |t| >= 5 && IsDigit(t[0]) && IsDigit(t[1]) && t[2] == ':' && IsDigit(t[3]) && IsDigit(t[4]) then 5
    else if |t| >= 4 && IsDigit(t[0]) && t[1] == ':' && IsDigit(t[2]) && IsDigit(t[3]) then 4
    else 0
  }

  /** The text of the anchor: the stopwatch, a space and the timestamp. */
  function Label(m: string): string {
    Stopwatch + " " + m
  }

  /** The markdown link a timestamp is replaced by. */
  function Anchor(m: string): string {
    "[" + Label(m) + "](" + Href + ")"
  }

  /** `processContent` of src/components/ContentCard.jsx, and the first
      step of the frontend version. */
  function Wrap(text: string): string {
    Render(Tokenize(text, TimestampAt), Anchor)
  }

  /** The engine's match at the start of `t` is a timestamp, and it is the
      only prefix of `t` that is one: no other length could have been
      chosen, so the backtracking order does not matter. */
  lemma TimestampAtSpec(t: string)
    ensures TimestampAt(t) > 0 ==> TimestampAt(t) <= |t| && IsTimestamp(t[..TimestampAt(t)])
    ensures forall n :: 0 < n <= |t| && IsTimestamp(t[..n]) ==> n == TimestampAt(t)
  {
    forall n | 0 < n <= |t| && IsTimestamp(t[..n]) ensures n == TimestampAt(t) {
      assert t[..n][0] == t[0] && t[..n][1] == t[1];
      if n == 4 {
        assert t[..n][2] == t[2] && t[..n][3] == t[3];
      } else {
        assert t[..n][2] == t[2] && t[..n][3] == t[3] && t[..n][4] == t[4];
      }
    }
  }

  /** The wrapper adds 25 characters: `[`, the stopwatch (two code points),
      a space, and `](javascript:void(0))`. */
  lemma AnchorLength(m: string)
    ensures |Anchor(m)| == |m| + 25
  {
  }

  /** Wrapping cuts the text into kept characters and timestamps, left to
      right: every hit is a timestamp, and each hit is the match the scan
      finds where it stands. */
  lemma WrapSpec(text: string)
    ensures var ps := Tokenize(text, TimestampAt);
      && Flatten(ps) == text
      && Conforms(ps, TimestampAt)
      && forall k :: 0 <= k < |ps| && ps[k].Hit? ==> IsTimestamp(ps[k].m)
  {
    var ps := Tokenize(text, TimestampAt);
    TokenizeConforms(text, TimestampAt);
    forall k | 0 <= k < |ps| && ps[k].Hit? ensures IsTimestamp(ps[k].m) {
      var rest := Flatten(ps[k..]);
      HitIsMatch(ps, k, TimestampAt);
      TimestampAtSpec(rest);
    }
  }

  /** The output is the input plus 25 characters per wrapped timestamp. */
  lemma WrapLength(text: string)
    ensures |Wrap(text)| == |text| + 25 * HitCount(Tokenize(text, TimestampAt))
  {
    forall m ensures |Anchor(m)| == |m| + 25 {
      AnchorLength(m);
    }
    RenderLength(Tokenize(text, TimestampAt), Anchor, 25);
    FlattenTokenize(text, TimestampAt);
  }

  /** Text without a colon holds no timestamp and passes through unchanged. */
  lemma NoColonUnchanged(text: string)
    requires ':' !in text
    ensures Wrap(text) == text
  {
    forall i | 0 <= i < |text| ensures !MatchesHere(text[i..], TimestampAt) {
      MatchHoldsColon(text[i..]);
    }
    NoMatchUnchanged(text, TimestampAt, Anchor);
  }

  lemma MatchHoldsColon(t: string)
    ensures TimestampAt(t) > 0 ==> ':' in t
  {
    if TimestampAt(t) == 5 {
      assert t[2] == ':';
    } else if TimestampAt(t) == 4 {
      assert t[1] == ':';
    }
  }

  /** In "123:45" the scan finds nothing at the "1" (neither "12" nor "1"
      is followed by the colon) and wraps "23:45". */
  lemma ThreeLeadingDigits()
    ensures Wrap("123:45") == "1" + Anchor("23:45")
  {
    var a, b := "1", "23:45";
    LeadingOneSkipped(a, b);
    RenderNoMatchPrefix(a, b, TimestampAt, Anchor);
    WholeTimestamp(b);
  }

  lemma LeadingOneSkipped(a: string, b: string)
    requires a == "1" && b == "23:45"
    ensures a + b == "123:45"
    ensures forall i :: 0 <= i < |a| ==> !MatchesHere((a + b)[i..], TimestampAt)
  {
    assert (a + b)[0..] == "123:45";
  }

  /** A text that is one two-digit timestamp becomes one anchor. */
  lemma WholeTimestamp(b: string)
    requires |b| == 5 && IsDigit(b[0]) && IsDigit(b[1]) && b[2] == ':' && IsDigit(b[3]) && IsDigit(b[4])
    ensures Wrap(b) == Anchor(b)
  {
    assert b[..5] == b && b[5..] == "";
    RenderMatchFirst(b, TimestampAt, Anchor);
  }

  /** In "1:234" the one-digit alternative matches "1:23" and the last
      digit stays outside the anchor. */
  lemma ThreeTrailingDigits()
    ensures Wrap("1:234") == Anchor("1:23") + "4"
  {
    var t := "1:234";
    assert TimestampAt(t) == 4 && t[..4] == "1:23" && t[4..] == "4";
    RenderMatchFirst(t, TimestampAt, Anchor);
    assert !MatchesHere("4", TimestampAt);
    assert Tokenize("4", TimestampAt) == [Keep('4')] + Tokenize("", TimestampAt);
  }

  /** The characters the wrapper adds around a timestamp. */
  const Shell: string := "[" + Stopwatch + " " + "](" + Href + ")"

  /** A class of characters absent from the wrapper keeps its count: the
      anchors only add wrapper characters around the matched text. */
  lemma WrapKeepsCount(text: string, p: char -> bool)
    requires forall i :: 0 <= i < |Shell| ==> !p(Shell[i])
    ensures CountWhere(Wrap(text), p) == CountWhere(text, p)
  {
    forall m ensures CountWhere(Anchor(m), p) == CountWhere(m, p) {
      AnchorCount(m, p);
    }
    RenderCount(Tokenize(text, TimestampAt), Anchor, p);
    FlattenTokenize(text, TimestampAt);
  }

  lemma AnchorCount(m: string, p: char -> bool)
    requires forall i :: 0 <= i < |Shell| ==> !p(Shell[i])
    ensures CountWhere(Anchor(m), p) == CountWhere(m, p)
  {
    var pre := "[" + Stopwatch + " ";
    var post := "](" + Href + ")";
    assert Anchor(m) == pre + m + post;
    assert Shell == pre + post;
    forall i | 0 <= i < |pre| ensures !p(pre[i]) {
      assert pre[i] == Shell[i];
    }
    forall i | 0 <= i < |post| ensures !p(post[i]) {
      assert post[i] == Shell[|pre| + i];
    }
    CountAppend(pre + m, post, p);
    CountAppend(pre, m, p);
    CountNone(pre, p);
    CountNone(post, p);
  }

  /** When every replacement keeps the count of the matched text, the
      rendered text keeps the count of the source. */
  lemma {:induction false} RenderCount(ps: seq<Piece>, f: string -> string, p: char -> bool)
    requires forall m :: CountWhere(f(m), p) == CountWhere(m, p)
    ensures CountWhere(Render(ps, f), p) == CountWhere(Flatten(ps), p)
    decreases |ps|
  {
    if |ps| > 0 {
      RenderCount(ps[1..], f, p);
      var head := match ps[0] case Keep(c) => [c] case Hit(m) => f(m);
      CountAppend(head, Render(ps[1..], f), p);
      CountAppend(PieceText(ps[0]), Flatten(ps[1..]), p);
    }
  }

  // ---------------------------------------------------------------------
  // The link renderer

  /** What the markdown renderer draws for a link: a timestamp button with
      the timestamp it recovered, or an ordinary link. */
  datatype LinkView = TimestampButton(timestamp: string) | PlainLink(href: string)

  /** `s.replace(p, r)` with a string pattern: only the first occurrence. */
  function ReplaceFirst(s: string, p: string, r: string): string {
    match FindFrom(s, p, 0)
    case Some(k) => s[..k] + r + s[k + |p|..]
    case None => s
  }

  /** The custom `a` renderer of src/components/ContentCard.jsx: the link is a timestamp
      when its target is `javascript:void(0)` and its first child's text
      contains the stopwatch; the timestamp is that text with the first
      "⏱️ " removed. A link without children is an ordinary link. */
  function RenderLink(href: string, child: Option<string>): LinkView {
    if href == Href && child.Some? && Contains(child.value, Stopwatch) then
      TimestampButton(ReplaceFirst(child.value, Stopwatch + " ", ""))
    else PlainLink(href)
  }

  /** The renderer recovers exactly the timestamp an anchor was made from. */
  lemma RecoverTimestamp(m: string)
    ensures RenderLink(Href, Some(Label(m))) == TimestampButton(m)
  {
    var l := Label(m);
    assert OccursAt(l, Stopwatch, 0);
    assert OccursAt(l, Stopwatch + " ", 0);
    assert l[3..] == m;
  }

  /** Recovery needs the stopwatch: a label without it, or a link with
      another target, is drawn as an ordinary link. */
  lemma NoStopwatchPlainLink(href: string, child: string)
    requires href != Href || !Contains(child, Stopwatch)
    ensures RenderLink(href, Some(child)) == PlainLink(href)
  {
  }

  /** What a renderer yields: a drawn link, or the error that aborts the
      rendering of the card. */
  datatype LinkOutcome = Drawn(view: LinkView) | RenderError

  /** The `a` renderer of frontend/src/components/ContentCard.jsx as
      written (both copies of it). On the timestamp branch the button's
      `title` reads `timestamp`, a name bound only inside the click handler,
      so building the element throws a ReferenceError. Every other link is
      drawn as the src version draws it. */
  function FrontendRenderLink(href: string, child: Option<string>): (o: LinkOutcome)
    ensures o.RenderError? <==> RenderLink(href, child).TimestampButton?
    ensures o.Drawn? ==> o.view == RenderLink(href, child)
  {
    if href == Href && child.Some? && Contains(child.value, Stopwatch) then RenderError
    else Drawn(PlainLink(href))
  }

  /** Every anchor the wrapping produces breaks the frontend renderer,
      while the src renderer turns it back into its timestamp. */
  lemma FrontendAnchorFails(m: string)
    ensures FrontendRenderLink(Href, Some(Label(m))) == RenderError
    ensures RenderLink(Href, Some(Label(m))) == TimestampButton(m)
  {
    RecoverTimestamp(m);
  }

  /** The anchor of "1:23" is a concrete input on which the two differ. */
  lemma FrontendAnchorExample()
    ensures FrontendRenderLink(Href, Some(Label("1:23"))) == RenderError
    ensures RenderLink(Href, Some(Label("1:23"))) == TimestampButton("1:23")
  {
    FrontendAnchorFails("1:23");
  }
}

=== FILE: url_input.dfy ===
/** `validateURL` and the decision logic of `handleSubmit` in
    src/components/URLInputModal.jsx. */
module UrlInput {
  import opened Text

  /** The length of the scheme the anchored pattern `^(https?:\/\/)?`
      consumes. The group is taken whenever it is there: what follows must
      start with "www." or "youtu", never with "http". */
  function SchemeLength(url: string): nat {
    if StartsWith(url, "https://") then 8
    else if StartsWith(url, "http://") then 7
    else 0
  }

  /** The length of `(www\.)?` at the start of `a`. */
  function WwwLength(a: string): nat {
    if StartsWith(a, "www.") then 4 else 0
  }

  /** `validateURL(url)`: `/^(https?:\/\/)?(www\.)?(youtube\.com|youtu\.be)\//`,
      case-sensitive, on the string as typed. */
  predicate ValidateUrl(url: string) {
    var a := url[SchemeLength(url)..];
    var b := a[WwwLength(a)..];
    StartsWith(b, "youtube.com/") || StartsWith(b, "youtu.be/")
  }

  /** The parts of an accepted prefix: no scheme, http or https; with or
      without "www."; the long or the short host, each with its slash. */
  const Schemes: seq<string> := ["", "http://", "https://"]
  const WwwParts: seq<string> := ["", "www."]
  const Hosts: seq<string> := ["youtube.com/", "youtu.be/"]

  /** The twelve accepted prefixes, numbered: scheme `i / 4`, "www." part
      `i % 4 / 2` and host `i % 2`. */
  function Prefix(i: nat): string
    requires i < 12
  {
    Schemes[i / 4] + WwwParts[i % 4 / 2] + Hosts[i % 2]
  }

  predicate HasListedPrefix(url: string) {
    exists i :: 0 <= i < 12 && StartsWith(url, Prefix(i))
  }

  lemma StartsWithConcat(s: string, a: string, b: string)
    ensures StartsWith(s, a + b) <==> StartsWith(s, a) && StartsWith(s[|a|..], b)
  {
    if StartsWith(s, a + b) {
      assert s[..|a|] == (a + b)[..|a|] == a;
      assert s[|a|..][..|b|] == s[|a|..|a| + |b|] == (a + b)[|a|..];
    }
    if StartsWith(s, a) && StartsWith(s[|a|..], b) {
      assert s[..|a| + |b|] == s[..|a|] + s[|a|..][..|b|];
    }
  }

  /** What the scanner sees after the scheme and the "www." it took. */
  function Rest(url: string): string {
    var a := url[SchemeLength(url)..];
    a[WwwLength(a)..]
  }

  /** A string beginning "www." or "youtu" does not begin with "http". */
  lemma NotHttp(a: string)
    requires StartsWith(a, "www.") || StartsWith(a, "youtu")
    ensures SchemeLength(a) == 0
  {
    assert a[0] == 'w' || a[0] == 'y';
    FirstCharDiffers(a, "http://");
    FirstCharDiffers(a, "https://");
  }

  /** A string does not start with a word whose first character it lacks. */
  lemma FirstCharDiffers(a: string, p: string)
    ensures |a| > 0 && |p| > 0 && a[0] != p[0] ==> !StartsWith(a, p)
  {
    if |a| > 0 && |p| > 0 && StartsWith(a, p) {
      assert a[..|p|][0] == a[0];
    }
  }

  lemma NotWww(b: string)
    requires StartsWith(b, "youtu")
    ensures WwwLength(b) == 0
  {
    assert b[0] == 'y';
    FirstCharDiffers(b, "www.");
  }

  lemma HostStart(b: string)
    requires StartsWith(b, "youtube.com/") || StartsWith(b, "youtu.be/")
    ensures StartsWith(b, "youtu")
  {
    if StartsWith(b, "youtube.com/") {
      StartsWithConcat(b, "youtu", "be.com/");
      assert "youtu" + "be.com/" == "youtube.com/";
    } else {
      StartsWithConcat(b, "youtu", ".be/");
      assert "youtu" + ".be/" == "youtu.be/";
    }
  }

  /** After a known scheme and "www." part the scanner looks at the host. */
  lemma ScanParts(url: string, s: string, w: string, b: string)
    requires s == "" || s == "http://" || s == "https://"
    requires w == "" || w == "www."
    requires url == s + w + b
    requires StartsWith(b, "youtu")
    ensures Rest(url) == b
  {
    var a := w + b;
    assert url == s + a;
    WwwStep(a, w, b);
    SchemeStep(url, s, a);
  }

  /** The optional "www." is taken exactly when it is there. */
  lemma WwwStep(a: string, w: string, b: string)
    requires w == "" || w == "www."
    requires a == w + b && StartsWith(b, "youtu")
    ensures WwwLength(a) == |w| && a[|w|..] == b
    ensures StartsWith(a, "www.") || StartsWith(a, "youtu")
  {
    if w == "" {
      NotWww(b);
      assert a == b;
    } else {
      StartsWithConcat(a, w, b);
    }
  }

  /** The optional scheme is taken exactly when it is there. */
  lemma SchemeStep(url: string, s: string, a: string)
    requires s == "" || s == "http://" || s == "https://"
    requires url == s + a
    requires StartsWith(a, "www.") || StartsWith(a, "youtu")
    ensures SchemeLength(url) == |s| && url[|s|..] == a
  {
    if s == "" {
      NotHttp(a);
      assert url == a;
    } else if s == "http://" {
      assert url[4] == ':';
      assert !StartsWith(url, "https://") by {
        assert url[..8][4] == url[4];
      }
      assert StartsWith(url, "http://") by {
        assert url[..7] == s;
      }
    } else {
      assert StartsWith(url, "https://") by {
        assert url[..8] == s;
      }
    }
  }

  /** The scanner accepts exactly the strings that begin with one of the
      twelve prefixes. */
  lemma ValidateUrlPrefixes(url: string)
    ensures ValidateUrl(url) <==> HasListedPrefix(url)
  {
    if ValidateUrl(url) {
      ValidIsListed(url);
    }
    if HasListedPrefix(url) {
      var i :| 0 <= i < 12 && StartsWith(url, Prefix(i));
      ListedIsValid(url, i);
    }
  }

  lemma ValidIsListed(url: string)
    requires ValidateUrl(url)
    ensures HasListedPrefix(url)
  {
    ScanIndex(url);
  }

  /** The number of the prefix the scanner reads. */
  function ScanIndexOf(url: string): nat {
    var a := url[SchemeLength(url)..];
    4 * SchemeIndex(url) + 2 * WwwIndex(a) + HostIndex(Rest(url))
  }

  /** An accepted string starts with the prefix the scanner read. */
  lemma ScanIndex(url: string)
    requires ValidateUrl(url)
    ensures ScanIndexOf(url) < 12 && StartsWith(url, Prefix(ScanIndexOf(url)))
  {
    var n := SchemeLength(url);
    var a := url[n..];
    var m := WwwLength(a);
    var b := a[m..];
    SchemeWord(url);
    WwwWord(a);
    HostWord(b);
    var si, wi, hi := SchemeIndex(url), WwwIndex(a), HostIndex(b);
    var i := 4 * si + 2 * wi + hi;
    assert ScanIndexOf(url) == i;
    IndexParts(si, wi, hi);
    ScanSplit(url);
    PrefixOfParts(url, Schemes[si] + WwwParts[wi], b, Hosts[hi]);
  }

  /** The scanner's three parts make up the string. */
  lemma ScanSplit(url: string)
    ensures var a := url[SchemeLength(url)..];
      url == url[..SchemeLength(url)] + a[..WwwLength(a)] + Rest(url)
  {
    var n := SchemeLength(url);
    var a := url[n..];
    SplitThree(url, n, WwwLength(a));
  }

  lemma SplitThree(url: string, n: nat, m: nat)
    requires n <= |url| && m <= |url| - n
    ensures url == url[..n] + url[n..][..m] + url[n..][m..]
  {
    var a := url[n..];
    assert a == a[..m] + a[m..];
    assert url == url[..n] + a;
  }

  /** The number of the scheme the scanner takes. */
  function SchemeIndex(url: string): nat {
    if StartsWith(url, "https://") then 2
    else if StartsWith(url, "http://") then 1
    else 0
  }

  function WwwIndex(a: string): nat {
    if StartsWith(a, "www.") then 1 else 0
  }

  function HostIndex(b: string): nat {
    if StartsWith(b, "youtube.com/") then 0 else 1
  }

  /** The scheme the scanner takes is the listed scheme of its number. */
  lemma SchemeWord(url: string)
    ensures SchemeIndex(url) < 3 && Schemes[SchemeIndex(url)] == url[..SchemeLength(url)]
  {
  }

  /** The "www." part the scanner takes is the listed part of its number. */
  lemma WwwWord(a: string)
    ensures WwwIndex(a) < 2 && WwwParts[WwwIndex(a)] == a[..WwwLength(a)]
  {
  }

  lemma HostWord(b: string)
    requires StartsWith(b, "youtube.com/") || StartsWith(b, "youtu.be/")
    ensures HostIndex(b) < 2 && StartsWith(b, Hosts[HostIndex(b)])
  {
  }

  /** Prefix number `4 * si + 2 * wi + hi` is made of scheme `si`, "www."
      part `wi` and host `hi`. */
  lemma IndexParts(si: nat, wi: nat, hi: nat)
    requires si < 3 && wi < 2 && hi < 2
    ensures var i := 4 * si + 2 * wi + hi;
      && i < 12 && Prefix(i) == Schemes[si] + WwwParts[wi] + Hosts[hi]
  {
    var i := 4 * si + 2 * wi + hi;
    assert i / 4 == si && i % 4 / 2 == wi && i % 2 == hi;
  }

  lemma PrefixOfParts(url: string, sw: string, b: string, h: string)
    requires url == sw + b && StartsWith(b, h)
    ensures StartsWith(url, sw + h)
  {
    assert url[..|sw| + |h|] == sw + b[..|h|];
  }

  /** The three parts of prefix `i`. */
  lemma PrefixParts(i: nat)
    requires i < 12
    ensures var s := Schemes[i / 4]; s == "" || s == "http://" || s == "https://"
    ensures var w := WwwParts[i % 4 / 2]; w == "" || w == "www."
    ensures var h := Hosts[i % 2]; h == "youtube.com/" || h == "youtu.be/"
  {
  }

  lemma ListedIsValid(url: string, i: nat)
    requires i < 12 && StartsWith(url, Prefix(i))
    ensures ValidateUrl(url)
  {
    var s, w, h := Schemes[i / 4], WwwParts[i % 4 / 2], Hosts[i % 2];
    PrefixParts(i);
    StartsWithConcat(url, s + w, h);
    StartsWithConcat(url, s, w);
    var b := url[|s + w|..];
    assert url == s + w + b;
    HostStart(b);
    ScanParts(url, s, w, b);
  }

  /** Every accepted string holds a '/'. */
  lemma ValidHasSlash(url: string)
    ensures ValidateUrl(url) ==> '/' in url
  {
    if ValidateUrl(url) {
      var n := SchemeLength(url);
      var a := url[n..];
      var b := a[WwwLength(a)..];
      var k := if StartsWith(b, "youtube.com/") then 11 else 8;
      assert b[k] == '/';
      assert url[n + WwwLength(a) + k] == b[k];
    }
  }

  /** A host without its trailing slash is rejected, with any scheme and
      "www." part: "https://youtube.com" is not a valid URL. */
  lemma BareHostRejected(url: string, s: string, w: string, h: string)
    requires s == "" || s == "http://" || s == "https://"
    requires w == "" || w == "www."
    requires h == "youtube.com" || h == "youtu.be"
    requires url == s + w + h
    ensures !ValidateUrl(url)
  {
    HostNotAccepted(h);
    ScanParts(url, s, w, h);
  }

  lemma HostNotAccepted(h: string)
    requires h == "youtube.com" || h == "youtu.be"
    ensures StartsWith(h, "youtu")
    ensures !StartsWith(h, "youtube.com/") && !StartsWith(h, "youtu.be/")
  {
    assert h[..5] == "youtu";
    if h == "youtube.com" {
      assert h[..9][5] == 'b';
      assert "youtu.be/"[5] == '.';
    }
  }

  /** Validation looks at the string as typed: an accepted string starts
      with a letter, so leading whitespace is rejected. */
  lemma ValidStartsWithLetter(url: string)
    ensures ValidateUrl(url) ==> |url| > 0 && (url[0] == 'h' || url[0] == 'w' || url[0] == 'y')
  {
    if ValidateUrl(url) {
      ValidIsListed(url);
      var i: nat :| i < 12 && StartsWith(url, Prefix(i));
      PrefixShape(i);
      assert url[0] == Prefix(i)[0];
    }
  }

  // ---------------------------------------------------------------------
  // handleSubmit

  const EmptyError := "Please enter a URL"
  const InvalidError := "Please enter a valid YouTube URL"

  /** The modal's state: the error line it shows, and the URLs it has
      passed to `onSubmit` so far. */
  datatype Modal = Modal(error: string, submitted: seq<string>)

  /** `handleSubmit`: the error is cleared, then an input that trims to
      nothing, or that fails validation as typed, sets an error; otherwise
      the trimmed input is submitted. */
  function Submit(m: Modal, url: string): Modal {
    var cleared := m.(error := "");
    if Trim(url) == "" then cleared.(error := EmptyError)
    else if !ValidateUrl(url) then cleared.(error := InvalidError)
    else cleared.(submitted := m.submitted + [Trim(url)])
  }

  /** Every submit ends in exactly one way: an error and nothing submitted,
      or no error and the trimmed URL submitted once. The outcome does not
      depend on the error shown before. */
  lemma SubmitOutcome(m: Modal, m2: Modal, url: string)
    requires m2.submitted == m.submitted
    ensures var r := Submit(m, url);
      || (r.error != "" && r.submitted == m.submitted)
      || (r.error == "" && r.submitted == m.submitted + [Trim(url)])
    ensures Submit(m, url) == Submit(m2, url)
  {
  }

  /** A valid URL is submitted trimmed, with the error cleared. A valid
      URL starts with a letter, so it is never blank. */
  lemma ValidSubmitted(m: Modal, url: string)
    requires ValidateUrl(url)
    ensures Submit(m, url) == Modal("", m.submitted + [Trim(url)])
  {
    ValidStartsWithLetter(url);
    assert !IsSpace(url[0]);
  }

  /** A non-blank URL that fails validation is rejected as invalid, and
      nothing is submitted. */
  lemma InvalidRejected(m: Modal, url: string)
    requires Trim(url) != "" && !ValidateUrl(url)
    ensures Submit(m, url) == Modal(InvalidError, m.submitted)
  {
  }

  /** A submit goes through exactly when the URL as typed is valid. */
  lemma SubmitSucceedsIff(m: Modal, url: string)
    ensures Submit(m, url).error == "" <==> ValidateUrl(url)
    ensures Submit(m, url).error == "" <==> |Submit(m, url).submitted| == |m.submitted| + 1
  {
    if ValidateUrl(url) {
      ValidSubmitted(m, url);
    }
  }

  /** Blank input asks for a URL and submits nothing. */
  lemma BlankInput(m: Modal, url: string)
    requires forall i :: 0 <= i < |url| ==> IsSpace(url[i])
    ensures Submit(m, url) == Modal(EmptyError, m.submitted)
  {
  }

  /** A padded URL is rejected as invalid even though it trims to a valid
      one. */
  lemma PaddedUrlRejected(m: Modal, url: string)
    requires |url| > 0 && IsSpace(url[0]) && ValidateUrl(Trim(url))
    ensures Submit(m, url) == Modal(InvalidError, m.submitted)
  {
    ValidStartsWithLetter(url);
    ValidStartsWithLetter(Trim(url));
  }

  /** What is submitted passes validation itself: trimming a valid URL
      only drops trailing whitespace after the prefix. */
  lemma SubmittedIsValid(m: Modal, url: string)
    requires Submit(m, url).error == ""
    ensures |Submit(m, url).submitted| == |m.submitted| + 1
    ensures ValidateUrl(Submit(m, url).submitted[|m.submitted|])
  {
    assert ValidateUrl(url) && Submit(m, url).submitted == m.submitted + [Trim(url)];
    TrimmedValid(url);
  }

  /** Trimming keeps a valid URL valid. */
  lemma TrimmedValid(url: string)
    requires ValidateUrl(url)
    ensures ValidateUrl(Trim(url))
  {
    ValidIsListed(url);
    var i: nat :| i < 12 && StartsWith(url, Prefix(i));
    ListedPrefixTrimmed(url, i);
    ListedIsValid(Trim(url), i);
  }

  lemma ListedPrefixTrimmed(url: string, i: nat)
    requires i < 12 && StartsWith(url, Prefix(i))
    ensures StartsWith(Trim(url), Prefix(i))
  {
    var p := Prefix(i);
    PrefixShape(i);
    assert url[0] == p[0] && url[|p| - 1] == p[|p| - 1];
    TrimKeepsPrefix(url, p);
  }

  /** Every listed prefix starts with 'h', 'w' or 'y' and ends with '/'. */
  lemma PrefixShape(i: nat)
    requires i < 12
    ensures var p := Prefix(i);
      && |p| > 0 && (p[0] == 'h' || p[0] == 'w' || p[0] == 'y') && p[|p| - 1] == '/'
  {
    PrefixParts(i);
    var s, w, h := Schemes[i / 4], WwwParts[i % 4 / 2], Hosts[i % 2];
    var p := s + w + h;
    assert p[|p| - 1] == h[|h| - 1];
    if |s| > 0 {
      assert p[0] == s[0];
    } else if |w| > 0 {
      assert p[0] == w[0];
    } else {
      assert p[0] == h[0];
    }
  }

  /** Trimming a string that starts and whose prefix ends with a
      non-space keeps the prefix. */
  lemma TrimKeepsPrefix(s: string, p: string)
    requires |p| > 0 && StartsWith(s, p)
    requires !IsSpace(s[0]) && !IsSpace(s[|p| - 1])
    ensures StartsWith(Trim(s), p)
  {
    var t := TrimStart(s);
    assert t == s;
    var r := TrimEnd(t);
    assert Trim(s) == r;
    assert |r| >= |p|;
    assert r[..|p|] == s[..|p|];
  }
}

=== FILE: video_metadata.dfy ===
/** `getVideoId` and the thumbnail address of
    src/components/VideoMetadata.jsx. The pattern
    `(?:youtube\.com\/watch\?v=|youtu\.be\/)([^&\n?#]+)` is unanchored: the
    engine tries each start from the left, takes whichever marker occurs
    there, and captures the longest run of id characters after it. */
module VideoMetadata {
  import opened Text

  const WatchMarker: string := "youtube.com/watch?v="
  const ShortMarker: string := "youtu.be/"

  /** A character of `[^&\n?#]`. */
  predicate IsIdChar(c: char) {
    c != '&' && c != '\n' && c != '?' && c != '#'
  }

  predicate IsMarker(m: string) {
    m == WatchMarker || m == ShortMarker
  }

  /** The length of the marker the alternation takes at `q`, or 0. The two
      markers differ at their sixth character, so at most one occurs. */
  function MarkerAt(url: string, q: nat): (k: nat)
    ensures k > 0 ==> q + k <= |url|
  {
    if OccursAt(url, WatchMarker, q) then |WatchMarker|
    else if OccursAt(url, ShortMarker, q) then |ShortMarker|
    else 0
  }

  /** Where the longest run of id characters starting at `s` ends. */
  function RunEnd(url: string, s: nat): (e: nat)
    requires s <= |url|
    ensures s <= e <= |url|
    ensures forall i :: s <= i < e ==> IsIdChar(url[i])
    ensures e == |url| || !IsIdChar(url[e])
    decreases |url| - s
  {
    if s == |url| || !IsIdChar(url[s]) then s else RunEnd(url, s + 1)
  }

  /** A run of id characters from `s`, stopped at `e`, ends where `RunEnd`
      says: the greedy run is unique. */
  lemma RunEndUnique(url: string, s: nat, e: nat)
    requires s <= e <= |url|
    requires forall i :: s <= i < e ==> IsIdChar(url[i])
    requires e == |url| || !IsIdChar(url[e])
    ensures RunEnd(url, s) == e
  {
  }

  /** Whether the whole pattern matches at `q`. */
  predicate MatchesAt(url: string, q: nat) {
    var k := MarkerAt(url, q);
    k > 0 && RunEnd(url, q + k) > q + k
  }

  /** The first start at or after `from` where the pattern matches. */
  function FirstMatchFrom(url: string, from: nat): (r: Option<nat>)
    ensures r.Some? ==> from <= r.value <= |url| && MatchesAt(url, r.value)
    ensures r.Some? ==> forall q: nat :: from <= q < r.value ==> !MatchesAt(url, q)
    ensures r.None? ==> forall q: nat :: from <= q <= |url| ==> !MatchesAt(url, q)
    decreases |url| + 1 - from
  {
    if from > |url| then None
    else if MatchesAt(url, from) then Some(from)
    else FirstMatchFrom(url, from + 1)
  }

  /** `getVideoId(url)`: capture group 1 of the leftmost match, or `null`. */
  function GetVideoId(url: string): Option<string> {
    match FirstMatchFrom(url, 0)
    case Some(q) =>
      var s := q + MarkerAt(url, q);
      Some(url[s..RunEnd(url, s)])
    case None => None
  }

  /** A greedy match, stated without the scanner: marker `m` at `q`, then
      id characters up to `e`, and no id character right after `e`. */
  predicate IdMatch(url: string, q: nat, m: string, e: nat) {
    && IsMarker(m)
    && OccursAt(url, m, q)
    && q + |m| < e <= |url|
    && (forall i :: q + |m| <= i < e ==> IsIdChar(url[i]))
    && (e == |url| || !IsIdChar(url[e]))
  }

  /** The markers never occur at the same place. */
  lemma MarkersExclusive(url: string, q: nat)
    ensures !(OccursAt(url, WatchMarker, q) && OccursAt(url, ShortMarker, q))
  {
    if OccursAt(url, WatchMarker, q) {
      assert url[q + 5] == WatchMarker[5] == 'b';
      assert ShortMarker[5] == '.';
      assert url[q..q + |ShortMarker|][5] == url[q + 5];
    }
  }

  /** The scanner's match at `q` is the greedy match there, and any greedy
      match at `q` is the scanner's. */
  lemma MatchesAtIff(url: string, q: nat, m: string, e: nat)
    ensures MatchesAt(url, q) ==>
      var k := MarkerAt(url, q);
      IdMatch(url, q, url[q..q + k], RunEnd(url, q + k))
    ensures IdMatch(url, q, m, e) ==>
      MarkerAt(url, q) == |m| && RunEnd(url, q + |m|) == e
  {
    if IdMatch(url, q, m, e) {
      GreedyIsScanMatch(url, q, m, e);
    }
  }

  /** A greedy match fixes both the marker and the end of the id. */
  lemma GreedyIsScanMatch(url: string, q: nat, m: string, e: nat)
    requires IdMatch(url, q, m, e)
    ensures MarkerAt(url, q) == |m| && RunEnd(url, q + |m|) == e
  {
    MarkersExclusive(url, q);
    RunEndUnique(url, q + |m|, e);
  }

  /** A greedy match with no greedy match starting further left. */
  ghost predicate LeftmostIdMatch(url: string, q: nat, m: string, e: nat) {
    && IdMatch(url, q, m, e)
    && forall q': nat, m': string, e': nat :: q' < q ==> !IdMatch(url, q', m', e')
  }

  /** The id, when there is one, is the capture of the leftmost greedy
      match; there is none exactly when no marker is followed by an id
      character. */
  lemma GetVideoIdSpec(url: string)
    ensures GetVideoId(url).Some? ==> exists q: nat, m: string, e: nat ::
      LeftmostIdMatch(url, q, m, e) && GetVideoId(url).value == url[q + |m|..e]
    ensures GetVideoId(url).None? <==> forall q: nat, m: string, e: nat :: !IdMatch(url, q, m, e)
  {
    if FirstMatchFrom(url, 0).Some? {
      var q := FirstMatchFrom(url, 0).value;
      var k := MarkerAt(url, q);
      var m, e := url[q..q + k], RunEnd(url, q + k);
      FoundSpec(url, q);
      assert LeftmostIdMatch(url, q, m, e);
    } else {
      NotFoundSpec(url);
    }
  }

  /** The first match the search finds is the leftmost greedy match, and
      its capture is the id. */
  lemma FoundSpec(url: string, q: nat)
    requires FirstMatchFrom(url, 0) == Some(q)
    ensures var k := MarkerAt(url, q);
      var m := url[q..q + k];
      var e := RunEnd(url, q + k);
      && LeftmostIdMatch(url, q, m, e)
      && GetVideoId(url) == Some(url[q + |m|..e])
  {
    NoEarlierIdMatch(url, q);
  }

  /** No greedy match starts where the scanner finds no match. */
  lemma NoEarlierIdMatch(url: string, q: nat)
    requires forall q': nat :: q' < q ==> !MatchesAt(url, q')
    ensures forall q': nat, m': string, e': nat :: q' < q ==> !IdMatch(url, q', m', e')
  {
    forall q': nat, m': string, e': nat | q' < q && IdMatch(url, q', m', e') ensures false {
      IdMatchMatches(url, q', m', e');
    }
  }

  /** When the search finds nothing there is no greedy match anywhere. */
  lemma NotFoundSpec(url: string)
    requires FirstMatchFrom(url, 0).None?
    ensures forall q: nat, m: string, e: nat :: !IdMatch(url, q, m, e)
  {
    forall q: nat, m: string, e: nat | IdMatch(url, q, m, e) ensures false {
      IdMatchMatches(url, q, m, e);
    }
  }

  /** A greedy match is a place where the scanner matches. */
  lemma IdMatchMatches(url: string, q: nat, m: string, e: nat)
    requires IdMatch(url, q, m, e)
    ensures q <= |url| && MatchesAt(url, q)
  {
    GreedyIsScanMatch(url, q, m, e);
    assert |m| > 0;
  }

  /** What an id looks like: non-empty, free of `&`, newline, `?` and `#`,
      right after a marker, and running to the end of the URL or to one of
      those characters. */
  ghost predicate ShapedId(url: string, id: string) {
    && id != ""
    && (forall i :: 0 <= i < |id| ==> IsIdChar(id[i]))
    && exists q: nat, m: string ::
      (OccursAt(url, m + id, q) && IsMarker(m)
       && (q + |m| + |id| == |url| || !IsIdChar(url[q + |m| + |id|])))
  }

  /** Every id `getVideoId` returns has that shape. */
  lemma VideoIdShape(url: string)
    ensures GetVideoId(url).Some? ==> ShapedId(url, GetVideoId(url).value)
  {
    if FirstMatchFrom(url, 0).Some? {
      var q := FirstMatchFrom(url, 0).value;
      var k := MarkerAt(url, q);
      var m, e := url[q..q + k], RunEnd(url, q + k);
      CaptureShape(url, q, m, e, url[q + |m|..e]);
    }
  }

  lemma CaptureShape(url: string, q: nat, m: string, e: nat, id: string)
    requires IdMatch(url, q, m, e) && id == url[q + |m|..e]
    ensures ShapedId(url, id)
  {
    assert url[q..e] == url[q..q + |m|] + id;
    forall i | 0 <= i < |id| ensures IsIdChar(id[i]) {
      assert id[i] == url[q + |m| + i];
    }
    assert OccursAt(url, m + id, q);
  }

  /** With no 'y' before the marker no earlier match is possible: both
      markers start with 'y'. So "https://m.youtube.com/watch?v=abc" gives
      "abc", and "https://youtu.be/abc&t=10" gives "abc". */
  lemma FirstMarkerWins(pre: string, m: string, rest: string)
    requires forall i :: 0 <= i < |pre| ==> pre[i] != 'y'
    requires IsMarker(m)
    requires |rest| > 0 && IsIdChar(rest[0])
    ensures GetVideoId(pre + m + rest) == Some(rest[..RunEnd(rest, 0)])
  {
    FirstMarkerIn(pre + m + rest, pre, m, rest);
  }

  lemma FirstMarkerIn(url: string, pre: string, m: string, rest: string)
    requires url == pre + m + rest
    requires forall i :: 0 <= i < |pre| ==> pre[i] != 'y'
    requires IsMarker(m)
    requires |rest| > 0 && IsIdChar(rest[0])
    ensures GetVideoId(url) == Some(rest[..RunEnd(rest, 0)])
  {
    MarkerHere(url, pre, m, rest);
    NoMatchBefore(pre, m, rest);
    FirstMatchIs(url, |pre|);
    IdAfterFirstMatch(url, |pre|, |m|, rest);
  }

  /** After the first match, the id is the run of id characters that
      follows its marker. */
  lemma IdAfterFirstMatch(url: string, q: nat, k: nat, rest: string)
    requires FirstMatchFrom(url, 0) == Some(q) && MarkerAt(url, q) == k
    requires q + k <= |url| && url[q + k..] == rest
    ensures GetVideoId(url) == Some(rest[..RunEnd(rest, 0)])
  {
    RunOfRest(url, q + k, rest);
  }

  /** The run after `s` is the run at the start of the text from `s`. */
  lemma RunOfRest(url: string, s: nat, rest: string)
    requires s <= |url| && url[s..] == rest
    ensures url[s..RunEnd(url, s)] == rest[..RunEnd(rest, 0)]
  {
    var e := RunEnd(url, s);
    forall i | 0 <= i < e - s ensures IsIdChar(rest[i]) {
      assert rest[i] == url[s + i];
    }
    if e < |url| {
      assert rest[e - s] == url[e];
    }
    RunEndUnique(rest, 0, e - s);
  }

  lemma NoMatchBefore(pre: string, m: string, rest: string)
    requires forall i :: 0 <= i < |pre| ==> pre[i] != 'y'
    ensures forall q: nat :: q < |pre| ==> !MatchesAt(pre + m + rest, q)
  {
    forall q: nat | q < |pre| ensures !MatchesAt(pre + m + rest, q) {
      NoMarkerBefore(pre, m, rest, q);
    }
  }

  lemma MarkerHere(url: string, pre: string, m: string, rest: string)
    requires url == pre + m + rest
    requires IsMarker(m)
    requires |rest| > 0 && IsIdChar(rest[0])
    ensures MarkerAt(url, |pre|) == |m| && url[|pre| + |m|..] == rest && MatchesAt(url, |pre|)
  {
    assert url[|pre|..|pre| + |m|] == m;
    assert url[|pre| + |m|..] == rest;
    assert url[|pre| + |m|] == rest[0];
    MarkersExclusive(url, |pre|);
  }

  lemma NoMarkerBefore(pre: string, m: string, rest: string, q: nat)
    requires forall i :: 0 <= i < |pre| ==> pre[i] != 'y'
    requires q < |pre|
    ensures MarkerAt(pre + m + rest, q) == 0
  {
    var url := pre + m + rest;
    assert url[q] == pre[q];
    FirstCharDiffers(url, q, WatchMarker);
    FirstCharDiffers(url, q, ShortMarker);
  }

  lemma FirstCharDiffers(url: string, q: nat, p: string)
    ensures q < |url| && |p| > 0 && url[q] != p[0] ==> !OccursAt(url, p, q)
  {
    if q < |url| && |p| > 0 && OccursAt(url, p, q) {
      assert url[q..q + |p|][0] == url[q];
    }
  }

  /** The search stops at the first start that matches. */
  lemma FirstMatchIs(url: string, q: nat)
    requires MatchesAt(url, q)
    requires forall q': nat :: q' < q ==> !MatchesAt(url, q')
    ensures FirstMatchFrom(url, 0) == Some(q)
  {
    var r := FirstMatchFrom(url, 0);
    assert q <= |url|;
    assert r.Some?;
    assert !(r.value < q);
    assert !(q < r.value);
  }

  // ---------------------------------------------------------------------
  // The thumbnail

  const ThumbnailPrefix: string := "https://img.youtube.com/vi/"
  const ThumbnailSuffix: string := "/maxresdefault.jpg"

  /** `thumbnailUrl`: the largest still of the video when an id was found. */
  function Thumbnail(url: string): Option<string> {
    match GetVideoId(url)
    case Some(id) => Some(ThumbnailPrefix + id + ThumbnailSuffix)
    case None => None
  }

  /** The id a thumbnail address was made from. */
  function ThumbnailId(t: string): Option<string> {
    if |t| >= |ThumbnailPrefix| + |ThumbnailSuffix|
      && t[..|ThumbnailPrefix|] == ThumbnailPrefix
      && t[|t| - |ThumbnailSuffix|..] == ThumbnailSuffix
    then Some(t[|ThumbnailPrefix|..|t| - |ThumbnailSuffix|])
    else None
  }

  /** The thumbnail address gives back the id it was built from, and there
      is a thumbnail exactly when there is an id. */
  lemma ThumbnailRoundTrip(url: string)
    ensures Thumbnail(url).Some? <==> GetVideoId(url).Some?
    ensures Thumbnail(url).Some? ==> ThumbnailId(Thumbnail(url).value) == GetVideoId(url)
  {
    if GetVideoId(url).Some? {
      var id := GetVideoId(url).value;
      var t := ThumbnailPrefix + id + ThumbnailSuffix;
      assert t[..|ThumbnailPrefix|] == ThumbnailPrefix;
      assert t[|t| - |ThumbnailSuffix|..] == ThumbnailSuffix;
      assert t[|ThumbnailPrefix|..|t| - |ThumbnailSuffix|] == id;
    }
  }
}
